=== FILE: README.md ===
# Job-search backend, modelled in Dafny

This project models the core of a job-search and auto-apply backend.

- A research pipeline turns an uploaded resume into a profile. It gathers job leads for that profile and has a matcher score them. It stores the best matches and records the run's status per resume.
- An applier agent fills in job applications. It keeps a credential store of the accounts it creates, with passwords from a strong-password generator.
- The HTTP API covers agents (start research, read matches, start an application), profile (read, update, parse a resume), uploads (upload, list and delete resumes) and authentication (password check, token claims, a cached user lookup).

Everything outside the program's own logic is a parameter of the model:

- the language model;
- the browser agent;
- the search engine and HTTP fetches;
- the database and file storage;
- the clock and the random draws.

Each such call is an oracle, and its failure is a value: `None` or a `Failure`. Python behaviour the code relies on is written out: truthiness, `dict.get`, `in` on a non-dict value raising, `str.strip`/`rstrip`, `os.path.splitext`, `os.path.basename`, `urlparse(...).netloc`, the stable `list.sort(reverse=True)` and `random.shuffle`. A raised exception is modelled as `None`, a `Failure`, or a `Raised` outcome.

Modules follow the program's files:

- `LegacyResearcher`: agents/researcher.py.
- `Researcher`: app/agents/researcher.py.
- `GoogleResearcher`: app/agents/google_researcher.py.
- `Matcher`: app/agents/matcher.py.
- `Credentials`: the credential store of agents/applier.py.
- `Password`: utils/password_generator.py.
- `ResumeParser`: the schema mapping of app/utils/resume_parser.py.
- `FencedJson`: the "JSON or fenced JSON or raw text" decoding shared by app/services/agent_runner.py and app/api/profile.py.
- `AgentRunner`: app/services/agent_runner.py.
- `AgentsApi`: app/api/agents.py.
- `ProfileApi`: app/api/profile.py.
- `Uploads`: app/api/uploads.py.
- `Auth`: app/api/auth.py.

The supporting modules are `Wrappers` (`Option`, `Result`), `Json` (a JSON value and the dict operations), `Text` (strip, lower, replace, containment), `Seqs` (flatten, chunks, subsequences), `Sorting` (a stable descending insertion sort), `Shuffle` (Fisher–Yates on sequences), `Url` (the netloc of a URL) and `Leads`.

## Model

| member | source | states |
|---|---|---|
| Matcher.AnalyzeLead | app/agents/matcher.py:52-91 | A judge that raises, in the call or in `json.loads`, yields a rejection with score 0 and reason "Error: " plus the message. Otherwise the decoded answer is passed on as it is, whatever its shape. |
| Matcher.Read | app/agents/matcher.py:37-39 | An analysis raises when it is not a dict, lacks `is_match`, or has a truthy `is_match` but lacks `score` or `reason`. A falsy `is_match` rejects, and a truthy one matches with the answer's own score and reason. |
| Matcher.MalformedAnswerFailsBatch | app/agents/matcher.py:36-39 | One answer that is not a dict, lacks `is_match`, or matches without `score` makes the whole batch raise. |
| Matcher.StringFalseAccepts | app/agents/matcher.py:37 | `is_match` is read by truthiness: the string "false" accepts the lead. |
| Matcher.MixedScoresRaise | app/agents/matcher.py:46 | One accepted numeric score and one accepted string score make the sort raise. |
| Matcher.AcceptedSound | app/agents/matcher.py:36-40 | Every accepted lead is some input lead, annotated with its own judge's score and reason, whose analysis was a match. |
| Matcher.AcceptedComplete | app/agents/matcher.py:36-40 | Every input lead whose analysis is a match appears, annotated, among the accepted leads. |
| Matcher.FilterAndScore | app/agents/matcher.py:17-50 | The batch raises iff some analysis is malformed, or the sort gets two or more keys that are not all numbers and not all strings. Otherwise the result is drawn from the accepted leads, as a sub-multiset, sorted by score with the highest first. For `limit >= 0` its length is min(limit, accepted). Every accepted lead left out scores no higher than every kept one. |
| Matcher.TopScored | app/agents/matcher.py:46-50 | Sorting then `[:limit]` gives a sub-multiset in descending key order, of length min(limit, n) for `limit >= 0`, that no left-out element outranks. |
| Matcher.FilterAndScoreStable | app/agents/matcher.py:46-50 | When the batch does not raise, leads with equal scores keep their input order: the stable sort, then the cut to `limit`. |
| Matcher.JudgeErrorDropsOnlyThatLead | app/agents/matcher.py:89-91 | A judge call that raises inside `_analyze_lead` reads as a rejection. That lead is never returned, and every other matching lead is still accepted. |
| Matcher.ScoreLeIsPreorder | app/agents/matcher.py:46 | Ordering by `match_score` (default 0) is a total preorder. Numbers and booleans compare by value, and strings compare by code points. |
| Sorting.SortDesc | app/agents/matcher.py:46 | The sorted sequence is a permutation of the input, in descending order. |
| Sorting.SortStable | app/agents/matcher.py:46 | Equal elements keep their relative order, as Python's stable `sort(reverse=True)` does. |
| GoogleResearcher.CleanTitle | app/agents/google_researcher.py:75-80 | A cleaned title is stripped and contains no quote, parenthesis or bracket characters. |
| GoogleResearcher.CleanTitleIdempotent | app/agents/google_researcher.py:75-80 | Cleaning a cleaned title changes nothing. |
| GoogleResearcher.CleanedAll | app/agents/google_researcher.py:75-80 | Every generated title is cleaned, position by position. |
| GoogleResearcher.KeptTitles | app/agents/google_researcher.py:81-83 | Keeps exactly the cleaned titles that pass the keep test, in their order. |
| GoogleResearcher.KeptTitleHasTwoWords | app/agents/google_researcher.py:81-83 | A kept title has more than one word. |
| GoogleResearcher.KeptTitlesClean | app/agents/google_researcher.py:75-83 | Every kept title is clean and has more than one word. |
| GoogleResearcher.GenerateTitles | app/agents/google_researcher.py:36-87 | An empty profile gives the single default title. Otherwise a `raw_text` that is not a string or a list raises at the slice, before the `try`; a failed generation gives the default title; and otherwise the result is exactly the first min(6, n) of the n cleaned titles that pass the keep test, in order. |
| GoogleResearcher.DefaultTitleClean | app/agents/google_researcher.py:42-43 | The default title passes the same cleanliness and two-word test. |
| GoogleResearcher.GeneratedTitlesClean | app/agents/google_researcher.py:36-87 | Whatever path returns titles, every title searched is clean and has more than one word. |
| GoogleResearcher.KeptAt | app/agents/google_researcher.py:75-83 | A title that passes the keep test is the next kept title after those kept before it, so its position among the kept titles is the number kept before it. |
| GoogleResearcher.GeneratedTitleKept | app/agents/google_researcher.py:45-85 | A generated title that passes the keep test is searched when fewer than 6 titles before it pass, unless slicing `raw_text` raised. Titles are returned iff `raw_text` can be sliced. |
| GoogleResearcher.NullRawTextRaises | app/agents/google_researcher.py:42-45 | A non-empty profile whose `raw_text` is null or a number makes `_generate_titles` raise. Without a manual title the resolution raises; a manual title skips the call and is used. |
| GoogleResearcher.ResolveTitles | app/agents/google_researcher.py:95-98 | A non-empty manual job title overrides generation. Otherwise the generated titles are used, or the generation's raise. |
| GoogleResearcher.DomainChunks | app/agents/google_researcher.py:111-112 | The chunks concatenate back to the domain list. Each chunk is non-empty and holds at most 3 domains. |
| GoogleResearcher.AtsDomainChunks | app/agents/google_researcher.py:23-30 | The six ATS domains split into two chunks of three. |
| GoogleResearcher.SiteTerms | app/agents/google_researcher.py:121-136 | One `site:` term per domain of the chunk, in order. |
| GoogleResearcher.PhaseQueriesExact | app/agents/google_researcher.py:121-136 | The phase's queries are exactly the (title, chunk) queries: each query is one of them, and each pair gives a query. |
| GoogleResearcher.PhaseQueryCount | app/agents/google_researcher.py:121-136 | A phase issues titles × chunks queries. |
| GoogleResearcher.VerifyUrl | app/agents/google_researcher.py:276-349 | These cases reject the URL: connection failure, status ≥ 400, or "error"/"not found" in the final URL. Otherwise a working classifier decides. When the classifier raises, the URL is accepted iff the snippet mentions neither "closed" nor "filled". |
| GoogleResearcher.FilledPositionRejectedOnClassifierFailure | app/agents/google_researcher.py:338-344 | A page saying the position has been filled is rejected when the classifier fails. |
| GoogleResearcher.QueryLeadsExact | app/agents/google_researcher.py:246-259 | A query's leads are exactly its kept hits, tagged with the query and marked as direct listings. |
| GoogleResearcher.SearchBatch | app/agents/google_researcher.py:176-181 | A batch asked for nothing (needed ≤ 0) searches nothing. |
| GoogleResearcher.RunQueriesExact | app/agents/google_researcher.py:269-274 | The flattened results come only from the batch's queries, and contain every kept hit of every query. |
| GoogleResearcher.SearchBatchExact | app/agents/google_researcher.py:176-274 | A batch's leads all come from its queries. When leads are needed, every kept hit is included. |
| GoogleResearcher.AddNewFresh | app/agents/google_researcher.py:157-163 | Deduplication appends only batch leads whose URL was unseen, each once, and keeps earlier leads. |
| GoogleResearcher.AddNewRecordsAll | app/agents/google_researcher.py:157-163 | Every batch lead with a non-empty URL is recorded as seen. |
| GoogleResearcher.AddNewSeenGrowth | app/agents/google_researcher.py:157-163 | The seen set grows by exactly the URLs of the leads added. |
| GoogleResearcher.Phase | app/agents/google_researcher.py:116-163 | A phase extends the leads with fresh leads from its batches only. |
| GoogleResearcher.RunPhases | app/agents/google_researcher.py:116-119 | At most two phases run. The loop stops once the limit is reached. Leads only grow, stay fresh and come from the batches. |
| GoogleResearcher.ExtendRun | app/agents/google_researcher.py:116-163 | Freshness and origin of leads compose across consecutive phases. |
| GoogleResearcher.FreshConcat | app/agents/google_researcher.py:157-163 | Two fresh runs of leads concatenate to a fresh run. |
| GoogleResearcher.Gather | app/agents/google_researcher.py:89-174 | A non-positive limit gathers nothing. At most `limit` leads, all fresh and from the batches. |
| GoogleResearcher.GatherLeads | app/agents/google_researcher.py:89-174 | Raises iff resolving the titles raises, whatever the limit. Otherwise at most two phases and at most `limit` leads, and a non-positive limit gathers nothing. |
| GoogleResearcher.GatherLeadsSound | app/agents/google_researcher.py:89-174 | When the call does not raise, every gathered lead is fresh and is a kept hit of a query built from the resolved titles and location. |
| GoogleResearcher.FromBatchFromQueries | app/agents/google_researcher.py:153 | A lead from a phase's batch comes from a strict or a loose query. |
| GoogleResearcher.SecondPhaseOnlyWhenShort | app/agents/google_researcher.py:116-119 | The second phase runs only when the limit is positive, the run was not stopped, and the first phase fell short. |
| Researcher.CleanQuery | app/agents/researcher.py:64-70 | A cleaned query contains no quote, parenthesis or bracket characters and has no surrounding whitespace. |
| Researcher.CleanQuerySinglePass | app/agents/researcher.py:64-70 | The replacement is a single left-to-right pass: "a OR OR b" becomes "a OR b". |
| Researcher.CleanedQueries | app/agents/researcher.py:64-70 | Every generated query is cleaned, position by position. |
| Researcher.GenerateStrategy | app/agents/researcher.py:24-74 | An empty profile gives the default strategy. A failed generation gives the fallback. Otherwise each generated query, cleaned. |
| Researcher.DictItems | app/agents/researcher.py:136-143 | Only dict items of a list are kept as jobs, and all of them are kept. |
| Researcher.Tag | app/agents/researcher.py:136-143 | A tagged job has `query_source` set to its query. Every other field is unchanged. |
| Researcher.PageLeads | app/agents/researcher.py:95-143 | Every job of a results page is tagged with the page's query. |
| Researcher.BlocksLeads | app/agents/researcher.py:136-143 | Every job of every result block is tagged with the query. |
| Researcher.ProcessQuery | app/agents/researcher.py:95-157 | A non-positive limit fetches nothing. Otherwise the task raises iff the location is not a string, since `quote(location)` at line 107 is outside the `try`. Page 2 is fetched only when page 1 falls short of the limit. All leads carry the query tag. |
| Researcher.QueryResults | app/agents/researcher.py:160-161 | One result list per query, in query order. `gather` raises iff some task raises: a query, a positive limit and a non-string location. |
| Researcher.DedupFresh | app/agents/researcher.py:164-172 | Deduplication adds each company/title signature at most once, and never one seen before. It keeps at most `limit` leads. |
| Researcher.DedupOrder | app/agents/researcher.py:164-172 | Deduplicated leads keep the input order: a subsequence. |
| Researcher.DedupRaises | app/agents/researcher.py:164-172 | Deduplication raises only when some lead lacks a string company or title. |
| Researcher.DedupComplete | app/agents/researcher.py:164-172 | When fewer than `limit` leads are kept, every input signature has been seen. |
| Researcher.DedupLength | app/agents/researcher.py:164-172 | Deduplication never drops leads already kept. |
| Researcher.EmptyStrategyRaises | app/agents/researcher.py:88 | As written, an empty strategy list divides by zero. |
| Researcher.Location | app/agents/researcher.py:82 | An empty profile searches in "Remote". |
| Researcher.GatherLeadsAgrees | app/agents/researcher.py:76-174 | The corrected gather agrees with the code as written whenever there is a query. With no query it gathers nothing. |
| Researcher.GatherLeadsFacts | app/agents/researcher.py:76-174 | Gathered leads are a subsequence of all results, tagged by one of the queries, fresh and at most `limit`. A short result has seen every signature. A non-string location with a query and a positive limit raises with `seen_jobs` untouched. Any other raise means an unsigned lead. |
| Researcher.UnquotableLocationRaises | app/agents/researcher.py:82-107 | A profile `location` that is not a string raises at `quote` on the first page of every query, so `gather_leads` raises with nothing found. |
| Researcher.FoundTagged | app/agents/researcher.py:136-143 | A subsequence of the flattened per-query results is tagged by one of the queries. |
| Researcher.NothingFoundGathersNothing | app/agents/researcher.py:95-157 | When every page raises inside its `try`, nothing is gathered, unless quoting the location raised first. |
| LegacyResearcher.UrlRun | agents/researcher.py:78 | The run of URL characters starting at a position is maximal. |
| LegacyResearcher.UrlMatchAt | agents/researcher.py:78 | A match at a position is an `https?://` token. |
| LegacyResearcher.FindUrls | agents/researcher.py:78 | Every link found is a URL token occurring in the text. |
| LegacyResearcher.FindUrlsOfToken | agents/researcher.py:78 | Text that is a single URL token yields exactly that token. |
| LegacyResearcher.RStripEach | agents/researcher.py:80 | The chained rstrip removes only trailing characters from the list. The result is a prefix and does not end in the last one. |
| LegacyResearcher.TrimLink | agents/researcher.py:80 | The trimmed link is a prefix of the link. Only trailing punctuation is removed, and it never ends in ']'. |
| LegacyResearcher.TrimLinkIsSequential | agents/researcher.py:80 | The chain strips one character class after another, not as a set: "/a.," keeps its '.'. |
| LegacyResearcher.RStripEachNoop | agents/researcher.py:80 | A link that does not end in a listed character is unchanged. |
| LegacyResearcher.AddLinksExact | agents/researcher.py:68-83 | The link list stays duplicate-free. It holds exactly the earlier links plus the new non-redirect links. |
| LegacyResearcher.TextLinks | agents/researcher.py:78-80 | One trimmed link per URL match in the text, in order. |
| LegacyResearcher.CandidatesExact | agents/researcher.py:68-91 | Candidates are duplicate-free. They are exactly the non-redirect links of the grounding metadata and the text. |
| LegacyResearcher.RescuedJob | agents/researcher.py:139-143 | A rescued job is a dict whose `url` is the link as a string. |
| LegacyResearcher.SafetyNetExact | agents/researcher.py:128-144 | A link is rescued iff it is a candidate and passes the ATS/keyword test. Every rescued job is built from its own URL. |
| LegacyResearcher.ReadableJobs | agents/researcher.py:147-148 | A list item that is not a dict, or whose `url` is present but not a string, makes the merge loop raise. Otherwise the items are the jobs, in order. |
| LegacyResearcher.Picked | agents/researcher.py:112-125 | A failed validator call or decoding, or a decoded value without `len` (null, boolean, number), leaves `batch_leads` as `[]`. Otherwise it is the decoded value. |
| LegacyResearcher.BatchLeads | agents/researcher.py:112-153 | Without a validator answer, or with one that is null, a boolean, a number or `[]`, the safety net is used. A non-empty list is used when every item is readable. The round raises iff a falsy dict or string meets a rescued link, a truthy pick is not a list, or a list item is unreadable. |
| LegacyResearcher.MergeOneKeeps | agents/researcher.py:147-152 | Merging one job keeps the earlier entries, adds at most one, and keeps URLs unique and long enough. |
| LegacyResearcher.MergeKeeps | agents/researcher.py:147-152 | Merging a batch keeps the earlier entries and keeps URLs unique and long enough. |
| LegacyResearcher.MergeSound | agents/researcher.py:147-152 | Every new entry comes from a job of the batch, under that job's URL. |
| LegacyResearcher.MergeComplete | agents/researcher.py:147-152 | Every batch job with a long enough URL ends up present. |
| LegacyResearcher.Round | agents/researcher.py:58-153 | A round with answer text raises exactly when it has candidates and its pick raises. Without candidates it changes nothing. |
| LegacyResearcher.RoundFacts | agents/researcher.py:42-152 | A round that does not raise keeps earlier results and the uniqueness of URLs. |
| LegacyResearcher.Rounds | agents/researcher.py:42-153 | At most 6 rounds, and results only grow and stay unique. Without a raise, the loop stops only at the target or after round 6. A raise happens only in a round started short of the target that raises: no answer text, or a pick the safety net or the merge loop cannot handle. With no raising round, nothing raises. |
| LegacyResearcher.EmptyRoundCounts | agents/researcher.py:89-91 | A round with answer text but no candidate links still uses up an attempt. |
| LegacyResearcher.RaisingRoundStops | agents/researcher.py:42-153 | A round that raises stops the loop there. The table is unchanged and nothing further runs. |
| LegacyResearcher.FirstRaisingRoundRaises | agents/researcher.py:42-153 | With a positive target, a first round that raises makes `gather_leads` raise. |
| LegacyResearcher.FirstTextlessRoundRaises | agents/researcher.py:42-78 | With a positive target, a first search without answer text makes `gather_leads` raise. |
| LegacyResearcher.NullUrlRaises | agents/researcher.py:147-148 | A first round with candidates whose validator answers `[{"url": null}]` makes `gather_leads` raise at `.strip()`. |
| LegacyResearcher.DictPickRaises | agents/researcher.py:147-148 | A validator answer that is a non-empty dict makes the round raise, since its string keys have no `.get`. |
| LegacyResearcher.Jobs | agents/researcher.py:157 | The returned jobs are the entries' jobs, in order. |
| LegacyResearcher.JobsKeys | agents/researcher.py:147-157 | Returned jobs have distinct URLs, each long enough. |
| LegacyResearcher.GatherLeads | agents/researcher.py:12-157 | A failed strategy call raises, whatever the target. Otherwise a non-positive target gathers nothing, and with no raising round nothing raises. A raise needs a failed strategy call or a raising round: one without answer text, or one whose pick the safety net or the merge loop cannot handle. Returned jobs have distinct, long-enough URLs. |
| LegacyResearcher.SkipWs | agents/researcher.py:172-178 | Skips exactly the leading whitespace. |
| LegacyResearcher.CleanJson | agents/researcher.py:172-178 | Missing or empty text becomes "[]". The result is never empty. |
| LegacyResearcher.DropFencesNone | agents/researcher.py:172-178 | Text with no fence line is unchanged. |
| LegacyResearcher.DropFencesCopy | agents/researcher.py:172-178 | A stretch with no fence at a line start is copied verbatim. |
| LegacyResearcher.NoFenceInPayload | agents/researcher.py:172-178 | A fence-free payload between fence lines has no fence at any line start. |
| LegacyResearcher.FirstPass | agents/researcher.py:172-178 | Removing the opening ```json fence leaves the payload and the closing fence. |
| LegacyResearcher.SecondPass | agents/researcher.py:172-178 | Removing the closing fence leaves the payload and a newline. |
| LegacyResearcher.CleanJsonUnwraps | agents/researcher.py:172-178 | A fenced JSON answer is unwrapped to exactly its payload. |
| LegacyResearcher.CleanJsonPlain | agents/researcher.py:172-178 | An unfenced payload is returned unchanged. |
| ResumeParser.ParseDate | app/utils/resume_parser.py:89-108 | The empty string gives no date. Every parse is well formed: a known month name and a year of at most 4 digits, or "current" with no month or year. |
| ResumeParser.ParseDateIgnoresSurroundingWs | app/utils/resume_parser.py:90 | Surrounding whitespace does not change the parse. |
| ResumeParser.ParseDateCurrent | app/utils/resume_parser.py:91-93 | A date is current iff, stripped and lower-cased, it is "present", "current" or "now". |
| ResumeParser.MonthYearParses | app/utils/resume_parser.py:95-103 | "Mon YYYY" and "Month YYYY" parse to the full month name and the year. |
| ResumeParser.YearOnlyParses | app/utils/resume_parser.py:105-106 | A 4-digit year alone parses to that year with no month. |
| ResumeParser.WordParsesToNothing | app/utils/resume_parser.py:108 | A single word that is neither a current word nor a 4-digit year parses to nothing. |
| ResumeParser.LeadingZeroYear | app/utils/resume_parser.py:95-103 | `%Y` reads "0999" as year 999, so the year string loses its leading zero. |
| ResumeParser.ShortMonthExample | tests/test_parser_transformation.py:11-28 | "Jan 2023" parses to January 2023. |
| ResumeParser.FullMonthExample | tests/test_parser_transformation.py:11-28 | "January 2024" parses to January 2024. |
| ResumeParser.PresentExample | tests/test_parser_transformation.py:11-28 | "Present" parses as current. |
| ResumeParser.Duration | app/utils/resume_parser.py:131 | The duration is a piece of "start - end" with no spaces or dashes at either end. |
| ResumeParser.DurationJoins | app/utils/resume_parser.py:131 | Two clean dates join as "start - end". |
| ResumeParser.DurationEmpty | app/utils/resume_parser.py:131 | Two empty dates give an empty duration. |
| ResumeParser.ToExperience | app/utils/resume_parser.py:122-138 | Copies the job's fields and takes month and year from the parsed dates. Current iff the end date is a current word, and then the end month and year are empty. |
| ResumeParser.ToEducation | app/utils/resume_parser.py:141-151 | Copies school, degree and the raw date. The end year, when present, is digits only. |
| ResumeParser.EducationYearNeverFallsBack | app/utils/resume_parser.py:149 | An unparseable graduation year such as "Spring" leaves the end year empty. The fallback never applies. |
| ResumeParser.MapToSchema | app/utils/resume_parser.py:83-153 | Contact fields are renamed and copied. Every work and education item is mapped, position by position. |
| FencedJson.FindFrom | app/services/agent_runner.py:67 | Finds the first occurrence of a pattern at or after a position, or proves there is none. |
| FencedJson.Fenced | app/services/agent_runner.py:67 | There is a match iff some "```json\n" is followed by a "\n```". The match is the text between the leftmost opening fence and the first closing fence after it. |
| FencedJson.FencedIsFirst | app/services/agent_runner.py:67 | Conversely, the leftmost opening fence and the first closing fence after it give exactly their body. |
| FencedJson.FencedUnwraps | app/services/agent_runner.py:67-69 | A fenced body free of the closing fence is extracted exactly. |
| FencedJson.FencedAfterPreamble | app/api/profile.py:101-103 | Text before the block that opens no fence is skipped, and the block's body is extracted exactly. |
| FencedJson.DecodeProfile | app/services/agent_runner.py:62-71 | Decodable text is decoded. Otherwise the fenced body is decoded, or the text is kept as `raw_text`. |
| FencedJson.DecodeFencedProfile | app/api/profile.py:96-103 | An undecodable fenced answer decodes to its body. |
| FencedJson.DecodeRawText | app/api/profile.py:104-105 | Undecodable unfenced text is kept as `{"raw_text": text}`. |
| AgentRunner.CurrentData | app/services/agent_runner.py:19-21 | A missing or falsy `profile_data` reads as empty. A non-dict one cannot be updated. |
| AgentRunner.UpdateResearchStatus | app/services/agent_runner.py:13-35 | The resume's entry becomes {status, updated_at}. Other resumes' entries and other profile keys are unchanged. |
| AgentRunner.StoreStatus | app/services/agent_runner.py:32 | Storing never loses the row. An update that cannot apply leaves it unchanged. |
| AgentRunner.StoreThenRead | app/services/agent_runner.py:13-35 | Reading back a stored row gives the updated profile data. |
| AgentRunner.LastStatusWins | app/services/agent_runner.py:13-35 | After two updates of one resume the later status is stored, and other resumes keep theirs. |
| AgentRunner.UnwritableRowUnchanged | app/services/agent_runner.py:23-30 | A row whose profile data is not a dict is left unchanged. |
| AgentRunner.SavedMatches | app/services/agent_runner.py:44-106 | Matches are saved iff every stage goes through: the download, a dict blob, the gather, the matcher, the upload and the bulk save. What is saved is the matcher's answer, which was both uploaded as `matches_<resume>.json` and bulk-saved. |
| AgentRunner.RunPipeline | app/services/agent_runner.py:38-113 | A run records SEARCHING and then COMPLETED or FAILED. It completes, with the matcher's answer saved, iff every stage goes through. Otherwise it fails with nothing saved. |
| AgentRunner.CompletedRunsEveryStage | app/services/agent_runner.py:44-109 | A completed run downloaded the resume, decoded a dict profile, and gathered with limit 20. It saved the matcher's result with limit 10. |
| AgentRunner.StageFailureFails | app/services/agent_runner.py:111-113 | A stage that fails on the call the run actually makes ends the run FAILED, with nothing saved. |
| AgentRunner.SavedWithinLimit | app/services/agent_runner.py:89 | At most 10 matches are saved when the matcher honours its limit. |
| AgentRunner.RunRecordsOutcome | app/services/agent_runner.py:40-113 | After a run the resume's stored status is the final one, and other resumes' statuses are untouched. |
| ProfileApi.WithoutPasswordHash | app/api/profile.py:14-26 | The password hash is removed. Every other field is kept. |
| ProfileApi.GetProfile | app/api/profile.py:14-26 | 404 iff the user row is missing or empty (the `not user` test). Otherwise the user without the password hash. |
| ProfileApi.CleanData | app/api/profile.py:38 | Keeps exactly the allowed fields, with their values. |
| ProfileApi.CleanDataIdempotent | app/api/profile.py:38 | Cleaning twice equals cleaning once. |
| ProfileApi.UpdateProfile | app/api/profile.py:28-51 | 400 iff no allowed field is given. Otherwise a raising database update leaves the handler as FastAPI's generic 500, a missing or empty row is the 500 "Failed to update profile", and a row is returned without its hash. |
| ProfileApi.UpdateRaiseIsUncaught | app/services/supabase_client.py:165-180 | `update_user_profile` re-raises, so a database error gives the generic 500, never "Failed to update profile". |
| ProfileApi.DisallowedFieldsRejected | app/api/profile.py:41 | A payload of disallowed fields only is rejected with 400. |
| ProfileApi.ResumePath | app/api/profile.py:69-70 | A bare file name is prefixed with "<user id>/". A path containing '/' is kept. |
| ProfileApi.ResumePathIdempotent | app/api/profile.py:69-70 | Prefixing twice equals prefixing once. |
| ProfileApi.Basename | app/api/profile.py:82-83 | The basename is the last '/'-free suffix of the path. |
| ProfileApi.BasenameAfterSlash | app/api/profile.py:82-83 | The basename of "dir/name" is name. |
| ProfileApi.TmpPathOfName | app/api/profile.py:82-83 | The temp path of a resume is "/tmp/<user id>_<file name>". |
| ProfileApi.ParseResume | app/api/profile.py:53-114 | No parser gives 503. Any other failure gives 500, carrying the download's or the parser's message when that stage raised. Working services give back the decoded profile, which was stored. Success means the resume was downloaded, parsed, decoded and stored. |
| ProfileApi.ParseRawTextSaved | app/api/profile.py:96-110 | Parser output that is neither JSON nor fenced is saved and returned as `raw_text`. |
| Uploads.Ext | app/api/uploads.py:10-17 | The extension is empty, or a '.'-led suffix with no further '.' or '/'. |
| Uploads.ExtOfName | app/api/uploads.py:10-17 | "stem.e" has extension ".e". |
| Uploads.HiddenFileHasNoExt | app/api/uploads.py:10-17 | A leading-dot name such as ".pdf" has no extension, as `splitext` says. |
| Uploads.ValidateExtension | app/api/uploads.py:8-17 | Accepted iff the lower-cased extension is allowed. Otherwise 400 with the allowed list. |
| Uploads.ValidateIgnoresCase | app/api/uploads.py:10-17 | An extension that is allowed once lower-cased is accepted in any case. |
| Uploads.AnnotatedExact | app/api/uploads.py:93-98 | The listing holds exactly the listable files, each with its job count (0 if none). |
| Uploads.CreatedLeIsPreorder | app/api/uploads.py:101 | Ordering by `created_at` (default "") is a total preorder. |
| Uploads.ListResumes | app/api/uploads.py:82-104 | A 500 iff two or more resumes are listed and one has no `created_at` (comparing `None` raises). Otherwise the listing is a permutation of the annotated files, newest first, all listable. |
| Uploads.SingleResumeListed | app/api/uploads.py:101 | A single listed resume comes back unchanged, with or without a timestamp. |
| Uploads.ListResumesStable | app/api/uploads.py:101 | When the listing succeeds, files with equal `created_at` keep their stored order. |
| Uploads.EditStatus | app/api/uploads.py:57-72 | Edits only when the file has a status entry. It resets the entry to IDLE or removes it. All else is untouched. |
| Uploads.ContentType | app/api/uploads.py:39 | The given content type, or "application/pdf". |
| Uploads.UploadUpdates | app/api/uploads.py:48-72 | The primary resume is set iff none is set. Profile data is updated iff the file had a status entry. |
| Uploads.UploadKeepsPrimaryAndCreatesNoStatus | app/api/uploads.py:54-65 | Uploading a new file with a primary set issues no update. |
| Uploads.UploadResume | app/api/uploads.py:19-80 | Invalid types give 400. A valid type, a stored file and buildable edits reply with the file's URL. A storage error or an error building the edits gives 500 with its message. Non-empty updates are issued for a non-empty user row, and only those. |
| Uploads.DeleteUpdates | app/api/uploads.py:119-134 | The primary resume is cleared iff it is this file. The status entry is removed iff present. |
| Uploads.DeleteOtherResumeNoUpdate | app/api/uploads.py:119-134 | Deleting a non-primary file without status issues no update. |
| Uploads.DeleteRemovesUploadedStatus | app/api/uploads.py:57-72 | After an upload resets a status, a delete removes it. |
| Uploads.DeleteResume | app/api/uploads.py:106-142 | "Deleted successfully" iff the edits can be built, any non-empty update is stored, and the removal works. Otherwise the reply is 500. Issued updates are the non-empty delete updates. |
| Credentials.FirstMatch | agents/applier.py:45-71 | Finds the first record for (domain, email), or proves there is none. |
| Credentials.Save | agents/applier.py:45-71 | An existing pair gets the new password and nothing else changes. A new pair is appended once, at the end. |
| Credentials.SaveKeepsKeysUnique | agents/applier.py:45-71 | Saving keeps (domain, email) pairs unique. |
| Credentials.SaveThenStored | agents/applier.py:45-71 | After a save the pair is stored with that password. |
| Credentials.SaveIdempotent | agents/applier.py:45-71 | Saving twice equals saving once. |
| Credentials.ForEmail | agents/applier.py:27-43 | The records listed all belong to the email. |
| Credentials.ForEmailComplete | agents/applier.py:27-43 | Every record of the email is listed. |
| Credentials.ForEmailOrdered | agents/applier.py:27-43 | Listed records keep their stored order. |
| Credentials.Listing | agents/applier.py:27-43 | An unreadable store gives the error text. No record gives the fixed message. Otherwise one line per record. |
| Credentials.SavedCredentialListed | agents/applier.py:27-71 | A saved credential shows up in its email's listing. |
| Credentials.ReadReport | agents/applier.py:200-217 | A dict answer gives the truthiness of `account_created` and the `final_url` value as given (default: the job URL). Otherwise the run history is searched for ACCOUNT_CREATED and the job URL is kept. |
| Credentials.FinalHost | agents/applier.py:219-221 | A string gives its netloc, or raises when that does not parse. A truthy non-string raises. A falsy non-string gives the empty bytes host. |
| Credentials.AfterApplyAsWritten | agents/applier.py:219-230 | A host that raises ends `apply` with its error text and the store unchanged, even with no account created. With an account created, a text host saves under it, and the empty bytes host leaves the file unreadable. |
| Credentials.NullFinalUrlLosesStore | agents/applier.py:45-71 | As written, a created account with `final_url` null makes the listing fail, and the next save with a parseable URL keeps only the new record. |
| Credentials.AfterApply | agents/applier.py:210-226 | The corrected flow never makes a readable store unreadable. It errs iff the URL used does not parse. The store changes only when an account was created, and then by a save under that URL's host. |
| Credentials.AfterApplyAgreesOnStrings | agents/applier.py:219-226 | For a string `final_url` the corrected flow equals the flow as written. |
| Credentials.CreatedAccountStored | agents/applier.py:219-226 | A created account is stored under the host with the generated password. |
| Url.Netloc | agents/applier.py:221 | The netloc holds no `/`, `?`, `#`, tab or line break. It is None (ValueError) iff exactly one kind of bracket appears. |
| Url.NetlocOfUrl | agents/applier.py:221 | The netloc of "scheme://host/rest" is host, or a raise when host has unpaired brackets. |
| Url.NetlocIgnoresLeadingBlanks | agents/applier.py:221 | Leading control characters and spaces do not change the netloc. |
| Url.NetlocIgnoresLineBreak | agents/applier.py:221 | A tab, carriage return or line feed anywhere after the first character does not change the netloc. |
| Password.PoolAllowed | utils/password_generator.py:32 | Every pool character belongs to a class. |
| Password.ClassChoices | utils/password_generator.py:24-29 | The four mandatory choices land in their classes. |
| Password.EffectiveLength | utils/password_generator.py:14-15 | The length is raised to at least 8 and otherwise kept. |
| Password.Chosen | utils/password_generator.py:24-34 | The pre-shuffle password has the right length. One character of each class leads, and all characters are allowed. |
| Password.Generate | utils/password_generator.py:4-39 | The password has the effective length, is a permutation of the choices, uses allowed characters only, and has every class. |
| Password.ClassesSurvive | utils/password_generator.py:37 | A rearrangement still has every class. |
| Password.ShortLengthsRaised | utils/password_generator.py:14-15 | Any length below 8 gives the 8-character password. |
| Password.ShuffleOnlyReorders | utils/password_generator.py:37 | Different shuffle draws give the same characters. |
| Shuffle.Shuffle | utils/password_generator.py:37 | The shuffle is a permutation. |
| Auth.VerifyPassword | app/api/auth.py:38-43 | Empty inputs are rejected. Otherwise bcrypt's answer. |
| Auth.TokenClaims | app/api/auth.py:51-59 | A copy of the data with `exp` = now + delta, or + 15 minutes when there is no or a zero delta. |
| Auth.CurrentUser | app/api/auth.py:67-97 | A bad token is 401 with no lookup. A fresh cache hit needs no database. Otherwise a database miss is 401, and a hit is cached at `now`. |
| Auth.CacheScenario | tests/test_db_optimization.py:18-45 | The first call queries, a second call within 60 s does not, and a stale entry is queried again. |
| Auth.CacheHoldsFetchedUsers | app/api/auth.py:62-95 | The cache only holds users the database returned, stamped no later than now. |
| AgentsApi.ClampLimit | app/api/agents.py:41-42 | The limit is clamped into [1, 99]. |
| AgentsApi.ClampIdempotent | app/api/agents.py:41-42 | Clamping twice equals clamping once. |
| AgentsApi.ClampMonotone | app/api/agents.py:41-42 | Clamping preserves order. |
| AgentsApi.RequestedLimit | app/api/agents.py:34-42 | A missing limit is 20, a number is clamped, a boolean counts as 1. Anything else raises on comparison. |
| AgentsApi.TriggerResearch | app/api/agents.py:25-101 | A bad limit raises before anything is marked. A missing resume is 400. Otherwise SEARCHING is marked. The run goes to GitHub iff enabled and dispatched, else local with a key, else 503. |
| AgentsApi.TriggerResearchAsWritten | app/api/agents.py:86-97 | As written, no run is ever started locally: that branch raises, and a raise leaves the resume marked iff the limit was valid. |
| AgentsApi.LocalResearchRaisesAsWritten | app/api/agents.py:86-97 | As written, the local start raises with the resume marked SEARCHING. Everywhere else the handler as written equals the corrected one. |
| AgentsApi.StartedRunWithinCap | app/api/agents.py:34-101 | Every started research run has a limit in [1, 99]. |
| AgentsApi.ResearchIgnoresDispatchWhenDisabled | app/api/agents.py:65 | With GitHub Actions disabled, the dispatcher's answer does not matter. |
| AgentsApi.StatusOfAsWritten | app/api/agents.py:116-119 | As written, the status read raises unless the profile data is a dict. |
| AgentsApi.NullProfileRaises | app/api/agents.py:116-117 | A null profile raises as written. |
| AgentsApi.StatusIn | app/api/agents.py:117-119 | A missing or falsy status map gives IDLE. A dict gives the resume's entry or IDLE. A truthy non-dict raises. |
| AgentsApi.StatusOf | app/api/agents.py:116-119 | The corrected read treats null profile data as empty. |
| AgentsApi.MissingStatusIsIdle | app/api/agents.py:119 | A resume with no entry reads as IDLE. |
| AgentsApi.WrittenStatusReadBack | app/api/agents.py:116-119 | A status written by the research pipeline is read back by get_matches. |
| AgentsApi.IsCompleted | app/api/agents.py:127 | Whether the status says COMPLETED. A non-dict status raises. |
| AgentsApi.GetMatches | app/api/agents.py:103-139 | Stored matches are returned as they are. The legacy file is read only when nothing is stored and the run completed. A missing file gives []. |
| AgentsApi.LegacyOnlyForCompletedRuns | app/api/agents.py:127-134 | The legacy file is consulted only for completed runs. |
| AgentsApi.SearchingRunHasNoLegacyMatches | app/api/agents.py:127 | A SEARCHING run with nothing stored returns no matches. |
| AgentsApi.SetIfAbsent | app/api/agents.py:165-168 | Sets a key only when absent and wanted. Never overwrites. Raises on a non-dict. |
| AgentsApi.FillProfile | app/api/agents.py:164-168 | The email is always present afterwards. `full_name` is added only when absent and the user's is truthy. |
| AgentsApi.NullProfileDataRaises | app/api/agents.py:162-165 | A null `profile_data` raises as written. |
| AgentsApi.ApplicantProfile | app/api/agents.py:161-168 | The corrected blob always has an email. Existing values are kept. |
| AgentsApi.FillNeverOverwrites | app/api/agents.py:164-168 | Keys already in the blob keep their values. |
| AgentsApi.DispatchOnlyWhenAsked | app/api/agents.py:176-182 | Dispatch happens only for mode "github", or "gha" with Actions enabled. |
| AgentsApi.TriggerApply | app/api/agents.py:141-216 | A missing job URL or resume is 400. A missing user raises. GitHub iff dispatch is wanted and succeeds, else local with a key, else 500. |
| AgentsApi.LocalApplyIgnoresGitHub | app/api/agents.py:214-216 | The local path does not depend on the dispatcher when dispatch is not wanted. |

## Left out

- The language model, the browser agent, search, HTTP fetches, the database, file storage, the clock and randomness are parameters. Their own behaviour is not modelled.
- Chat sessions and messages, task registration and cancellation, and `invalidate_leads_cache` are left out: they are side effects with no bearing on the results modelled.
- `update_lead_status_by_url` is left out because it is a database write in a service that is not part of this model.
- The contents of the GitHub dispatch payloads (`session_id`, `instructions`) are not modelled. Only the dispatcher's yes/no answer is.
- The background tasks started by the handlers (`_download_and_apply`, the research task) are not modelled beyond the decision to start them.
- AgentsApi.TriggerResearch: models the handler against a pipeline that takes `limit`, `job_title`, `location` and `session_id`. app/services/agent_runner.py:38 defines `run_research_pipeline` with three parameters. That file defines no `run_applier_task`, which app/api/agents.py:16 imports, so the router module does not load. The handler-level consequence, a TypeError at the call, is modelled by `AgentsApi.TriggerResearchAsWritten`. `AgentRunner.RunPipeline` models the pipeline as defined.
- `get_research_status` is not part of this model. It is a parameter, and its result may be null, as the comment at app/api/agents.py:117 says.
- tests/test_parser_transformation.py:8 imports `parse_date_string` from app/api/profile.py, which does not define it. The function is nested inside `map_to_schema`, and the model follows that code.
- Strings are sequences of characters. Whitespace is Python's full `str.isspace` set. Lower-casing maps only A-Z, so non-ASCII letters keep their case. Python's Unicode lowering could only matter through the few letters that lower to ASCII (the Kelvin sign to `k`, dotted capital I to `i` plus a combining dot).
- GoogleResearcher.GatherLeads: the search oracle is a function of the query text. A query run twice in one gather, from two equal titles, gets the same hits both times, which a live search need not return.
- GoogleResearcher.GatherLeads: the profile's location is given as the text the query's f-string prints. A location that is not a string is printed with `str()` (null becomes "None"), and the caller passes that text.
- Digits are the ASCII digits 0-9. Python's `isdigit` and the `%Y` directive of `strptime` also accept other Unicode decimal digits, and `isdigit` also accepts superscripts. A year in another script is therefore not read as a year here.
- JSON numbers are integers; floating point is not modelled, so a float match score is not either.
- Matcher.FilterAndScore: two or more list-valued scores are treated as making the sort raise. Python compares two lists element by element and raises only when some pair of elements cannot be compared.
- Set iteration order (the safety net's link list) is fixed by the candidate order.
- The temp files and `os` calls in parse_resume and the pipeline are not modelled, apart from their path names.
- The Python listing order of the credential file is the stored order.
- Url.Netloc: a location holding both brackets is not checked further. Python 3.12 validates the bracketed IPv6 or IPvFuture address and raises for a bad one. A non-ASCII location is not checked for characters that NFKC normalisation would turn into URL delimiters. Both raise ValueError in Python and are not modelled.
- Credentials: every stored record is assumed to have string `domain`, `email` and `password` fields.
- AgentRunner.StoreStatus: the database write is assumed to succeed.
- AgentsApi.RequestedLimit: a boolean limit is read as 1, which Python also compares as 1. The value passed on is then `True` rather than 1.
- Password.ShortLengthsRaised and Password.ShuffleOnlyReorders follow directly from `Password.Generate`'s contract.
- `_generate_titles` (app/agents/google_researcher.py:75-83) returns an empty list when every generated title fails the keep test. `GoogleResearcher.GenerateTitles` models that.

## Findings

| source | as written | input that shows it | evidently intended | confidence | as-written member | corrected member |
|---|---|---|---|---|---|---|
| app/agents/researcher.py:88 | The per-query limit divides by the number of queries | A profile for which the model returns an empty query list | An empty strategy gathers nothing | high; not executed | Researcher.EmptyStrategyRaises | Researcher.GatherLeadsAgrees |
| app/api/agents.py:116-117 | `profile_data.get(...)` on the result of `get_research_status`, which may be None | A user whose `profile_data` column is null | IDLE status, as for a missing entry | medium, since `get_research_status` is not part of this model; not executed | AgentsApi.NullProfileRaises | AgentsApi.StatusOf |
| agents/applier.py:210-225 | `urlparse(final_url)` is applied to whatever the agent answered. A null `final_url` becomes the host `b''`, and with an account created `json.dump` raises on it after writing part of the file | The agent answers `{"account_created": true, "final_url": null}` | Fall back to the job URL, as for a missing `final_url`; never leave the credential file unreadable | medium, since it needs the agent to answer null; not executed | Credentials.NullFinalUrlLosesStore | Credentials.AfterApply |
| app/api/agents.py:86-97 | `run_research_pipeline` is called with `limit`, `job_title`, `location` and `session_id`, which the function at app/services/agent_runner.py:38 does not accept, so the call raises TypeError in the handler | A payload naming a resume, with Actions off and an API key set | Start the local run with those settings and reply "Research started (Local)" | medium, since the runner file may lag the handler (agents.py:16 also imports a `run_applier_task` it lacks); not executed | AgentsApi.LocalResearchRaisesAsWritten | AgentsApi.TriggerResearch |
| app/api/agents.py:162-165 | `user_data.get('profile_data', {})` returns None for a null column, and `'email' not in None` raises TypeError | A user whose `profile_data` column is null | Treat null as `{}`, as the other handlers do with `or {}` | high; not executed | AgentsApi.NullProfileDataRaises | AgentsApi.ApplicantProfile |

=== FILE: agent_runner.dfy ===
/**
 * The background research job (app/services/agent_runner.py): the
 * per-resume status map kept inside a user's `profile_data`, and the
 * pipeline download → parse → research → match → save whose outcome is
 * recorded there. The database row, storage, the resume parser, the
 * researcher and the matcher are oracles; `None` stands for "raised".
 */
module AgentRunner {
  import opened Wrappers
  import opened Text
  import opened Json
  import FencedJson

  const Searching := "SEARCHING"
  const Completed := "COMPLETED"
  const Failed := "FAILED"

  /** The `profile_data` key holding the per-resume status map. */
  const StatusKey := "research_status"

  /** How many leads the researcher is asked for, and how many the matcher keeps. */
  const ResearchLimit := 20
  const MatchLimit := 10

  /** A user row as the database returns it. */
  type Row = map<string, Value>

  /** The status record stored for one resume. */
  function Entry(status: string, stamp: string): Value {
    Obj(map["status" := Str(status), "updated_at" := Str(stamp)])
  }

  /**
   * `row.get("profile_data") or {}` as a dict: `None` when it is a truthy
   * value that is not a dict, on which the dict operations that follow raise.
   */
  function CurrentData(row: Row): (r: Option<map<string, Value>>)
    ensures !Truthy(Get(row, "profile_data", Null)) ==> r == Some(map[])
    ensures Truthy(Get(row, "profile_data", Null)) ==>
              (r.Some? <==> row["profile_data"].Obj?) && (r.Some? ==> r.value == row["profile_data"].fields)
  {
    var pd := Get(row, "profile_data", Null);
    if !Truthy(pd) then Some(map[])
    else if pd.Obj? then Some(pd.fields)
    else None
  }

  /** The row's status map can be written: its profile data and its status map are dicts (or absent). */
  predicate Writable(row: Row) {
    && CurrentData(row).Some?
    && (StatusKey in CurrentData(row).value ==> CurrentData(row).value[StatusKey].Obj?)
  }

  /** The status record of `resume` in some profile data, when there is one. */
  function StatusEntry(pd: map<string, Value>, resume: string): Option<Value> {
    if StatusKey in pd && pd[StatusKey].Obj? && resume in pd[StatusKey].fields
    then Some(pd[StatusKey].fields[resume])
    else None
  }

  /**
   * `update_research_status`: the profile data written back, or `None` when
   * nothing is written (no user row, or an exception that is logged and
   * swallowed). The clock reading `str(os.times())` is `stamp`.
   */
  function UpdateResearchStatus(row: Option<Row>, resume: string, status: string, stamp: string)
    : (r: Option<map<string, Value>>)
    ensures r.Some? <==> row.Some? && Writable(row.value)
    ensures r.Some? ==> StatusEntry(r.value, resume) == Some(Entry(status, stamp))
    // Every other resume's record is as it was.
    ensures r.Some? ==> forall x :: x != resume ==>
              StatusEntry(r.value, x) == StatusEntry(CurrentData(row.value).value, x)
    // Every other profile key is as it was, and none is added.
    ensures r.Some? ==> forall k :: k != StatusKey ==>
              (k in r.value <==> k in CurrentData(row.value).value)
              && (k in r.value ==> r.value[k] == CurrentData(row.value).value[k])
    ensures r.Some? ==> StatusKey in r.value && r.value[StatusKey].Obj?
  {
    match row
    case None => None
    case Some(fields) =>
      match CurrentData(fields)
      case None => None
      case Some(d) =>
        var statuses := if StatusKey in d then d[StatusKey] else Obj(map[]);
        if statuses.Obj? then Some(d[StatusKey := Obj(statuses.fields[resume := Entry(status, stamp)])])
        else None
  }

  /**
   * The user row after `update_research_status`, assuming the profile
   * update itself goes through: unchanged when nothing is written.
   */
  function StoreStatus(row: Option<Row>, resume: string, status: string, stamp: string): (r: Option<Row>)
    ensures r.Some? <==> row.Some?
    ensures UpdateResearchStatus(row, resume, status, stamp).None? ==> r == row
  {
    match UpdateResearchStatus(row, resume, status, stamp)
    case None => row
    case Some(pd) => Some(row.value["profile_data" := Obj(pd)])
  }

  /** After a write, the row holds exactly the profile data written, and stays writable. */
  lemma StoreThenRead(row: Option<Row>, resume: string, status: string, stamp: string)
    requires row.Some? && Writable(row.value)
    ensures StoreStatus(row, resume, status, stamp).Some?
    ensures CurrentData(StoreStatus(row, resume, status, stamp).value)
         == UpdateResearchStatus(row, resume, status, stamp)
    ensures Writable(StoreStatus(row, resume, status, stamp).value)
  {
    var pd := UpdateResearchStatus(row, resume, status, stamp).value;
    assert StatusKey in pd;
    var row' := row.value["profile_data" := Obj(pd)];
    assert Get(row', "profile_data", Null) == Obj(pd);
  }

  /**
   * Two writes for the same resume: the second one wins, and every other
   * resume's record is what it was before both.
   */
  lemma {:induction false} LastStatusWins(row: Option<Row>, resume: string, s1: string, t1: string, s2: string, t2: string)
    requires row.Some? && Writable(row.value)
    ensures var row' := StoreStatus(StoreStatus(row, resume, s1, t1), resume, s2, t2);
            && row'.Some?
            && CurrentData(row'.value).Some?
            && StatusEntry(CurrentData(row'.value).value, resume) == Some(Entry(s2, t2))
            && forall x :: x != resume ==>
                 StatusEntry(CurrentData(row'.value).value, x) == StatusEntry(CurrentData(row.value).value, x)
  {
    var mid := StoreStatus(row, resume, s1, t1);
    StoreThenRead(row, resume, s1, t1);
    StoreThenRead(mid, resume, s2, t2);
  }

  /** A row whose status map cannot be written is left alone, whatever the status. */
  lemma UnwritableRowUnchanged(row: Option<Row>, resume: string, status: string, stamp: string)
    requires row.Some? && !Writable(row.value)
    ensures StoreStatus(row, resume, status, stamp) == row
  {
  }

  /** What the services did for one run; `None` results and `false` flags are exceptions. */
  datatype Services = Services(
    download: string -> bool,                          // `download_file(remote_path)`
    parse: Option<string>,                             // `parse_to_json(tmp_path)`
    loads: string -> Option<Value>,                    // `json.loads`
    gather: (Value, int) -> Option<seq<Value>>,        // `gather_leads(profile_blob, limit)`
    score: (seq<Value>, Value, int) -> Option<seq<Value>>, // `filter_and_score_leads(leads, profile_blob, limit)`
    upload: (string, seq<Value>) -> bool,              // `upload_file(json.dumps(matches), file_name)`
    saveBulk: (string, seq<Value>) -> bool)            // `save_leads_bulk(user_id, resume, matches)`

  /** The storage name of the JSON backup of a resume's matches. */
  function ResultsName(resume: string): string {
    "matches_" + resume + ".json"
  }

  /** The storage path `f"{user_id}/{resume_filename}"`. */
  function RemotePath(userId: nat, resume: string): string {
    NatToString(userId) + "/" + resume
  }

  /** The profile blob the run works from, or `None` where decoding it raises. */
  function Blob(sv: Services): Option<Value> {
    match sv.parse
    case None => None
    case Some(text) => FencedJson.DecodeProfile(text, sv.loads)
  }

  /**
   * Every stage of the run goes through: the download, the decoding of the
   * blob into a dict, the researcher asked for 20 leads, the matcher for 10,
   * and both saves of what the matcher returned.
   */
  predicate Succeeds(userId: nat, resume: string, sv: Services) {
    var blob := Blob(sv);
    && sv.download(RemotePath(userId, resume))
    && blob.Some? && blob.value.Obj?
    && sv.gather(blob.value, ResearchLimit).Some?
    && var matches := sv.score(sv.gather(blob.value, ResearchLimit).value, blob.value, MatchLimit);
       && matches.Some?
       && sv.upload(ResultsName(resume), matches.value)
       && sv.saveBulk(resume, matches.value)
  }

  /** What the matcher returned in a run whose stages all went through. */
  function Matched(sv: Services): seq<Value>
    requires Blob(sv).Some? && sv.gather(Blob(sv).value, ResearchLimit).Some?
    requires sv.score(sv.gather(Blob(sv).value, ResearchLimit).value, Blob(sv).value, MatchLimit).Some?
  {
    sv.score(sv.gather(Blob(sv).value, ResearchLimit).value, Blob(sv).value, MatchLimit).value
  }

  /**
   * The `try` block of `run_research_pipeline`: the matches it saved, or
   * `None` when some stage raised. A blob that is not a dict makes
   * `profile_blob.get('full_name', ...)` raise.
   */
  function SavedMatches(userId: nat, resume: string, sv: Services): (r: Option<seq<Value>>)
    ensures r.Some? ==> sv.upload(ResultsName(resume), r.value) && sv.saveBulk(resume, r.value)
    // Matches are saved exactly when every stage goes through, and they are the matcher's answer.
    ensures r.Some? <==> Succeeds(userId, resume, sv)
    ensures r.Some? ==> r.value == Matched(sv)
  {
    if !sv.download(RemotePath(userId, resume)) then None
    else match Blob(sv)
      case None => None
      case Some(blob) =>
        if !blob.Obj? then None
        else match sv.gather(blob, ResearchLimit)
          case None => None
          case Some(leads) =>
            match sv.score(leads, blob, MatchLimit)
            case None => None
            case Some(matches) =>
              if sv.upload(ResultsName(resume), matches) && sv.saveBulk(resume, matches) then Some(matches)
              else None
  }

  /** One run: the statuses written, in order, and the matches saved. */
  datatype Run = Run(statuses: seq<string>, saved: Option<seq<Value>>)

  /** `run_research_pipeline` */
  function RunPipeline(userId: nat, resume: string, sv: Services): (r: Run)
    ensures |r.statuses| == 2 && r.statuses[0] == Searching
    ensures r.statuses[1] == Completed || r.statuses[1] == Failed
    ensures r.statuses[1] == Completed <==> r.saved.Some?
    ensures r.saved.Some? ==> sv.upload(ResultsName(resume), r.saved.value) && sv.saveBulk(resume, r.saved.value)
    // Every stage going through completes the run with the matcher's answer saved.
    ensures Succeeds(userId, resume, sv) ==> r.statuses[1] == Completed && r.saved == Some(Matched(sv))
    ensures !Succeeds(userId, resume, sv) ==> r.statuses[1] == Failed && r.saved.None?
  {
    var saved := SavedMatches(userId, resume, sv);
    Run([Searching, if saved.Some? then Completed else Failed], saved)
  }

  /**
   * A completed run went through every stage: the resume was downloaded
   * from the user's folder, the blob decoded to a dict, the researcher was
   * asked for 20 leads and the matcher for 10 of them, and what the matcher
   * returned is what was saved.
   */
  lemma CompletedRunsEveryStage(userId: nat, resume: string, sv: Services)
    requires RunPipeline(userId, resume, sv).statuses[1] == Completed
    ensures sv.download(RemotePath(userId, resume))
    ensures Blob(sv).Some? && Blob(sv).value.Obj?
    ensures sv.gather(Blob(sv).value, 20).Some?
    ensures RunPipeline(userId, resume, sv).saved == sv.score(sv.gather(Blob(sv).value, 20).value, Blob(sv).value, 10)
  {
  }

  /** A stage that raises, on the call the run actually makes, ends the run in FAILED with nothing saved. */
  lemma StageFailureFails(userId: nat, resume: string, sv: Services)
    requires var blob := Blob(sv);
             || !sv.download(RemotePath(userId, resume))
             || blob.None?
             || !blob.value.Obj?
             || sv.gather(blob.value, ResearchLimit).None?
             || sv.score(sv.gather(blob.value, ResearchLimit).value, blob.value, MatchLimit).None?
             || !sv.upload(ResultsName(resume), sv.score(sv.gather(blob.value, ResearchLimit).value, blob.value, MatchLimit).value)
             || !sv.saveBulk(resume, sv.score(sv.gather(blob.value, ResearchLimit).value, blob.value, MatchLimit).value)
    ensures RunPipeline(userId, resume, sv).statuses[1] == Failed
    ensures RunPipeline(userId, resume, sv).saved.None?
  {
  }

  /**
   * With a matcher that honours its limit, a completed run saves at most 10
   * matches. `Matcher.FilterAndScore` ensures that bound: for `limit >= 0`
   * its result has length min(limit, accepted), and `MatchLimit` is 10.
   */
  lemma SavedWithinLimit(userId: nat, resume: string, sv: Services)
    requires forall l, b, n :: sv.score(l, b, n).Some? ==> |sv.score(l, b, n).value| <= n
    ensures RunPipeline(userId, resume, sv).saved.Some? ==> |RunPipeline(userId, resume, sv).saved.value| <= MatchLimit
  {
  }

  /**
   * The row after a run: each status of the run written in order. On a
   * writable row the resume's record ends with the run's final status and
   * other resumes' records are untouched.
   */
  lemma RunRecordsOutcome(row: Option<Row>, userId: nat, resume: string, sv: Services, t1: string, t2: string)
    requires row.Some? && Writable(row.value)
    ensures var run := RunPipeline(userId, resume, sv);
            var row' := StoreStatus(StoreStatus(row, resume, run.statuses[0], t1), resume, run.statuses[1], t2);
            && row'.Some?
            && CurrentData(row'.value).Some?
            && StatusEntry(CurrentData(row'.value).value, resume) == Some(Entry(run.statuses[1], t2))
            && forall x :: x != resume ==>
                 StatusEntry(CurrentData(row'.value).value, x) == StatusEntry(CurrentData(row.value).value, x)
  {
    var run := RunPipeline(userId, resume, sv);
    LastStatusWins(row, resume, run.statuses[0], t1, run.statuses[1], t2);
  }
}

=== FILE: agents_api.dfy ===
/**
 * The agent endpoints (app/api/agents.py): starting a research run with
 * its capped limit and its GitHub-or-local dispatch, reading back a
 * resume's status and matches, and starting an application with the
 * profile blob handed to the applier. The database, storage, the GitHub
 * dispatch and the environment are parameters; `None` stands for an
 * exception that escapes the handler (a 500 from the framework).
 */
module AgentsApi {
  import opened Wrappers
  import opened Json
  import AgentRunner

  type Row = map<string, Value>

  const DefaultLimit := 20
  const MinLimit := 1
  const MaxLimit := 99

  /** Where a run was started: a GitHub Actions workflow or a task in this process. */
  datatype Via = GitHubAction | LocalTask

  /** Lines 41-42: the requested number of leads, capped into `[1, 99]`. */
  function ClampLimit(limit: int): (r: int)
    ensures MinLimit <= r <= MaxLimit
    ensures MinLimit <= limit <= MaxLimit ==> r == limit
    ensures limit > MaxLimit ==> r == MaxLimit
    ensures limit < MinLimit ==> r == MinLimit
  {
    var capped := if limit > MaxLimit then MaxLimit else limit;
    if capped < MinLimit then MinLimit else capped
  }

  /** Capping twice is capping once. */
  lemma ClampIdempotent(limit: int)
    ensures ClampLimit(ClampLimit(limit)) == ClampLimit(limit)
  {
  }

  /** Capping keeps the order of requests. */
  lemma ClampMonotone(a: int, b: int)
    requires a <= b
    ensures ClampLimit(a) <= ClampLimit(b)
  {
  }

  /**
   * The limit after the cap, from `payload.get("limit", 20)`. A boolean
   * compares as 0 or 1, and both end up as 1; any other non-number makes
   * the comparison raise.
   */
  function RequestedLimit(payload: Row): (r: Option<int>)
    ensures "limit" !in payload ==> r == Some(DefaultLimit)
    ensures r.Some? ==> MinLimit <= r.value <= MaxLimit
    ensures "limit" in payload && payload["limit"].Num? ==> r == Some(ClampLimit(payload["limit"].n))
    ensures "limit" in payload ==> (r.None? <==> !(payload["limit"].Num? || payload["limit"].Bool?))
  {
    match Get(payload, "limit", Num(DefaultLimit))
    case Num(n) => Some(ClampLimit(n))
    case Bool(_) => Some(MinLimit)
    case _ => None
  }

  const ResumeRequired := HttpError(400, "resume_filename is required")
  const NoApiKey := HttpError(503, "Server misconfiguration: No API Key")

  /** A started research run. */
  datatype Research = Research(via: Via, limit: int)

  /**
   * The outcome of `trigger_research`: the reply (`None` when it raises),
   * and whether the resume was marked `SEARCHING` on the way.
   */
  datatype ResearchOutcome = ResearchOutcome(reply: Option<Result<Research, HttpError>>, marked: bool)

  /**
   * `trigger_research`, with the local run started by a pipeline that takes
   * the limit, title, location and session. `useGha` is `USE_GITHUB_ACTIONS`,
   * `dispatched` what the workflow dispatch answers (asked only when the
   * flag is set), and `hasKey` whether `GEMINI_API_KEY` is set.
   */
  function TriggerResearch(payload: Row, useGha: bool, dispatched: bool, hasKey: bool): (r: ResearchOutcome)
    // The limit is compared before anything else is looked at.
    ensures RequestedLimit(payload).None? ==> r == ResearchOutcome(None, false)
    ensures RequestedLimit(payload).Some? && !Truthy(Get(payload, "resume_filename", Null)) ==>
              r == ResearchOutcome(Some(Failure(ResumeRequired)), false)
    // With a resume named, it is always marked, whatever happens next.
    ensures RequestedLimit(payload).Some? && Truthy(Get(payload, "resume_filename", Null)) ==>
              && r.marked
              && r.reply.Some?
              && (r.reply.value == Success(Research(GitHubAction, RequestedLimit(payload).value)) <==> useGha && dispatched)
              && (r.reply.value == Success(Research(LocalTask, RequestedLimit(payload).value)) <==>
                    !(useGha && dispatched) && hasKey)
              && (r.reply.value == Failure(NoApiKey) <==> !(useGha && dispatched) && !hasKey)
  {
    match RequestedLimit(payload)
    case None => ResearchOutcome(None, false)
    case Some(limit) =>
      if !Truthy(Get(payload, "resume_filename", Null)) then ResearchOutcome(Some(Failure(ResumeRequired)), false)
      else if useGha && dispatched then ResearchOutcome(Some(Success(Research(GitHubAction, limit))), true)
      else if !hasKey then ResearchOutcome(Some(Failure(NoApiKey)), true)
      else ResearchOutcome(Some(Success(Research(LocalTask, limit))), true)
  }

  /**
   * `trigger_research` as written against app/services/agent_runner.py:38,
   * whose `run_research_pipeline` takes only the user, the resume and the
   * key: building the local call raises `TypeError` in the handler, after
   * the resume was marked `SEARCHING`.
   */
  function TriggerResearchAsWritten(payload: Row, useGha: bool, dispatched: bool, hasKey: bool): (r: ResearchOutcome)
    ensures r.reply.Some? && r.reply.value.Success? ==> r.reply.value.value.via == GitHubAction
    ensures r.reply.None? ==> (r.marked <==> RequestedLimit(payload).Some?)
  {
    match RequestedLimit(payload)
    case None => ResearchOutcome(None, false)
    case Some(limit) =>
      if !Truthy(Get(payload, "resume_filename", Null)) then ResearchOutcome(Some(Failure(ResumeRequired)), false)
      else if useGha && dispatched then ResearchOutcome(Some(Success(Research(GitHubAction, limit))), true)
      else if !hasKey then ResearchOutcome(Some(Failure(NoApiKey)), true)
      else ResearchOutcome(None, true)
  }

  /**
   * Where the handler would start a local run, the code as written raises
   * with the resume left marked `SEARCHING`; everywhere else the two agree.
   */
  lemma LocalResearchRaisesAsWritten(payload: Row, useGha: bool, dispatched: bool, hasKey: bool)
    ensures var fixed := TriggerResearch(payload, useGha, dispatched, hasKey);
            var written := TriggerResearchAsWritten(payload, useGha, dispatched, hasKey);
            var local := fixed.reply.Some? && fixed.reply.value.Success? && fixed.reply.value.value.via == LocalTask;
            && (local ==> written == ResearchOutcome(None, true))
            && (!local ==> written == fixed)
  {
  }

  /** A started run always carries a limit inside the cap, and was marked first. */
  lemma StartedRunWithinCap(payload: Row, useGha: bool, dispatched: bool, hasKey: bool)
    ensures var r := TriggerResearch(payload, useGha, dispatched, hasKey);
            r.reply.Some? && r.reply.value.Success? ==>
              r.marked && MinLimit <= r.reply.value.value.limit <= MaxLimit
  {
  }

  /** With the flag off, the dispatch answer is never consulted. */
  lemma ResearchIgnoresDispatchWhenDisabled(payload: Row, d1: bool, d2: bool, hasKey: bool)
    ensures TriggerResearch(payload, false, d1, hasKey) == TriggerResearch(payload, false, d2, hasKey)
  {
  }

  /** The status reported for a resume nobody has started. */
  const Idle := Obj(map["status" := Str("IDLE")])

  /**
   * Lines 117-119 as written: the status record of `resume` in the profile
   * data `get_research_status` returns. A profile that is not a dict makes
   * the first `.get` raise, `None` included.
   */
  function StatusOfAsWritten(profile: Value, resume: string): (r: Option<Value>)
    ensures profile == Null ==> r.None?
    ensures profile.Obj? ==> r == StatusIn(profile.fields, resume)
  {
    if profile.Obj? then StatusIn(profile.fields, resume) else None
  }

  /**
   * The lookup in a profile dict: a falsy status map reads as `{}`, a
   * missing record as `{"status": "IDLE"}`, and a status map that is not a
   * dict makes the `.get` raise.
   */
  function StatusIn(profile: map<string, Value>, resume: string): (r: Option<Value>)
    ensures var m := Get(profile, AgentRunner.StatusKey, Obj(map[]));
            && (!Truthy(m) ==> r == Some(Idle))
            && (m.Obj? ==> r == Some(Get(m.fields, resume, Idle)))
            && (Truthy(m) && !m.Obj? ==> r.None?)
  {
    var m := Get(profile, AgentRunner.StatusKey, Obj(map[]));
    var statusMap := if Truthy(m) then m else Obj(map[]);
    if statusMap.Obj? then Some(Get(statusMap.fields, resume, Idle)) else None
  }

  /**
   * The status lookup as the comment on line 117 means it: a profile of
   * `None` reads like an empty one.
   */
  function StatusOf(profile: Value, resume: string): (r: Option<Value>)
    ensures profile == Null ==> r == Some(Idle)
    ensures profile != Null ==> r == StatusOfAsWritten(profile, resume)
  {
    if profile == Null then StatusIn(map[], resume) else StatusOfAsWritten(profile, resume)
  }

  /** A user with no profile data at all: the code as written raises, where `IDLE` was meant. */
  lemma NullProfileRaises(resume: string)
    ensures StatusOfAsWritten(Null, resume).None?
    ensures StatusOf(Null, resume) == Some(Idle)
  {
  }

  /** No status map, or no record for the resume: the status reads `IDLE`. */
  lemma MissingStatusIsIdle(profile: map<string, Value>, resume: string)
    requires AgentRunner.StatusKey !in profile
          || (profile[AgentRunner.StatusKey].Obj? && resume !in profile[AgentRunner.StatusKey].fields)
    ensures StatusOf(Obj(profile), resume) == Some(Idle)
  {
  }

  /** A status written by the research job is the status read back for that resume. */
  lemma WrittenStatusReadBack(row: Row, resume: string, status: string, stamp: string)
    requires AgentRunner.Writable(row)
    ensures var pd := AgentRunner.UpdateResearchStatus(Some(row), resume, status, stamp);
            pd.Some? && StatusOf(Obj(pd.value), resume) == Some(AgentRunner.Entry(status, stamp))
  {
    var pd := AgentRunner.UpdateResearchStatus(Some(row), resume, status, stamp).value;
    assert AgentRunner.StatusEntry(pd, resume) == Some(AgentRunner.Entry(status, stamp));
    assert resume in pd[AgentRunner.StatusKey].fields;
  }

  /** The reply of `get_matches`: the status record and the matches. */
  datatype Matches = Matches(status: Value, matches: Value)

  /** The status record says `COMPLETED`; a record that is not a dict makes the `.get` raise. */
  function IsCompleted(status: Value): (r: Option<bool>)
    ensures r.Some? <==> status.Obj?
    ensures r == Some(true) <==> status.Obj? && Get(status.fields, "status", Null) == Str(AgentRunner.Completed)
  {
    if status.Obj? then Some(Get(status.fields, "status", Null) == Str(AgentRunner.Completed)) else None
  }

  /**
   * `get_matches`. `stored` is what `get_leads` returns, and `legacy` the
   * decoded legacy results file, `None` when its download or decoding
   * raises (which the handler swallows).
   */
  function GetMatches(profile: Value, resume: string, stored: seq<Value>, legacy: Option<Value>): (r: Option<Matches>)
    ensures StatusOf(profile, resume).None? ==> r.None?
    ensures r.Some? ==> Some(r.value.status) == StatusOf(profile, resume)
    // Stored matches are returned as they are.
    ensures StatusOf(profile, resume).Some? && |stored| > 0 ==> r == Some(Matches(StatusOf(profile, resume).value, Arr(stored)))
    // The legacy file is read only for a completed run with nothing stored.
    ensures r.Some? && r.value.matches != Arr(stored) ==>
              |stored| == 0 && IsCompleted(r.value.status) == Some(true) && legacy == Some(r.value.matches)
    ensures StatusOf(profile, resume).Some? && |stored| == 0 && IsCompleted(StatusOf(profile, resume).value) == Some(true) ==>
              r == Some(Matches(StatusOf(profile, resume).value, legacy.GetOr(Arr([]))))
  {
    match StatusOf(profile, resume)
    case None => None
    case Some(status) =>
      if |stored| > 0 then Some(Matches(status, Arr(stored)))
      else
        match IsCompleted(status)
        case None => None
        case Some(done) => Some(Matches(status, if done then legacy.GetOr(Arr([])) else Arr([])))
  }

  /** Unless the run completed with nothing stored, the legacy file makes no difference. */
  lemma LegacyOnlyForCompletedRuns(profile: Value, resume: string, stored: seq<Value>, l1: Option<Value>, l2: Option<Value>)
    requires |stored| > 0 || StatusOf(profile, resume).None? || IsCompleted(StatusOf(profile, resume).value) != Some(true)
    ensures GetMatches(profile, resume, stored, l1) == GetMatches(profile, resume, stored, l2)
  {
  }

  /** A run still searching reports its status and no matches until some are stored. */
  lemma SearchingRunHasNoLegacyMatches(row: Row, resume: string, stamp: string, legacy: Option<Value>)
    requires AgentRunner.Writable(row)
    ensures var pd := AgentRunner.UpdateResearchStatus(Some(row), resume, AgentRunner.Searching, stamp);
            pd.Some?
            && GetMatches(Obj(pd.value), resume, [], legacy)
               == Some(Matches(AgentRunner.Entry(AgentRunner.Searching, stamp), Arr([])))
  {
    WrittenStatusReadBack(row, resume, AgentRunner.Searching, stamp);
    var e := AgentRunner.Entry(AgentRunner.Searching, stamp);
    assert Get(e.fields, "status", Null) == Str(AgentRunner.Searching);
  }

  const ApplyRequired := HttpError(400, "job_url and resume_filename required")
  const NoAgent := HttpError(500, "Failed to start application agent (No GH Token & No API Key)")

  /**
   * `if key not in blob and wanted: blob[key] = value`, with Python's `in`:
   * `None` when the test or the item assignment raises.
   */
  function SetIfAbsent(blob: Value, key: string, value: Value, wanted: bool): (r: Option<Value>)
    // An existing key is never overwritten.
    ensures blob.Obj? && key in blob.fields ==> r == Some(blob)
    ensures blob.Obj? && key !in blob.fields ==> r == Some(if wanted then Obj(blob.fields[key := value]) else blob)
    // Anything else written to is not a dict: the assignment raises.
    ensures PyIn(key, blob).None? ==> r.None?
    ensures r.Some? && r.value != blob ==> blob.Obj? && r.value == Obj(blob.fields[key := value])
  {
    match PyIn(key, blob)
    case None => None
    case Some(present) =>
      if present || !wanted then Some(blob)
      else if blob.Obj? then Some(Obj(blob.fields[key := value]))
      else None
  }

  /**
   * Lines 162-168 as written: the user's `profile_data` (default `{}` only
   * when the key is absent), with the account email and the user's full
   * name added where missing.
   */
  function ApplicantProfileAsWritten(user: Row, email: Value): (r: Option<Value>) {
    FillProfile(Get(user, "profile_data", Obj(map[])), user, email)
  }

  /** The two fills of lines 165-168, on a given blob. */
  function FillProfile(blob: Value, user: Row, email: Value): (r: Option<Value>)
    ensures blob.Obj? ==> r.Some? && r.value.Obj?
    ensures blob.Obj? ==>
              && "email" in r.value.fields
              && (forall k :: k in blob.fields ==> k in r.value.fields && r.value.fields[k] == blob.fields[k])
              && ("email" !in blob.fields ==> r.value.fields["email"] == email)
              && ("full_name" !in blob.fields && Truthy(Get(user, "full_name", Null)) ==>
                    "full_name" in r.value.fields && r.value.fields["full_name"] == user["full_name"])
              && (forall k :: k in r.value.fields ==> k in blob.fields || k == "email" || k == "full_name")
  {
    match SetIfAbsent(blob, "email", email, true)
    case None => None
    case Some(b) =>
      match PyIn("full_name", b)
      case None => None
      case Some(_) => SetIfAbsent(b, "full_name", Get(user, "full_name", Null), Truthy(Get(user, "full_name", Null)))
  }

  /**
   * The blob as the `{}` default means it: a `profile_data` of `None`, as a
   * user who never uploaded a resume has, reads like an empty one.
   */
  function ApplicantProfile(user: Row, email: Value): (r: Option<Value>)
    ensures Get(user, "profile_data", Null) != Null ==> r == ApplicantProfileAsWritten(user, email)
    ensures Get(user, "profile_data", Null) == Null ==> r.Some? && r.value.Obj? && "email" in r.value.fields && r.value.fields["email"] == email
  {
    var blob := Get(user, "profile_data", Null);
    FillProfile(if blob == Null then Obj(map[]) else blob, user, email)
  }

  /** A user whose `profile_data` is `None`: the code as written raises, where a fresh blob was meant. */
  lemma NullProfileDataRaises(user: Row, email: Value)
    requires "profile_data" in user && user["profile_data"] == Null
    ensures ApplicantProfileAsWritten(user, email).None?
    ensures ApplicantProfile(user, email) == Some(Obj(if Truthy(Get(user, "full_name", Null))
                                                      then map["email" := email, "full_name" := user["full_name"]]
                                                      else map["email" := email]))
  {
  }

  /** Values already in the profile blob survive the fill. */
  lemma FillNeverOverwrites(blob: map<string, Value>, user: Row, email: Value, k: string)
    requires k in blob
    ensures var r := FillProfile(Obj(blob), user, email);
            r.Some? && r.value.Obj? && k in r.value.fields && r.value.fields[k] == blob[k]
  {
  }

  /** Lines 176-182: the mode asks for a GitHub workflow. */
  predicate ShouldDispatch(mode: Value, useGha: bool) {
    mode == Str("github") || (useGha && mode == Str("gha"))
  }

  /** The modes run by the agent runner itself never go to GitHub, and `gha` does only with the flag on. */
  lemma DispatchOnlyWhenAsked(mode: Value, useGha: bool)
    ensures mode == Str("local") || mode == Str("cloud_run") || mode == Str("browser_use_cloud") ==> !ShouldDispatch(mode, useGha)
    ensures mode == Str("gha") ==> (ShouldDispatch(mode, useGha) <==> useGha)
    ensures mode == Str("github") ==> ShouldDispatch(mode, useGha)
  {
  }

  /** A started application: where it runs, its mode and the profile blob it is given. */
  datatype Application = Application(via: Via, mode: Value, profile: Value)

  /**
   * `trigger_apply`. `email` is the token's email, `user` the row
   * `get_user_by_email` returns (`None` for no row, on which the `.get`
   * raises), `dispatched` the workflow dispatch's answer (asked only when
   * the mode wants it) and `hasKey` whether `GEMINI_API_KEY` is set.
   */
  function TriggerApply(payload: Row, email: Value, user: Option<Row>, useGha: bool, dispatched: bool, hasKey: bool)
    : (r: Option<Result<Application, HttpError>>)
    ensures !Truthy(Get(payload, "job_url", Null)) || !Truthy(Get(payload, "resume_filename", Null)) ==>
              r == Some(Failure(ApplyRequired))
    ensures Truthy(Get(payload, "job_url", Null)) && Truthy(Get(payload, "resume_filename", Null)) ==>
              var mode := Get(payload, "mode", Str("local"));
              && (user.None? || ApplicantProfile(user.value, email).None? ==> r.None?)
              && (user.Some? && ApplicantProfile(user.value, email).Some? ==>
                    var profile := ApplicantProfile(user.value, email).value;
                    && (r == Some(Success(Application(GitHubAction, mode, profile))) <==> ShouldDispatch(mode, useGha) && dispatched)
                    && (r == Some(Success(Application(LocalTask, mode, profile))) <==>
                          !(ShouldDispatch(mode, useGha) && dispatched) && hasKey)
                    && (r == Some(Failure(NoAgent)) <==> !(ShouldDispatch(mode, useGha) && dispatched) && !hasKey))
  {
    if !Truthy(Get(payload, "job_url", Null)) || !Truthy(Get(payload, "resume_filename", Null)) then
      Some(Failure(ApplyRequired))
    else
      var mode := Get(payload, "mode", Str("local"));
      match user
      case None => None
      case Some(u) =>
        match ApplicantProfile(u, email)
        case None => None
        case Some(profile) =>
          if ShouldDispatch(mode, useGha) && dispatched then Some(Success(Application(GitHubAction, mode, profile)))
          else if !hasKey then Some(Failure(NoAgent))
          else Some(Success(Application(LocalTask, mode, profile)))
  }

  /** A local-mode application never depends on the flag or the dispatch. */
  lemma LocalApplyIgnoresGitHub(payload: Row, email: Value, user: Option<Row>, g1: bool, d1: bool, g2: bool, d2: bool, hasKey: bool)
    requires Get(payload, "mode", Str("local")) == Str("local")
    ensures TriggerApply(payload, email, user, g1, d1, hasKey) == TriggerApply(payload, email, user, g2, d2, hasKey)
  {
  }
}

=== FILE: auth.dfy ===
/**
 * The authentication helpers (app/api/auth.py): the empty-input guard of
 * password checking, the token claims and their expiry default, and the
 * per-process user cache with a 60-second time to live in front of the
 * database lookup. bcrypt, JWT signing and the clock are oracles or
 * parameters; times are seconds as reals, like `datetime.timestamp()`.
 */
module Auth {
  import opened Wrappers
  import opened Json

  type Row = map<string, Value>

  const CacheTtlSeconds: real := 60.0
  /** The expiry used when no (or a zero) `expires_delta` is given: 15 minutes. */
  const DefaultExpirySeconds: real := 900.0
  const Unauthorized := HttpError(401, "Could not validate credentials")

  /** `verify_password`: empty inputs are rejected before bcrypt is consulted. */
  function VerifyPassword(plain: string, hashed: string, checkpw: (string, string) -> bool): (r: bool)
    ensures (|plain| == 0 || |hashed| == 0) ==> !r
    ensures r ==> checkpw(plain, hashed)
    ensures |plain| > 0 && |hashed| > 0 ==> r == checkpw(plain, hashed)
  {
    if |plain| == 0 || |hashed| == 0 then false else checkpw(plain, hashed)
  }

  /** The claims `create_access_token` signs: the caller's fields, and the expiry time. */
  datatype Claims = Claims(fields: Row, exp: real)

  /**
   * `create_access_token`: a copy of `data` (the caller's dict is not
   * touched) whose `exp` is `now` plus the delta, or plus 15 minutes when
   * the delta is absent or zero (a zero `timedelta` is falsy).
   */
  function TokenClaims(data: Row, delta: Option<real>, now: real): (r: Claims)
    ensures "exp" !in r.fields
    ensures forall k :: k != "exp" ==> (k in r.fields <==> k in data) && (k in r.fields ==> r.fields[k] == data[k])
    ensures delta.Some? && delta.value != 0.0 ==> r.exp == now + delta.value
    ensures (delta.None? || delta.value == 0.0) ==> r.exp == now + DefaultExpirySeconds
  {
    var d := if delta.Some? && delta.value != 0.0 then delta.value else DefaultExpirySeconds;
    Claims(data - {"exp"}, now + d)
  }

  /** A cached user and the time it was stored. */
  datatype Cached = Cached(user: Row, stamp: real)

  /** `user_cache`: keyed by the token's `sub` claim. */
  type Cache = map<Value, Cached>

  /** The answer of `get_current_user`, the cache afterwards, and whether the database was asked. */
  datatype Lookup = Lookup(reply: Result<Row, HttpError>, cache: Cache, queried: bool)

  /** A cache entry younger than the time to live. */
  predicate Fresh(cache: Cache, email: Value, now: real) {
    email in cache && now - cache[email].stamp < CacheTtlSeconds
  }

  /** The token's payload names a user: `sub` and `id` are both present and not null. */
  predicate Identifies(payload: Row) {
    Get(payload, "sub", Null) != Null && Get(payload, "id", Null) != Null
  }

  /**
   * `get_current_user`. `payload` is the decoded token (`None` when it
   * does not decode), `now` the clock, and `fetch` the database lookup by
   * email (`None` for no such user).
   */
  function CurrentUser(payload: Option<Row>, cache: Cache, now: real, fetch: Value -> Option<Row>): (r: Lookup)
    // A bad token: 401, nothing looked up, nothing cached.
    ensures (payload.None? || !Identifies(payload.value)) ==> r == Lookup(Failure(Unauthorized), cache, false)
    // A fresh entry is answered from the cache alone.
    ensures payload.Some? && Identifies(payload.value) && Fresh(cache, payload.value["sub"], now) ==>
              r == Lookup(Success(cache[payload.value["sub"]].user), cache, false)
    // Otherwise the database is asked: a miss is a 401 and leaves the cache alone,
    // a hit is cached with the current time.
    ensures payload.Some? && Identifies(payload.value) && !Fresh(cache, payload.value["sub"], now) ==>
              var email := payload.value["sub"];
              && r.queried
              && (fetch(email).None? ==> r.reply == Failure(Unauthorized) && r.cache == cache)
              && (fetch(email).Some? ==>
                    r.reply == Success(fetch(email).value) && r.cache == cache[email := Cached(fetch(email).value, now)])
  {
    match payload
    case None => Lookup(Failure(Unauthorized), cache, false)
    case Some(p) =>
      if !Identifies(p) then Lookup(Failure(Unauthorized), cache, false)
      else
        var email := p["sub"];
        if Fresh(cache, email, now) then Lookup(Success(cache[email].user), cache, false)
        else
          match fetch(email)
          case None => Lookup(Failure(Unauthorized), cache, true)
          case Some(user) => Lookup(Success(user), cache[email := Cached(user, now)], true)
  }

  /**
   * The caching scenario: a first call stores the user, a second call
   * within the time to live is served without the database, and a call
   * once the entry is stale asks the database again.
   */
  lemma CacheScenario(payload: Row, cache: Cache, fetch: Value -> Option<Row>, t1: real, t2: real, t3: real)
    requires Identifies(payload)
    requires payload["sub"] !in cache
    requires fetch(payload["sub"]).Some?
    requires t1 <= t2 < t1 + CacheTtlSeconds
    requires t3 >= t1 + CacheTtlSeconds
    ensures var first := CurrentUser(Some(payload), cache, t1, fetch);
            var second := CurrentUser(Some(payload), first.cache, t2, fetch);
            var third := CurrentUser(Some(payload), second.cache, t3, fetch);
            && first.queried && first.reply == Success(fetch(payload["sub"]).value)
            && !second.queried && second.reply == first.reply
            && third.queried
  {
    var email := payload["sub"];
    var first := CurrentUser(Some(payload), cache, t1, fetch);
    assert first.cache[email] == Cached(fetch(email).value, t1);
    var second := CurrentUser(Some(payload), first.cache, t2, fetch);
    assert Fresh(first.cache, email, t2);
    assert second.cache == first.cache;
    assert !Fresh(second.cache, email, t3);
  }

  /** The cache only ever holds users the database returned, each stamped no later than its lookup. */
  lemma CacheHoldsFetchedUsers(payload: Option<Row>, cache: Cache, now: real, fetch: Value -> Option<Row>)
    requires forall e :: e in cache ==> fetch(e) == Some(cache[e].user) && cache[e].stamp <= now
    ensures var r := CurrentUser(payload, cache, now, fetch);
            forall e :: e in r.cache ==> fetch(e) == Some(r.cache[e].user) && r.cache[e].stamp <= now
  {
  }
}

=== FILE: credentials.dfy ===
/**
 * The applier's credential store (agents/applier.py): a JSON list of
 * `{domain, email, password, created_at}` records with an update-or-append
 * save, a per-email listing, and the rule that a credential is saved only
 * when the browsing agent reports that it created an account.
 */
module Credentials {
  import opened Wrappers
  import opened Text
  import opened Json
  import Url
  import Seqs

  datatype Cred = Cred(domain: string, email: string, password: string, createdAt: string)

  /** The stored list; an unreadable file reads as the empty list when saving. */
  function Loaded(file: Option<seq<Cred>>): seq<Cred> {
    file.GetOr([])
  }

  predicate SameKey(c: Cred, domain: string, email: string) {
    c.domain == domain && c.email == email
  }

  /** No two records share a (domain, email) pair. */
  predicate UniqueKeys(creds: seq<Cred>) {
    forall i, j :: 0 <= i < j < |creds| ==> !SameKey(creds[j], creds[i].domain, creds[i].email)
  }

  /** The index of the first record for (domain, email). */
  function FirstMatch(creds: seq<Cred>, domain: string, email: string): (r: Option<nat>)
    ensures r.Some? ==> r.value < |creds| && SameKey(creds[r.value], domain, email)
    ensures r.Some? ==> forall i :: 0 <= i < r.value ==> !SameKey(creds[i], domain, email)
    ensures r.None? ==> forall i :: 0 <= i < |creds| ==> !SameKey(creds[i], domain, email)
  {
    if |creds| == 0 then None
    else if SameKey(creds[0], domain, email) then Some(0)
    else
      match FirstMatch(creds[1..], domain, email)
      case None => None
      case Some(k) => Some(k + 1)
  }

  /**
   * `_save_credential`: the list as stored afterwards. The first record for
   * (domain, email) gets the new password; with none, a record stamped
   * `now` is appended.
   */
  function Save(creds: seq<Cred>, domain: string, email: string, password: string, now: string): (r: seq<Cred>)
    // An existing pair: nothing is appended, only that record's password changes.
    ensures FirstMatch(creds, domain, email).Some? ==>
              var i := FirstMatch(creds, domain, email).value;
              && |r| == |creds|
              && r[i] == creds[i].(password := password)
              && forall j :: 0 <= j < |r| && j != i ==> r[j] == creds[j]
    // A new pair: exactly one record, at the end.
    ensures FirstMatch(creds, domain, email).None? ==> r == creds + [Cred(domain, email, password, now)]
  {
    match FirstMatch(creds, domain, email)
    case Some(i) => creds[i := creds[i].(password := password)]
    case None => creds + [Cred(domain, email, password, now)]
  }

  /** Saving keeps (domain, email) pairs unique. */
  lemma SaveKeepsKeysUnique(creds: seq<Cred>, domain: string, email: string, password: string, now: string)
    requires UniqueKeys(creds)
    ensures UniqueKeys(Save(creds, domain, email, password, now))
  {
    var r := Save(creds, domain, email, password, now);
    forall i, j | 0 <= i < j < |r|
      ensures !SameKey(r[j], r[i].domain, r[i].email)
    {
      if FirstMatch(creds, domain, email).None? && j == |creds| {
        assert r[i] == creds[i];
      } else {
        assert r[i].domain == creds[i].domain && r[i].email == creds[i].email;
        assert r[j].domain == creds[j].domain && r[j].email == creds[j].email;
      }
    }
  }

  /** After a save, the pair is stored with the saved password. */
  lemma SaveThenStored(creds: seq<Cred>, domain: string, email: string, password: string, now: string)
    ensures var r := Save(creds, domain, email, password, now);
            FirstMatch(r, domain, email).Some? && r[FirstMatch(r, domain, email).value].password == password
  {
    var r := Save(creds, domain, email, password, now);
    match FirstMatch(creds, domain, email)
    case Some(i) =>
      assert SameKey(r[i], domain, email);
      assert forall k :: 0 <= k < i ==> r[k] == creds[k];
      assert FirstMatch(r, domain, email) == Some(i);
    case None =>
      assert SameKey(r[|creds|], domain, email);
      assert forall k :: 0 <= k < |creds| ==> r[k] == creds[k];
      assert FirstMatch(r, domain, email) == Some(|creds|);
  }

  /** Saving the same credential twice stores what saving it once does, whatever the clock says. */
  lemma SaveIdempotent(creds: seq<Cred>, domain: string, email: string, password: string, t1: string, t2: string)
    ensures var once := Save(creds, domain, email, password, t1);
            Save(once, domain, email, password, t2) == once
  {
    var once := Save(creds, domain, email, password, t1);
    SaveThenStored(creds, domain, email, password, t1);
    var i := FirstMatch(once, domain, email).value;
    assert once[i := once[i].(password := password)] == once;
  }

  /** The listing line of one record. */
  function Line(c: Cred): string {
    "- Domain: " + c.domain + " | Email: " + c.email + " | Password: " + c.password
  }

  /** The records for `email`, in stored order. */
  function ForEmail(creds: seq<Cred>, email: string): (r: seq<Cred>)
    ensures |r| <= |creds|
    ensures forall k :: 0 <= k < |r| ==> r[k].email == email
  {
    if |creds| == 0 then []
    else
      var init := ForEmail(creds[..|creds| - 1], email);
      if creds[|creds| - 1].email == email then init + [creds[|creds| - 1]] else init
  }

  /** Every record for `email` is listed. */
  lemma {:induction false} ForEmailComplete(creds: seq<Cred>, email: string)
    ensures forall k :: 0 <= k < |creds| && creds[k].email == email ==> creds[k] in ForEmail(creds, email)
  {
    if |creds| > 0 {
      var n := |creds| - 1;
      ForEmailComplete(creds[..n], email);
      forall k | 0 <= k < n && creds[k].email == email
        ensures creds[k] in ForEmail(creds, email)
      {
        assert creds[..n][k] == creds[k];
      }
    }
  }

  /** The records for `email` keep their stored order: they are a subsequence of the store. */
  lemma {:induction false} ForEmailOrdered(creds: seq<Cred>, email: string)
    ensures Seqs.SubsequenceOf(ForEmail(creds, email), creds)
  {
    if |creds| > 0 {
      var n := |creds| - 1;
      ForEmailOrdered(creds[..n], email);
      assert creds == creds[..n] + [creds[n]];
      Seqs.SubsequenceAppend(ForEmail(creds[..n], email), creds[..n], creds[n]);
    }
  }

  /** The listing lines for `email`, one per record, in stored order. */
  function Lines(creds: seq<Cred>, email: string): seq<string> {
    var found := ForEmail(creds, email);
    seq(|found|, k requires 0 <= k < |found| => Line(found[k]))
  }

  const NoCredentials := "No saved credentials for this email."
  const ReadError := "Error reading credentials."

  /** `_get_matching_credentials`: one line per record for `email`, or a fixed message. */
  function Listing(file: Option<seq<Cred>>, email: string): (r: string)
    ensures file.None? ==> r == ReadError
    ensures file.Some? && ForEmail(file.value, email) == [] ==> r == NoCredentials
    ensures file.Some? && ForEmail(file.value, email) != [] ==>
              r == Join("\n", Lines(file.value, email))
  {
    match file
    case None => ReadError
    case Some(creds) =>
      var lines := Lines(creds, email);
      if |lines| == 0 then NoCredentials else Join("\n", lines)
  }

  /** After a save, the listing for that email includes the saved credential's line. */
  lemma SavedCredentialListed(creds: seq<Cred>, domain: string, email: string, password: string, now: string)
    ensures var r := Save(creds, domain, email, password, now);
            exists c :: c in ForEmail(r, email) && c.domain == domain && c.password == password
  {
    var r := Save(creds, domain, email, password, now);
    SaveThenStored(creds, domain, email, password, now);
    var i := FirstMatch(r, domain, email).value;
    ForEmailComplete(r, email);
    assert r[i] in ForEmail(r, email);
  }

  /** The agent's final report: whether it created an account, and the `final_url` value it gave. */
  datatype Report = Report(accountCreated: bool, finalUrl: Value)

  /**
   * Lines 203-217 of the apply flow: the decoded answer when it is a dict,
   * else the fallback that searches the run history for `ACCOUNT_CREATED`
   * and keeps the job URL. `final_url` is kept as given, string or not.
   */
  function ReadReport(decoded: Option<Value>, history: string, jobUrl: string): (r: Report)
    ensures (decoded.None? || !decoded.value.Obj?) ==> r == Report(Contains(history, "ACCOUNT_CREATED"), Str(jobUrl))
    ensures decoded.Some? && decoded.value.Obj? ==>
              && r.accountCreated == Truthy(Get(decoded.value.fields, "account_created", Bool(false)))
              && ("final_url" in decoded.value.fields ==> r.finalUrl == decoded.value.fields["final_url"])
              && ("final_url" !in decoded.value.fields ==> r.finalUrl == Str(jobUrl))
  {
    if decoded.Some? && decoded.value.Obj? then
      var m := decoded.value.fields;
      Report(Truthy(Get(m, "account_created", Bool(false))), Get(m, "final_url", Str(jobUrl)))
    else Report(Contains(history, "ACCOUNT_CREATED"), Str(jobUrl))
  }

  /**
   * What `urlparse(final_url).netloc` gives: a text host, or the empty bytes
   * `b''` that a falsy non-string is turned into.
   */
  datatype Host = TextHost(name: string) | EmptyBytes

  /**
   * `urlparse(final_url).netloc`, or `None` where it raises: a string whose
   * brackets do not pair up, or a truthy non-string, which has no `decode`.
   */
  function FinalHost(finalUrl: Value): (r: Option<Host>)
    ensures finalUrl.Str? ==> (r.None? <==> Url.Netloc(finalUrl.s).None?)
    ensures finalUrl.Str? && r.Some? ==> r.value == TextHost(Url.Netloc(finalUrl.s).value)
    ensures !finalUrl.Str? ==> (r.None? <==> Truthy(finalUrl))
    ensures !finalUrl.Str? && r.Some? ==> r.value == EmptyBytes
  {
    match finalUrl
    case Str(u) => (match Url.Netloc(u) case None => None case Some(h) => Some(TextHost(h)))
    case _ => if Truthy(finalUrl) then None else Some(EmptyBytes)
  }

  /**
   * How `apply` ends once the agent has run: the credential file afterwards
   * (`None` when it cannot be read back) and whether `apply` answered with
   * its `"Error: ..."` text.
   */
  datatype ApplyEnd = ApplyEnd(store: Option<seq<Cred>>, errored: bool)

  /**
   * Lines 219-226 as written. The host is computed before the `if`, so a
   * raise there ends `apply` with its error text whether or not an account
   * was created. A created account under the empty-bytes host appends a
   * record `json.dump` cannot encode: it raises after writing part of the
   * list, and the file is left unreadable.
   */
  function AfterApplyAsWritten(file: Option<seq<Cred>>, report: Report, email: string, password: string, now: string)
    : (r: ApplyEnd)
    ensures FinalHost(report.finalUrl).None? ==> r == ApplyEnd(file, true)
    ensures FinalHost(report.finalUrl).Some? && !report.accountCreated ==> r == ApplyEnd(file, false)
    ensures report.accountCreated && FinalHost(report.finalUrl) == Some(EmptyBytes) ==> r == ApplyEnd(None, true)
    ensures report.accountCreated && FinalHost(report.finalUrl).Some? && FinalHost(report.finalUrl).value.TextHost? ==>
              r == ApplyEnd(Some(Save(Loaded(file), FinalHost(report.finalUrl).value.name, email, password, now)), false)
  {
    match FinalHost(report.finalUrl)
    case None => ApplyEnd(file, true)
    case Some(host) =>
      if !report.accountCreated then ApplyEnd(file, false)
      else match host
        case EmptyBytes => ApplyEnd(None, true)
        case TextHost(h) => ApplyEnd(Some(Save(Loaded(file), h, email, password, now)), false)
  }

  /**
   * An agent answer with `"final_url": null` and a created account leaves
   * the file unreadable: the listing reports an error, and the next created
   * account is saved into an empty list, losing every earlier credential.
   */
  lemma NullFinalUrlLosesStore(file: Option<seq<Cred>>, email: string, password: string, now: string,
                               nextUrl: string, nextEmail: string, nextPassword: string, nextNow: string)
    ensures var first := AfterApplyAsWritten(file, Report(true, Null), email, password, now);
            && first == ApplyEnd(None, true)
            && Listing(first.store, email) == ReadError
            && (Url.Netloc(nextUrl).Some? ==>
                  AfterApplyAsWritten(first.store, Report(true, Str(nextUrl)), nextEmail, nextPassword, nextNow).store
                  == Some([Cred(Url.Netloc(nextUrl).value, nextEmail, nextPassword, nextNow)]))
  {
    if Url.Netloc(nextUrl).Some? {
      var host := Url.Netloc(nextUrl).value;
      assert FinalHost(Str(nextUrl)) == Some(TextHost(host));
      assert FirstMatch([], host, nextEmail).None?;
      assert [] + [Cred(host, nextEmail, nextPassword, nextNow)] == [Cred(host, nextEmail, nextPassword, nextNow)];
    }
  }

  /** The URL whose host a credential is saved under: a non-string `final_url` falls back to the job URL. */
  function SaveUrl(finalUrl: Value, jobUrl: string): string {
    if finalUrl.Str? then finalUrl.s else jobUrl
  }

  /**
   * Lines 219-226 with a non-string `final_url` read as the job URL, as a
   * missing one is. A URL that does not parse still ends `apply` with its
   * error text and saves nothing; a readable file always stays readable.
   */
  function AfterApply(file: Option<seq<Cred>>, report: Report, jobUrl: string, email: string, password: string, now: string)
    : (r: ApplyEnd)
    ensures file.Some? ==> r.store.Some?
    ensures r.errored <==> Url.Netloc(SaveUrl(report.finalUrl, jobUrl)).None?
    ensures r.errored || !report.accountCreated ==> r.store == file
    ensures !r.errored && report.accountCreated ==>
              r.store == Some(Save(Loaded(file), Url.Netloc(SaveUrl(report.finalUrl, jobUrl)).value, email, password, now))
  {
    match Url.Netloc(SaveUrl(report.finalUrl, jobUrl))
    case None => ApplyEnd(file, true)
    case Some(host) =>
      if report.accountCreated then ApplyEnd(Some(Save(Loaded(file), host, email, password, now)), false)
      else ApplyEnd(file, false)
  }

  /** For a string `final_url` the corrected flow is the flow as written. */
  lemma AfterApplyAgreesOnStrings(file: Option<seq<Cred>>, report: Report, jobUrl: string, email: string, password: string, now: string)
    requires report.finalUrl.Str?
    ensures AfterApply(file, report, jobUrl, email, password, now) == AfterApplyAsWritten(file, report, email, password, now)
  {
  }

  /** A created account is stored under the host of the URL it was created at, with the generated password. */
  lemma CreatedAccountStored(file: Option<seq<Cred>>, finalUrl: Value, jobUrl: string, email: string, password: string, now: string)
    requires Url.Netloc(SaveUrl(finalUrl, jobUrl)).Some?
    ensures var r := AfterApply(file, Report(true, finalUrl), jobUrl, email, password, now);
            var host := Url.Netloc(SaveUrl(finalUrl, jobUrl)).value;
            && !r.errored && r.store.Some? && FirstMatch(r.store.value, host, email).Some?
            && r.store.value[FirstMatch(r.store.value, host, email).value].password == password
  {
    SaveThenStored(Loaded(file), Url.Netloc(SaveUrl(finalUrl, jobUrl)).value, email, password, now);
  }
}

=== FILE: fenced_json.dfy ===
/**
 * Decoding the model's resume JSON with the fallback both the research
 * pipeline (app/services/agent_runner.py) and the parse endpoint
 * (app/api/profile.py) use: the raw text as JSON, else the first
 * `` ```json\n(.*?)\n``` `` block, else the text wrapped as `raw_text`.
 * `json.loads` is the oracle `loads`: `None` is a `JSONDecodeError`.
 */
module FencedJson {
  import opened Wrappers
  import opened Text
  import opened Json

  const Open := "```json\n"
  const Close := "\n```"

  /** The first position at or after `from` where `pat` occurs. */
  function FindFrom(s: string, pat: string, from: nat): (r: Option<nat>)
    requires |pat| > 0
    ensures r.Some? ==> from <= r.value && SubAt(s, pat, r.value)
    ensures r.Some? ==> forall i :: from <= i < r.value ==> !SubAt(s, pat, i)
    ensures r.None? ==> forall i :: from <= i ==> !SubAt(s, pat, i)
    decreases |s| - from
  {
    if from + |pat| > |s| then None
    else if SubAt(s, pat, from) then Some(from)
    else FindFrom(s, pat, from + 1)
  }

  /**
   * `re.search(r'```json\n(.*?)\n```', s, re.DOTALL).group(1)`: the
   * leftmost opening fence, then the shortest body up to a closing fence.
   * A later opening cannot succeed where the leftmost failed, since its
   * body could only end at the same closing fences.
   */
  function Fenced(s: string): (r: Option<string>)
    // There is a result exactly when some opening fence is followed by a closing one.
    ensures r.Some? <==> exists p: nat, q: nat :: FencedAt(s, p, q)
    // The result is the body after the leftmost opening fence, up to the first closing fence.
    ensures r.Some? ==> exists p: nat, q: nat ::
              && FencedAt(s, p, q) && r.value == s[p + |Open|..q]
              && (forall i :: 0 <= i < p ==> !SubAt(s, Open, i))
              && (forall j :: p + |Open| <= j < q ==> !SubAt(s, Close, j))
  {
    match FindFrom(s, Open, 0)
    case None => None
    case Some(p) =>
      match FindFrom(s, Close, p + |Open|)
      case None =>
        assert forall p': nat, q': nat :: !FencedAt(s, p', q');
        None
      case Some(q) =>
        assert FencedAt(s, p, q);
        Some(s[p + |Open|..q])
  }

  /** An opening fence at `p` and a closing fence at `q` right after the body. */
  ghost predicate FencedAt(s: string, p: nat, q: nat) {
    && SubAt(s, Open, p)
    && p + |Open| <= q
    && SubAt(s, Close, q)
  }

  /**
   * The profile blob, or `None` where the source raises: the fenced body
   * does not decode either.
   */
  function DecodeProfile(s: string, loads: string -> Option<Value>): (r: Option<Value>)
    ensures loads(s).Some? ==> r == loads(s)
    ensures loads(s).None? && Fenced(s).None? ==> r == Some(Obj(map["raw_text" := Str(s)]))
    ensures loads(s).None? && Fenced(s).Some? ==> r == loads(Fenced(s).value)
  {
    match loads(s)
    case Some(v) => Some(v)
    case None =>
      match Fenced(s)
      case Some(body) => loads(body)
      case None => Some(Obj(map["raw_text" := Str(s)]))
  }

  /** A closing fence cannot start inside the body and run into the closing fence. */
  lemma {:induction false} NoCloseStraddles(body: string, post: string, j: nat)
    requires |body| - |Close| < j < |body|
    ensures !SubAt(body + Close + post, Close, j)
  {
    var s := body + Close + post;
    var k := |body| - j;
    assert s[|body|] == Close[0] != Close[k];
    if j + |Close| <= |s| {
      assert s[j..j + |Close|][k] == s[|body|];
    }
  }

  /** No closing fence starts inside a body free of closing fences. */
  lemma NoCloseInBody(body: string, post: string, j: nat)
    requires !Contains(body, Close)
    requires j < |body|
    ensures !SubAt(body + Close + post, Close, j)
  {
    var t := body + Close + post;
    if j + |Close| <= |body| {
      assert t[j..j + |Close|] == body[j..j + |Close|];
      assert !SubAt(body, Close, j);
    } else {
      NoCloseStraddles(body, post, j);
    }
  }

  /** A fenced block at the start is found, whatever follows its closing fence. */
  lemma FencedUnwraps(body: string, post: string)
    requires !Contains(body, Close)
    ensures Fenced(Open + body + Close + post) == Some(body)
  {
    var t := body + Close + post;
    var s := Open + t;
    assert s == Open + body + Close + post;
    assert SubAt(s, Open, 0);
    var b := |Open|;
    var q := b + |body|;
    assert SubAt(s, Close, q);
    forall i | b <= i < q
      ensures !SubAt(s, Close, i)
    {
      NoCloseInBody(body, post, i - b);
      assert s[i..i + |Close|] == t[i - b..i - b + |Close|] || i + |Close| > |s|;
    }
    assert s[b..q] == body;
  }

  /** The leftmost opening fence and the first closing fence after it delimit the result. */
  lemma FencedIsFirst(s: string, p: nat, q: nat)
    requires FencedAt(s, p, q)
    requires forall i :: 0 <= i < p ==> !SubAt(s, Open, i)
    requires forall j :: p + |Open| <= j < q ==> !SubAt(s, Close, j)
    ensures Fenced(s) == Some(s[p + |Open|..q])
  {
    var r := Fenced(s);
    var p0: nat, q0: nat :| && FencedAt(s, p0, q0) && r.value == s[p0 + |Open|..q0]
                           && (forall i :: 0 <= i < p0 ==> !SubAt(s, Open, i))
                           && (forall j :: p0 + |Open| <= j < q0 ==> !SubAt(s, Close, j));
    assert p0 == p;
    assert q0 == q;
  }

  /** No closing fence starts in the body of `pre + Open + body + Close + post`. */
  lemma NoCloseAfterOpen(pre: string, body: string, post: string)
    requires !Contains(body, Close)
    ensures var s := pre + Open + body + Close + post;
            forall j :: |pre| + |Open| <= j < |pre| + |Open| + |body| ==> !SubAt(s, Close, j)
  {
    var t := body + Close + post;
    var s := pre + Open + t;
    assert s == pre + Open + body + Close + post;
    var b := |pre| + |Open|;
    forall j | b <= j < b + |body|
      ensures !SubAt(s, Close, j)
    {
      NoCloseInBody(body, post, j - b);
      assert s[j..j + |Close|] == t[j - b..j - b + |Close|] || j + |Close| > |s|;
    }
  }

  /** After a preamble that opens no fence, the first fenced block is the one found. */
  lemma FencedAfterPreamble(pre: string, body: string, post: string)
    requires !Contains(body, Close)
    requires forall i :: 0 <= i < |pre| ==> !SubAt(pre + Open + body + Close + post, Open, i)
    ensures Fenced(pre + Open + body + Close + post) == Some(body)
  {
    var s := pre + Open + body + Close + post;
    var b := |pre| + |Open|;
    var q := b + |body|;
    assert s[|pre|..b] == Open;
    assert s[q..q + |Close|] == Close;
    assert s[b..q] == body;
    NoCloseAfterOpen(pre, body, post);
    FencedIsFirst(s, |pre|, q);
  }

  /** When the raw text is not JSON, a fenced block is decoded in its place. */
  lemma DecodeFencedProfile(body: string, post: string, loads: string -> Option<Value>)
    requires !Contains(body, Close)
    requires loads(Open + body + Close + post).None?
    ensures DecodeProfile(Open + body + Close + post, loads) == loads(body)
  {
    FencedUnwraps(body, post);
  }

  /** Text with no opening fence, that is not JSON, is kept whole as `raw_text`. */
  lemma DecodeRawText(s: string, loads: string -> Option<Value>)
    requires !Contains(s, Open)
    requires loads(s).None?
    ensures DecodeProfile(s, loads) == Some(Obj(map["raw_text" := Str(s)]))
  {
  }
}

=== FILE: google_researcher.dfy ===
/**
 * Lead discovery against known applicant-tracking-system (ATS) domains
 * (`GoogleResearcherAgent` in app/agents/google_researcher.py).
 *
 * Target titles are generated by a model and cleaned; each search phase
 * builds one query per (title, domain chunk), shuffles them, runs them and
 * keeps the results whose URL is on an ATS domain and passes verification;
 * new leads are deduplicated by lower-cased URL against the agent's
 * `seen_jobs` set. Every external effect is an oracle:
 *   - `generated`: the title list the model returned (None if the call or decoding raised);
 *   - `rawText`: the value `profile.get('raw_text', '')` returned;
 *   - `draw(phase)`: the random numbers `random.shuffle` consumes in that phase;
 *   - `search(query)`: the hits the browser agent extracted for a query, each
 *     with the HTTP fetch and classifier outcomes its verification would see
 *     (a query that raised or was stopped yields no hits). Being a function
 *     of the query text, it gives a query that is run twice (two equal
 *     titles) the same hits both times, which a live search need not do;
 *   - `stop(phase)`: the answer of `should_stop_callback` after that phase.
 */
module GoogleResearcher {
  import opened Wrappers
  import opened Text
  import opened Leads
  import Seqs
  import Shuffle
  import Json

  /** The ATS domains every query is restricted to, in the agent's order. */
  const AtsDomains: seq<string> := [
    "boards.greenhouse.io",
    "jobs.lever.co",
    "myworkdayjobs.com",
    "jobs.ashbyhq.com",
    "jobs.jobvite.com",
    "careers.smartrecruiters.com"
  ]

  /** Characters the title cleaner deletes: `[()"'\[\]]`. */
  const TitleJunk: set<char> := {'(', ')', '"', '\'', '[', ']'}

  const DefaultTitle := "Software Engineer"
  const MaxTitles := 6
  const ChunkSize := 3
  const MaxPhases := 2

  // ---------------------------------------------------------------------
  // Target titles

  /** A cleaned title: none of the deleted characters, no surrounding whitespace. */
  predicate CleanForm(c: string) {
    && (forall i :: 0 <= i < |c| ==> c[i] !in TitleJunk)
    && (|c| > 0 ==> !IsWs(c[0]) && !IsWs(c[|c| - 1]))
  }

  /** `re.sub(r'[()"\'\[\]]', '', t).strip()` */
  function CleanTitle(t: string): (c: string)
    ensures CleanForm(c)
  {
    var d := RemoveChars(t, TitleJunk);
    var c := Strip(d);
    SubChars(d, c);
    c
  }

  /** Cleaning is idempotent: a cleaned title is its own cleaning. */
  lemma CleanTitleIdempotent(t: string)
    ensures CleanTitle(CleanTitle(t)) == CleanTitle(t)
  {
    var c := CleanTitle(t);
    RemoveAbsentChars(c, TitleJunk);
    StripOfTrimmed(c);
  }

  /** `len(s.split()) > 1`: a non-space, then a space, then a non-space. */
  predicate MoreThanOneWord(s: string) {
    exists i, j, k | 0 <= i < j < k < |s| :: !IsWs(s[i]) && IsWs(s[j]) && !IsWs(s[k])
  }

  /** The keep test: `clean and ' ' in clean`, else `clean and len(clean.split()) > 1`. */
  predicate KeepTitle(c: string) {
    |c| > 0 && (' ' in c || MoreThanOneWord(c))
  }

  /** Every raw title cleaned, whether kept or not. */
  function CleanedAll(raw: seq<string>): (r: seq<string>)
    ensures |r| == |raw|
    ensures forall i :: 0 <= i < |raw| ==> r[i] == CleanTitle(raw[i]) && CleanForm(r[i])
  {
    seq(|raw|, i requires 0 <= i < |raw| => CleanTitle(raw[i]))
  }

  /** The cleaned titles that pass the keep test, in order. */
  function KeptTitles(cleaned: seq<string>): (r: seq<string>)
    ensures forall k :: 0 <= k < |r| ==> KeepTitle(r[k]) && r[k] in cleaned
    ensures forall c :: c in cleaned && KeepTitle(c) ==> c in r
    ensures Seqs.SubsequenceOf(r, cleaned)
  {
    Seqs.FilterSubsequence(cleaned, KeepTitle);
    Seqs.Filter(cleaned, KeepTitle)
  }

  /** A cleaned title that passes the keep test really has two words. */
  lemma KeptTitleHasTwoWords(c: string)
    requires CleanForm(c)
    requires KeepTitle(c)
    ensures MoreThanOneWord(c)
  {
    if ' ' in c {
      var j :| 0 <= j < |c| && c[j] == ' ';
      assert 0 < j < |c| - 1;
      assert !IsWs(c[0]) && IsWs(c[j]) && !IsWs(c[|c| - 1]);
    }
  }

  /** Filtering cleaned titles keeps only cleaned, multi-word titles. */
  lemma KeptTitlesClean(cleaned: seq<string>)
    requires forall i :: 0 <= i < |cleaned| ==> CleanForm(cleaned[i])
    ensures forall k :: 0 <= k < |KeptTitles(cleaned)| ==> CleanForm(KeptTitles(cleaned)[k]) && MoreThanOneWord(KeptTitles(cleaned)[k])
  {
    var r := KeptTitles(cleaned);
    forall k | 0 <= k < |r|
      ensures CleanForm(r[k]) && MoreThanOneWord(r[k])
    {
      var i :| 0 <= i < |cleaned| && cleaned[i] == r[k];
      KeptTitleHasTwoWords(r[k]);
    }
  }

  /**
   * `raw_text[:1000]` works on a string or a list; on null, a boolean or a
   * number it raises `TypeError`, and on a dict the slice is not a key.
   */
  predicate Sliceable(v: Json.Value) {
    v.Str? || v.Arr?
  }

  /**
   * `_generate_titles`: the first six cleaned model titles that pass the
   * keep test (all of them when fewer pass); the default title when the
   * profile is empty or the call raised. Slicing `raw_text` comes before
   * the `try`, so a non-empty profile whose `raw_text` cannot be sliced
   * raises (`None`).
   */
  function GenerateTitles(profileEmpty: bool, rawText: Json.Value, generated: Option<seq<string>>): (r: Option<seq<string>>)
    ensures r.None? <==> !profileEmpty && !Sliceable(rawText)
    ensures profileEmpty || (Sliceable(rawText) && generated.None?) ==> r == Some([DefaultTitle])
    ensures r.Some? ==> |r.value| <= MaxTitles
    ensures !profileEmpty && Sliceable(rawText) && generated.Some? ==>
              var kept := KeptTitles(CleanedAll(generated.value));
              && |r.value| == (if |kept| < MaxTitles then |kept| else MaxTitles)
              && r.value == kept[..|r.value|]
    ensures !profileEmpty && Sliceable(rawText) && generated.Some? ==>
              Seqs.SubsequenceOf(r.value, CleanedAll(generated.value))
  {
    if profileEmpty then Some([DefaultTitle])
    else if !Sliceable(rawText) then None
    else if generated.None? then Some([DefaultTitle])
    else
      var kept := KeptTitles(CleanedAll(generated.value));
      var r := Seqs.PyTake(kept, MaxTitles);
      Seqs.SubsequenceOfPrefix(kept, CleanedAll(generated.value), |r|);
      Some(r)
  }

  lemma DefaultTitleClean()
    ensures CleanForm(DefaultTitle) && MoreThanOneWord(DefaultTitle)
  {
    assert !IsWs(DefaultTitle[0]) && IsWs(DefaultTitle[8]) && !IsWs(DefaultTitle[9]);
  }

  /** Every title `_generate_titles` returns is cleaned and has at least two words. */
  lemma GeneratedTitlesClean(profileEmpty: bool, rawText: Json.Value, generated: Option<seq<string>>)
    ensures var r := GenerateTitles(profileEmpty, rawText, generated);
            r.Some? ==> forall k :: 0 <= k < |r.value| ==> CleanForm(r.value[k]) && MoreThanOneWord(r.value[k])
  {
    var r := GenerateTitles(profileEmpty, rawText, generated);
    if profileEmpty || generated.None? {
      DefaultTitleClean();
    } else if r.Some? {
      var kept := KeptTitles(CleanedAll(generated.value));
      KeptTitlesClean(CleanedAll(generated.value));
      assert forall k :: 0 <= k < |r.value| ==> r.value[k] == kept[k];
    }
  }

  /**
   * A usable generated title survives into the result when fewer than six
   * of the cleaned titles before it pass the keep test, and `raw_text` can
   * be sliced.
   */
  lemma GeneratedTitleKept(generated: seq<string>, rawText: Json.Value, i: nat)
    requires i < |generated| && KeepTitle(CleanTitle(generated[i]))
    requires |KeptTitles(CleanedAll(generated)[..i])| < MaxTitles
    ensures var r := GenerateTitles(false, rawText, Some(generated));
            r.Some? <==> Sliceable(rawText)
    ensures var r := GenerateTitles(false, rawText, Some(generated));
            r.Some? ==> CleanTitle(generated[i]) in r.value
  {
    var c := CleanedAll(generated);
    var r := GenerateTitles(false, rawText, Some(generated));
    if r.Some? {
      KeptAt(c, i);
      TakenAt(KeptTitles(c), |KeptTitles(c[..i])|, r.value);
    }
  }

  /**
   * A non-empty profile whose `raw_text` is null, a number or a boolean
   * makes `_generate_titles` raise; a manual job title skips the call, so
   * `gather_leads` with one does not.
   */
  lemma NullRawTextRaises(generated: Option<seq<string>>, jobTitle: string)
    requires jobTitle != ""
    ensures GenerateTitles(false, Json.Null, generated).None?
    ensures GenerateTitles(false, Json.Num(0), generated).None?
    ensures ResolveTitles(None, false, Json.Null, generated).None?
    ensures ResolveTitles(Some(jobTitle), false, Json.Null, generated) == Some([jobTitle])
  {
  }

  /** An element before position six of the kept list is among the first six. */
  lemma TakenAt(kept: seq<string>, k: nat, r: seq<string>)
    requires k < |kept| && k < MaxTitles
    requires |r| == (if |kept| < MaxTitles then |kept| else MaxTitles) && r == kept[..|r|]
    ensures kept[k] in r
  {
    assert r[k] == kept[k];
  }

  /** A kept title sits in the whole kept list right after what its predecessors kept. */
  lemma KeptAt(cleaned: seq<string>, i: nat)
    requires i < |cleaned| && KeepTitle(cleaned[i])
    ensures |KeptTitles(cleaned[..i])| < |KeptTitles(cleaned)|
    ensures KeptTitles(cleaned)[|KeptTitles(cleaned[..i])|] == cleaned[i]
  {
    Seqs.FilterStep(cleaned, KeepTitle, i);
    Seqs.FilterPrefix(cleaned, KeepTitle, i + 1);
    var k := |KeptTitles(cleaned[..i])|;
    assert KeptTitles(cleaned[..i + 1])[k] == cleaned[i];
  }

  /** The titles `gather_leads` searches for: an explicit `job_title` wins without any generation. */
  function ResolveTitles(jobTitle: Option<string>, profileEmpty: bool, rawText: Json.Value,
                         generated: Option<seq<string>>): (r: Option<seq<string>>)
    ensures jobTitle.Some? && jobTitle.value != "" ==> r == Some([jobTitle.value])
    ensures (jobTitle.None? || jobTitle.value == "") ==> r == GenerateTitles(profileEmpty, rawText, generated)
  {
    if jobTitle.Some? && jobTitle.value != "" then Some([jobTitle.value])
    else GenerateTitles(profileEmpty, rawText, generated)
  }

  // ---------------------------------------------------------------------
  // Queries

  /** `[ats_domains[i:i + 3] for i in range(0, len(ats_domains), 3)]` */
  function DomainChunks(domains: seq<string>): (r: seq<seq<string>>)
    ensures Seqs.Flatten(r) == domains
    ensures forall c :: c in r ==> 0 < |c| <= ChunkSize
  {
    Seqs.Chunks(domains, ChunkSize)
  }

  function SiteTerms(chunk: seq<string>): (r: seq<string>)
    ensures |r| == |chunk|
    ensures forall i :: 0 <= i < |chunk| ==> r[i] == "site:" + chunk[i]
  {
    if |chunk| == 0 then [] else ["site:" + chunk[0]] + SiteTerms(chunk[1..])
  }

  /** The title as it appears in a query: quoted in the strict phase, bare in the broad one. */
  function TitleTerm(title: string, strict: bool): string {
    if strict then "\"" + title + "\"" else title
  }

  /** `f"({site_op}) {t_str} {user_loc}"` */
  function BuildQuery(title: string, chunk: seq<string>, loc: string, strict: bool): string {
    "(" + Join(" OR ", SiteTerms(chunk)) + ") " + TitleTerm(title, strict) + " " + loc
  }

  /** `q` is the query for some title and some domain chunk. */
  ghost predicate IsPhaseQuery(q: string, titles: seq<string>, chunks: seq<seq<string>>, loc: string, strict: bool) {
    exists i, j :: 0 <= i < |titles| && 0 <= j < |chunks| && q == BuildQuery(titles[i], chunks[j], loc, strict)
  }

  /** One query per (title, chunk), titles outermost: the phase's query list before shuffling. */
  function PhaseQueries(titles: seq<string>, chunks: seq<seq<string>>, loc: string, strict: bool): seq<string> {
    Seqs.Grid(titles, chunks, (t, c) => BuildQuery(t, c, loc, strict))
  }

  /** The phase queries are exactly the queries for the (title, chunk) pairs. */
  lemma PhaseQueriesExact(titles: seq<string>, chunks: seq<seq<string>>, loc: string, strict: bool)
    ensures var r := PhaseQueries(titles, chunks, loc, strict);
            && (forall k :: 0 <= k < |r| ==> IsPhaseQuery(r[k], titles, chunks, loc, strict))
            && (forall i, j :: 0 <= i < |titles| && 0 <= j < |chunks| ==> BuildQuery(titles[i], chunks[j], loc, strict) in r)
  {
    var f := (t, c) => BuildQuery(t, c, loc, strict);
    var r := Seqs.Grid(titles, chunks, f);
    Seqs.GridSound(titles, chunks, f);
    Seqs.GridComplete(titles, chunks, f);
    forall k | 0 <= k < |r|
      ensures IsPhaseQuery(r[k], titles, chunks, loc, strict)
    {
      assert Seqs.InGrid(r[k], titles, chunks, f);
      var i, j :| 0 <= i < |titles| && 0 <= j < |chunks| && r[k] == f(titles[i], chunks[j]);
    }
  }

  /** A phase runs one query per title per chunk. */
  lemma PhaseQueryCount(titles: seq<string>, chunks: seq<seq<string>>, loc: string, strict: bool)
    ensures |PhaseQueries(titles, chunks, loc, strict)| == |titles| * |chunks|
  {
    Seqs.GridLength(titles, chunks, (t, c) => BuildQuery(t, c, loc, strict));
  }

  /** The six ATS domains form two chunks of three. */
  lemma AtsDomainChunks()
    ensures DomainChunks(AtsDomains) == [AtsDomains[..3], AtsDomains[3..]]
  {
    var c := Seqs.Chunks(AtsDomains, ChunkSize);
    assert Seqs.Chunks(AtsDomains[3..], ChunkSize) == [AtsDomains[3..]];
  }


  // ---------------------------------------------------------------------
  // Verification of one URL

  /** The streamed GET of the URL: a connection failure, or the status, final URL and first chunk. */
  datatype FetchOutcome = ConnectionFailed | Fetched(status: int, finalUrl: string, snippet: string)

  /** The classifier call: the `is_valid_job` value it returned (if any), or an exception. */
  datatype ClassifierOutcome = Classified(isValidJob: Option<bool>) | ClassifierRaised

  /** `_verify_url` */
  function VerifyUrl(fetch: FetchOutcome, classifier: ClassifierOutcome): (ok: bool)
    ensures fetch.ConnectionFailed? ==> !ok
    ensures fetch.Fetched? && fetch.status >= 400 ==> !ok
    ensures fetch.Fetched? && (Contains(Lower(fetch.finalUrl), "error") || Contains(Lower(fetch.finalUrl), "not found")) ==> !ok
    ensures ok ==> fetch.Fetched? && fetch.status < 400
    ensures fetch.Fetched? && fetch.status < 400 && !Contains(Lower(fetch.finalUrl), "error") && !Contains(Lower(fetch.finalUrl), "not found") ==>
              (classifier.Classified? ==> (ok <==> classifier.isValidJob == Some(true))) &&
              (classifier.ClassifierRaised? ==> (ok <==> !Contains(Lower(fetch.snippet), "closed") && !Contains(Lower(fetch.snippet), "filled")))
  {
    match fetch
    case ConnectionFailed => false
    case Fetched(status, finalUrl, snippet) =>
      if status >= 400 then false
      else if Contains(Lower(finalUrl), "error") || Contains(Lower(finalUrl), "not found") then false
      else
        match classifier
        case Classified(v) => v.GetOr(false)
        case ClassifierRaised =>
          var lowerHtml := Lower(snippet);
          !(Contains(lowerHtml, "closed") || Contains(lowerHtml, "filled"))
  }

  /** A page whose snippet says the position was filled is rejected when the classifier fails. */
  lemma FilledPositionRejectedOnClassifierFailure(finalUrl: string, pre: string, post: string)
    ensures !VerifyUrl(Fetched(200, finalUrl, pre + "This position has been filled" + post), ClassifierRaised)
  {
    var html := pre + "This position has been filled" + post;
    var lowered := Lower(html);
    assert lowered[|pre| + 23..|pre| + 29] == "filled";
    assert SubAt(lowered, "filled", |pre| + 23);
  }

  // ---------------------------------------------------------------------
  // One search batch

  /** One extracted search result with the outcomes its verification sees. */
  datatype SearchHit = SearchHit(job: Lead, fetch: FetchOutcome, classifier: ClassifierOutcome)

  predicate OnAtsDomain(url: string) {
    exists d :: d in AtsDomains && Contains(url, d)
  }

  /** A result is kept when its URL is on an ATS domain and verification accepts it. */
  predicate KeepHit(h: SearchHit) {
    OnAtsDomain(h.job.url) && VerifyUrl(h.fetch, h.classifier)
  }

  /** `{**j, 'is_direct_listing': True, 'query_source': query}` */
  function Tagged(h: SearchHit, query: string): Lead {
    h.job.(isDirectListing := true, querySource := Some(query))
  }

  /** The leads `process_query` returns for one query: the kept hits, tagged, in result order. */
  function QueryLeads(query: string, hits: seq<SearchHit>): seq<Lead>
    decreases |hits|
  {
    if |hits| == 0 then []
    else (if KeepHit(hits[0]) then [Tagged(hits[0], query)] else []) + QueryLeads(query, hits[1..])
  }

  /** A query yields exactly the tagged forms of its kept hits. */
  lemma {:induction false} QueryLeadsExact(query: string, hits: seq<SearchHit>)
    ensures forall x :: x in QueryLeads(query, hits) <==> exists h :: h in hits && KeepHit(h) && x == Tagged(h, query)
    decreases |hits|
  {
    if |hits| > 0 {
      QueryLeadsExact(query, hits[1..]);
      assert forall h :: h in hits <==> h == hits[0] || h in hits[1..];
    }
  }

  /** `_execute_search_batch`: nothing when no leads are needed, else every query's leads in query order. */
  function SearchBatch(queries: seq<string>, needed: int, search: string -> seq<SearchHit>): (r: seq<Lead>)
    ensures needed <= 0 ==> r == []
  {
    if needed <= 0 then [] else RunQueries(queries, search)
  }

  /** The batch's leads, query by query. */
  function RunQueries(queries: seq<string>, search: string -> seq<SearchHit>): seq<Lead>
    decreases |queries|
  {
    if |queries| == 0 then [] else QueryLeads(queries[0], search(queries[0])) + RunQueries(queries[1..], search)
  }

  /**
   * A batch that needs leads returns exactly the tagged results that are on
   * an ATS domain and pass verification, over all its queries.
   */
  lemma {:induction false} RunQueriesExact(queries: seq<string>, search: string -> seq<SearchHit>)
    ensures forall x :: x in RunQueries(queries, search) ==> FromQueries(x, queries, search)
    ensures forall q, h :: q in queries && h in search(q) && KeepHit(h) ==> Tagged(h, q) in RunQueries(queries, search)
    decreases |queries|
  {
    if |queries| > 0 {
      RunQueriesExact(queries[1..], search);
      QueryLeadsExact(queries[0], search(queries[0]));
      var first := QueryLeads(queries[0], search(queries[0]));
      var rest := RunQueries(queries[1..], search);
      assert forall q :: q in queries <==> q == queries[0] || q in queries[1..];
      forall x | x in first + rest
        ensures FromQueries(x, queries, search)
      {
        if x in first {
          var h :| h in search(queries[0]) && KeepHit(h) && x == Tagged(h, queries[0]);
        } else {
          var q, h :| q in queries[1..] && h in search(q) && KeepHit(h) && x == Tagged(h, q);
        }
      }
    }
  }

  /** `_execute_search_batch` with leads needed: sound and complete for its queries. */
  lemma SearchBatchExact(queries: seq<string>, needed: int, search: string -> seq<SearchHit>)
    ensures forall x :: x in SearchBatch(queries, needed, search) ==> FromQueries(x, queries, search)
    ensures needed > 0 ==> forall q, h :: q in queries && h in search(q) && KeepHit(h) ==> Tagged(h, q) in SearchBatch(queries, needed, search)
  {
    RunQueriesExact(queries, search);
  }

  /** `x` is the tagged form of a kept result of one of `queries`. */
  ghost predicate FromQueries(x: Lead, queries: seq<string>, search: string -> seq<SearchHit>) {
    exists q, h :: q in queries && h in search(q) && KeepHit(h) && x == Tagged(h, q)
  }

  // ---------------------------------------------------------------------
  // Deduplication against `seen_jobs` and the phase loop

  /** The dedup signature of a lead: its lower-cased URL. */
  function UrlSig(l: Lead): string {
    Lower(l.url)
  }

  /** Leads and the seen-set after a dedup pass. */
  datatype Dedup = Dedup(leads: seq<Lead>, seen: set<string>)

  /** Every lead is new: a non-empty URL signature outside `seen0`, recorded in `seen1`, and no two alike. */
  ghost predicate FreshLeads(leads: seq<Lead>, seen0: set<string>, seen1: set<string>) {
    && seen0 <= seen1
    && (forall k :: 0 <= k < |leads| ==> UrlSig(leads[k]) != "" && UrlSig(leads[k]) !in seen0 && UrlSig(leads[k]) in seen1)
    && (forall k, m :: 0 <= k < m < |leads| ==> UrlSig(leads[k]) != UrlSig(leads[m]))
  }

  /**
   * The loop that appends each batch lead whose signature is non-empty and
   * unseen, adding the signature to `seen`.
   */
  function AddNew(batch: seq<Lead>, acc: seq<Lead>, seen: set<string>): Dedup
    decreases |batch|
  {
    if |batch| == 0 then Dedup(acc, seen)
    else
      var sig := UrlSig(batch[0]);
      if sig != "" && sig !in seen then AddNew(batch[1..], acc + [batch[0]], seen + {sig})
      else AddNew(batch[1..], acc, seen)
  }

  /** The loop only appends: batch leads with new, distinct, non-empty signatures, each recorded as seen. */
  lemma {:induction false} AddNewFresh(batch: seq<Lead>, acc: seq<Lead>, seen: set<string>)
    ensures var r := AddNew(batch, acc, seen);
            && |r.leads| >= |acc| && r.leads[..|acc|] == acc
            && (forall k :: |acc| <= k < |r.leads| ==> r.leads[k] in batch)
            && FreshLeads(r.leads[|acc|..], seen, r.seen)
    decreases |batch|
  {
    var r := AddNew(batch, acc, seen);
    if |batch| == 0 {
      assert acc[|acc|..] == [];
    } else {
      var l := batch[0];
      var sig := UrlSig(l);
      assert forall x :: x in batch[1..] ==> x in batch;
      if sig != "" && sig !in seen {
        AddNewFresh(batch[1..], acc + [l], seen + {sig});
        assert r.leads[..|acc|] == acc by {
          assert r.leads[..|acc|] == r.leads[..|acc| + 1][..|acc|];
        }
        assert r.leads[|acc|..] == [l] + r.leads[|acc| + 1..];
        FreshConcat([l], r.leads[|acc| + 1..], seen, seen + {sig}, r.seen);
      } else {
        AddNewFresh(batch[1..], acc, seen);
      }
    }
  }

  /** After the loop, every batch lead with a non-empty signature is known to `seen`. */
  lemma {:induction false} AddNewRecordsAll(batch: seq<Lead>, acc: seq<Lead>, seen: set<string>)
    ensures forall x :: x in batch && UrlSig(x) != "" ==> UrlSig(x) in AddNew(batch, acc, seen).seen
    decreases |batch|
  {
    if |batch| > 0 {
      var l := batch[0];
      var sig := UrlSig(l);
      assert forall x :: x in batch ==> x == l || x in batch[1..];
      if sig != "" && sig !in seen {
        AddNewRecordsAll(batch[1..], acc + [l], seen + {sig});
        AddNewFresh(batch[1..], acc + [l], seen + {sig});
      } else {
        AddNewRecordsAll(batch[1..], acc, seen);
        AddNewFresh(batch[1..], acc, seen);
      }
    }
  }

  /** The signatures of some leads, as a set. */
  function SigSet(leads: seq<Lead>): set<string> {
    if |leads| == 0 then {} else {UrlSig(leads[0])} + SigSet(leads[1..])
  }

  /** `seen` grows by exactly the signatures of the leads appended. */
  lemma {:induction false} AddNewSeenGrowth(batch: seq<Lead>, acc: seq<Lead>, seen: set<string>)
    ensures var r := AddNew(batch, acc, seen);
            |r.leads| >= |acc| && r.seen == seen + SigSet(r.leads[|acc|..])
    decreases |batch|
  {
    var r := AddNew(batch, acc, seen);
    AddNewFresh(batch, acc, seen);
    if |batch| == 0 {
      assert r.leads[|acc|..] == [];
    } else {
      var l := batch[0];
      var sig := UrlSig(l);
      if sig != "" && sig !in seen {
        AddNewSeenGrowth(batch[1..], acc + [l], seen + {sig});
        AddNewFresh(batch[1..], acc + [l], seen + {sig});
        var rest := r.leads[|acc| + 1..];
        assert r.leads[|acc|] == (acc + [l])[|acc|];
        assert r.leads[|acc|..] == [l] + rest;
        assert ([l] + rest)[1..] == rest;
      } else {
        AddNewSeenGrowth(batch[1..], acc, seen);
      }
    }
  }

  /** The result of `gather_leads`: the leads, the agent's `seen_jobs` afterwards, and how many phases ran. */
  datatype GatherRun = GatherRun(leads: seq<Lead>, seen: set<string>, phasesRun: nat)

  /**
   * `x` came out of a search batch over a shuffle of the strict or the broad
   * query list (`batchOf(qs, needed)` is the batch run over the list `qs`).
   */
  ghost predicate FromBatch(x: Lead, queries: bool -> seq<string>, batchOf: (seq<string>, int) -> seq<Lead>) {
    exists strict: bool, qs: seq<string>, n: int :: multiset(qs) == multiset(queries(strict)) && x in batchOf(qs, n)
  }

  /**
   * One phase: `queries(strict)` is the phase's query list before shuffling
   * (strict in phase 0), `draw` the shuffle's random numbers; the batch asks
   * for `limit - |acc|` leads and the new ones are appended to `acc`.
   */
  function Phase(attempt: nat, queries: bool -> seq<string>, limit: int, draw: nat -> nat -> nat,
                 batchOf: (seq<string>, int) -> seq<Lead>, acc: seq<Lead>, seen: set<string>): (d: Dedup)
    ensures |d.leads| >= |acc| && d.leads[..|acc|] == acc
    ensures FreshLeads(d.leads[|acc|..], seen, d.seen)
    ensures forall k :: |acc| <= k < |d.leads| ==> FromBatch(d.leads[k], queries, batchOf)
  {
    var shuffled := Shuffle.Shuffle(queries(attempt == 0), draw(attempt));
    var batch := batchOf(shuffled, limit - |acc|);
    var d := AddNew(batch, acc, seen);
    AddNewFresh(batch, acc, seen);
    forall k | |acc| <= k < |d.leads|
      ensures FromBatch(d.leads[k], queries, batchOf)
    {
      assert multiset(shuffled) == multiset(queries(attempt == 0)) && d.leads[k] in batchOf(shuffled, limit - |acc|);
    }
    d
  }

  /** Phases `attempt, attempt + 1, ...` of the search loop, continuing from `acc`. */
  function RunPhases(attempt: nat, queries: bool -> seq<string>, limit: int, draw: nat -> nat -> nat,
                     batchOf: (seq<string>, int) -> seq<Lead>, stop: nat -> bool,
                     acc: seq<Lead>, seen: set<string>): (r: GatherRun)
    requires attempt <= MaxPhases
    ensures attempt <= r.phasesRun <= MaxPhases
    ensures |acc| >= limit ==> r == GatherRun(acc, seen, attempt)
    ensures |r.leads| >= |acc| && r.leads[..|acc|] == acc
    ensures FreshLeads(r.leads[|acc|..], seen, r.seen)
    ensures forall k :: |acc| <= k < |r.leads| ==> FromBatch(r.leads[k], queries, batchOf)
    decreases MaxPhases - attempt
  {
    if attempt >= MaxPhases || |acc| >= limit then
      assert acc[|acc|..] == [];
      GatherRun(acc, seen, attempt)
    else
      var d := Phase(attempt, queries, limit, draw, batchOf, acc, seen);
      if |d.leads| >= limit || stop(attempt) then
        GatherRun(d.leads, d.seen, attempt + 1)
      else
        var r := RunPhases(attempt + 1, queries, limit, draw, batchOf, stop, d.leads, d.seen);
        ExtendRun(acc, d.leads, r.leads, seen, d.seen, r.seen, queries, batchOf);
        r
  }

  /** Two consecutive extensions of `acc`, each fresh and from a batch, make one. */
  lemma ExtendRun(acc: seq<Lead>, mid: seq<Lead>, fin: seq<Lead>, s0: set<string>, s1: set<string>, s2: set<string>,
                  queries: bool -> seq<string>, batchOf: (seq<string>, int) -> seq<Lead>)
    requires |mid| >= |acc| && mid[..|acc|] == acc && |fin| >= |mid| && fin[..|mid|] == mid
    requires FreshLeads(mid[|acc|..], s0, s1) && FreshLeads(fin[|mid|..], s1, s2)
    requires forall k :: |acc| <= k < |mid| ==> FromBatch(mid[k], queries, batchOf)
    requires forall k :: |mid| <= k < |fin| ==> FromBatch(fin[k], queries, batchOf)
    ensures fin[..|acc|] == acc
    ensures FreshLeads(fin[|acc|..], s0, s2)
    ensures forall k :: |acc| <= k < |fin| ==> FromBatch(fin[k], queries, batchOf)
  {
    var a := mid[|acc|..];
    var b := fin[|mid|..];
    assert fin[..|acc|] == fin[..|mid|][..|acc|];
    assert fin == mid + b by {
      assert fin == fin[..|mid|] + b;
    }
    assert mid == acc + a by {
      assert mid == mid[..|acc|] + a;
    }
    assert fin[|acc|..] == a + b;
    FreshConcat(a, b, s0, s1, s2);
    forall k | |acc| <= k < |fin|
      ensures FromBatch(fin[k], queries, batchOf)
    {
      if k < |mid| {
        assert fin[k] == mid[k];
      }
    }
  }

  /** Two fresh runs in a row make one fresh run. */
  lemma FreshConcat(a: seq<Lead>, b: seq<Lead>, s0: set<string>, s1: set<string>, s2: set<string>)
    requires FreshLeads(a, s0, s1) && FreshLeads(b, s1, s2)
    ensures FreshLeads(a + b, s0, s2)
  {
    forall k | 0 <= k < |a + b|
      ensures UrlSig((a + b)[k]) != "" && UrlSig((a + b)[k]) !in s0 && UrlSig((a + b)[k]) in s2
    {
      if k >= |a| {
        assert (a + b)[k] == b[k - |a|];
      }
    }
    forall k, m | 0 <= k < m < |a + b|
      ensures UrlSig((a + b)[k]) != UrlSig((a + b)[m])
    {
      if k < |a| && m >= |a| {
        assert UrlSig((a + b)[k]) in s1;
        assert (a + b)[m] == b[m - |a|];
      } else if k >= |a| {
        assert (a + b)[k] == b[k - |a|] && (a + b)[m] == b[m - |a|];
      }
    }
  }

  /** `location if location else profile.get('location', '')` */
  function UserLocation(location: Option<string>, profileLocation: string): string {
    if location.Some? && location.value != "" then location.value else profileLocation
  }

  /** The two phases' query lists for the resolved titles, the ATS chunks and the location. */
  function GatherQueries(titles: seq<string>, loc: string): bool -> seq<string> {
    strict => PhaseQueries(titles, DomainChunks(AtsDomains), loc, strict)
  }

  /** `_execute_search_batch` with the search oracle fixed. */
  function Batches(search: string -> seq<SearchHit>): (seq<string>, int) -> seq<Lead> {
    (qs, needed) => SearchBatch(qs, needed, search)
  }

  /** Both phases, then `all_leads[:limit]`. */
  function Gather(queries: bool -> seq<string>, limit: int, draw: nat -> nat -> nat,
                  batchOf: (seq<string>, int) -> seq<Lead>, stop: nat -> bool, seen: set<string>): (r: GatherRun)
    ensures r.phasesRun <= MaxPhases
    ensures limit <= 0 ==> r == GatherRun([], seen, 0)
    ensures |r.leads| <= (if limit < 0 then 0 else limit)
    ensures FreshLeads(r.leads, seen, r.seen)
    ensures forall x :: x in r.leads ==> FromBatch(x, queries, batchOf)
  {
    var run := RunPhases(0, queries, limit, draw, batchOf, stop, [], seen);
    var leads := Seqs.PyTake(run.leads, limit);
    assert run.leads[0..] == run.leads;
    assert forall k :: 0 <= k < |leads| ==> leads[k] == run.leads[k];
    GatherRun(leads, run.seen, run.phasesRun)
  }

  /**
   * `gather_leads`: at most two phases (strict, then broad), none started once
   * `limit` leads are in hand, then `all_leads[:limit]`. `location` overrides
   * the profile's location when it is a non-empty string. The titles are
   * resolved first, whatever the limit, so a raise there (`None`) raises
   * the whole call.
   */
  function GatherLeads(profileEmpty: bool, profileLocation: string, rawText: Json.Value, limit: int,
                       jobTitle: Option<string>, location: Option<string>, generated: Option<seq<string>>,
                       draw: nat -> nat -> nat, search: string -> seq<SearchHit>, stop: nat -> bool,
                       seen: set<string>): (r: Option<GatherRun>)
    ensures r.None? <==> ResolveTitles(jobTitle, profileEmpty, rawText, generated).None?
    ensures r.Some? ==> r.value.phasesRun <= MaxPhases
    ensures r.Some? && limit <= 0 ==> r.value == GatherRun([], seen, 0)
    ensures r.Some? ==> |r.value.leads| <= (if limit < 0 then 0 else limit)
  {
    match ResolveTitles(jobTitle, profileEmpty, rawText, generated)
    case None => None
    case Some(titles) =>
      var queries := GatherQueries(titles, UserLocation(location, profileLocation));
      Some(Gather(queries, limit, draw, Batches(search), stop, seen))
  }

  /** A lead from a batch over a shuffled query list is a kept result of one of the unshuffled queries. */
  lemma FromBatchFromQueries(x: Lead, queries: bool -> seq<string>, search: string -> seq<SearchHit>)
    requires FromBatch(x, queries, Batches(search))
    ensures FromQueries(x, queries(true), search) || FromQueries(x, queries(false), search)
  {
    var strict: bool, qs: seq<string>, n: int :| multiset(qs) == multiset(queries(strict)) && x in Batches(search)(qs, n);
    SearchBatchExact(qs, n, search);
    var q, h :| q in qs && h in search(q) && KeepHit(h) && x == Tagged(h, q);
    assert q in multiset(qs);
    assert q in queries(strict);
  }

  /**
   * Everything `gather_leads` returns is a verified ATS result of one of its
   * queries, tagged with that query, with a URL not seen before and not
   * repeated; every returned URL is now in `seen_jobs`.
   */
  lemma GatherLeadsSound(profileEmpty: bool, profileLocation: string, rawText: Json.Value, limit: int,
                         jobTitle: Option<string>, location: Option<string>, generated: Option<seq<string>>,
                         draw: nat -> nat -> nat, search: string -> seq<SearchHit>, stop: nat -> bool,
                         seen: set<string>)
    ensures var r := GatherLeads(profileEmpty, profileLocation, rawText, limit, jobTitle, location, generated, draw, search, stop, seen);
            var titles := ResolveTitles(jobTitle, profileEmpty, rawText, generated);
            r.Some? ==>
              var queries := GatherQueries(titles.value, UserLocation(location, profileLocation));
              && FreshLeads(r.value.leads, seen, r.value.seen)
              && forall x :: x in r.value.leads ==> FromQueries(x, queries(true), search) || FromQueries(x, queries(false), search)
  {
    var titles := ResolveTitles(jobTitle, profileEmpty, rawText, generated);
    if titles.Some? {
      var queries := GatherQueries(titles.value, UserLocation(location, profileLocation));
      var r := Gather(queries, limit, draw, Batches(search), stop, seen);
      forall x | x in r.leads
        ensures FromQueries(x, queries(true), search) || FromQueries(x, queries(false), search)
      {
        FromBatchFromQueries(x, queries, search);
      }
    }
  }

  /** The broad phase runs only when the strict phase fell short of the limit and no stop was requested. */
  lemma SecondPhaseOnlyWhenShort(queries: bool -> seq<string>, limit: int, draw: nat -> nat -> nat,
                                 batchOf: (seq<string>, int) -> seq<Lead>, stop: nat -> bool, seen: set<string>)
    requires RunPhases(0, queries, limit, draw, batchOf, stop, [], seen).phasesRun == MaxPhases
    ensures 0 < limit && !stop(0)
    ensures |Phase(0, queries, limit, draw, batchOf, [], seen).leads| < limit
  {
  }
}

=== FILE: json.dfy ===
/**
 * JSON values as Python's `json` module hands them over: objects are dicts
 * keyed by strings. Numbers are integers only; `json.loads` itself is an
 * oracle wherever the source calls it.
 */
module Json {
  import opened Wrappers
  import Text

  datatype Value =
    | Null
    | Bool(b: bool)
    | Num(n: int)
    | Str(s: string)
    | Arr(items: seq<Value>)
    | Obj(fields: map<string, Value>)

  /** Python truthiness: `None`, `False`, `0`, `""`, `[]` and `{}` are false. */
  predicate Truthy(v: Value) {
    match v
    case Null => false
    case Bool(b) => b
    case Num(n) => n != 0
    case Str(s) => |s| > 0
    case Arr(items) => |items| > 0
    case Obj(fields) => |fields| > 0
  }

  /** `d.get(key, default)` on a dict. */
  function Get(d: map<string, Value>, key: string, default: Value): (v: Value)
    ensures key in d ==> v == d[key]
    ensures key !in d ==> v == default
  {
    if key in d then d[key] else default
  }

  /** `d.get(key, "")` where the value is expected to be a string: `None` when it is not one. */
  function GetStr(d: map<string, Value>, key: string): (r: Option<string>)
    ensures key !in d ==> r == Some("")
    ensures key in d && d[key].Str? ==> r == Some(d[key].s)
    ensures key in d && !d[key].Str? ==> r.None?
  {
    match Get(d, key, Str(""))
    case Str(s) => Some(s)
    case _ => None
  }

  /**
   * Python's `key in v` for a string key: dict keys, substrings, list
   * members; `None` where it raises (`None`, booleans, numbers).
   */
  function PyIn(key: string, v: Value): (r: Option<bool>)
    ensures v.Obj? ==> r == Some(key in v.fields)
    ensures v.Str? ==> r == Some(Text.Contains(v.s, key))
    ensures v.Arr? ==> r == Some(Str(key) in v.items)
    ensures r.None? <==> v.Null? || v.Bool? || v.Num?
  {
    match v
    case Obj(fields) => Some(key in fields)
    case Str(s) => Some(Text.Contains(s, key))
    case Arr(items) => Some(Str(key) in items)
    case _ => None
  }
}

=== FILE: leads.dfy ===
/** The lead record that flows from discovery through scoring to the store. */
module Leads {
  import opened Wrappers
  import Json

  /**
   * A job lead as the agents pass it around (a dict in the source). The
   * discovery stage fills the first four fields; `querySource` and
   * `isDirectListing` are the tags discovery adds; `matchScore` and
   * `matchReason` are written by the matcher, which copies whatever JSON
   * values the judge answered.
   */
  datatype Lead = Lead(
    title: string,
    company: string,
    url: string,
    snippet: string,
    querySource: Option<string>,
    isDirectListing: bool,
    matchScore: Option<Json.Value>,
    matchReason: Option<Json.Value>)

  /** A raw result as a search or scrape returns it, before any tag is added. */
  function RawLead(title: string, company: string, url: string, snippet: string): Lead {
    Lead(title, company, url, snippet, None, false, None, None)
  }
}

=== FILE: legacy_researcher.dfy ===
/**
 * The original search-grounded researcher (`ResearcherAgent` in
 * agents/researcher.py). Each round asks a model to search, collects the
 * candidate links from the grounding metadata and from the URLs written in
 * the answer text, asks a second model call to pick the job postings, falls
 * back to a keyword "safety net" when that pick is empty or fails, and merges
 * the picked jobs into a URL-keyed table where the first occurrence wins.
 * Every model call is an oracle: `rounds(n)` is what round `n` sees.
 *
 * Python's `set` of candidate links is iterated in hash order; the model
 * keeps the links in insertion order instead. No property below depends on
 * that order.
 */
module LegacyResearcher {
  import opened Wrappers
  import opened Text
  import Json

  const MaxRounds := 6
  /** A merged URL must have at least this many characters. */
  const MinMergedUrl := 15
  /** A rescued URL must have more than this many characters. */
  const MinRescuedUrl := 25

  /** Substrings the safety net treats as applicant-tracking systems. */
  const RescueDomains: seq<string> := [
    "greenhouse.io", "lever.co", "workday", "ashby", "breezy.hr", "smartrecruiters", "jobvite", "icims"
  ]

  /** Substrings the safety net treats as job-page paths. */
  const RescueKeywords: seq<string> := [
    "/jobs/", "/careers/", "/position/", "/apply", "view-job", "job-detail"
  ]

  // ---------------------------------------------------------------------
  // Link extraction

  /** A search-engine redirect or the search engine itself: never a candidate. */
  predicate IsRedirect(link: string) {
    Contains(link, "vertexaisearch") || Contains(link, "google.com")
  }

  /** A character the URL pattern `[^\s)"]` accepts. */
  predicate UrlChar(c: char) {
    !IsWs(c) && c != ')' && c != '"'
  }

  /** A whole match of `https?://[^\s)"]+`. */
  predicate IsUrlToken(u: string) {
    || (StartsWith(u, "https://") && |u| > 8 && forall i :: 8 <= i < |u| ==> UrlChar(u[i]))
    || (StartsWith(u, "http://") && |u| > 7 && forall i :: 7 <= i < |u| ==> UrlChar(u[i]))
  }

  /** The number of URL characters from position `p` on. */
  function UrlRun(t: string, p: nat): (n: nat)
    requires p <= |t|
    ensures p + n <= |t|
    ensures forall i :: p <= i < p + n ==> UrlChar(t[i])
    ensures p + n < |t| ==> !UrlChar(t[p + n])
    decreases |t| - p
  {
    if p < |t| && UrlChar(t[p]) then 1 + UrlRun(t, p + 1) else 0
  }

  /** The length of the pattern's match at `p`, or 0 when it does not match there. */
  function UrlMatchAt(t: string, p: nat): (n: nat)
    requires p <= |t|
    ensures p + n <= |t|
    ensures n > 0 ==> IsUrlToken(t[p..p + n])
  {
    var s := t[p..];
    if StartsWith(s, "https://") && p + 8 < |t| && UrlChar(t[p + 8]) then
      var n := 8 + UrlRun(t, p + 8);
      assert t[p..p + n][..8] == s[..8];
      n
    else if StartsWith(s, "http://") && p + 7 < |t| && UrlChar(t[p + 7]) then
      var n := 7 + UrlRun(t, p + 7);
      assert t[p..p + n][..7] == s[..7];
      n
    else 0
  }

  /** `re.findall(r'https?://[^\s)"]+', t[p:])`: leftmost, non-overlapping, greedy. */
  function FindUrls(t: string, p: nat): (r: seq<string>)
    requires p <= |t|
    ensures forall k :: 0 <= k < |r| ==> IsUrlToken(r[k]) && Contains(t, r[k])
    decreases |t| - p
  {
    if p == |t| then []
    else
      var n := UrlMatchAt(t, p);
      if n > 0 then
        assert SubAt(t, t[p..p + n], p);
        [t[p..p + n]] + FindUrls(t, p + n)
      else FindUrls(t, p + 1)
  }

  /** A text made of one URL and nothing else yields exactly that URL. */
  lemma FindUrlsOfToken(u: string)
    requires IsUrlToken(u)
    ensures FindUrls(u, 0) == [u]
  {
    if StartsWith(u, "https://") {
      RunToEnd(u, 8);
    } else {
      assert u[..7] == "http://";
      assert u[4] == ':';
      RunToEnd(u, 7);
    }
    assert u[0..|u|] == u;
  }

  /** A run of URL characters reaching the end of the text is counted in full. */
  lemma {:induction false} RunToEnd(t: string, p: nat)
    requires p <= |t|
    requires forall i :: p <= i < |t| ==> UrlChar(t[i])
    ensures UrlRun(t, p) == |t| - p
    decreases |t| - p
  {
    if p < |t| {
      RunToEnd(t, p + 1);
    }
  }

  /** The trailing punctuation the text links lose, one `rstrip` per character. */
  const TrailingPunct: seq<char> := ['.', ',', ';', ')', ']']

  /** `link.rstrip(cs[0]).rstrip(cs[1])...`: one strip per character, in order. */
  function RStripEach(link: string, cs: seq<char>): (r: string)
    ensures |r| <= |link| && r == link[..|r|]
    ensures forall i :: |r| <= i < |link| ==> link[i] in cs
    ensures |r| > 0 && |cs| > 0 ==> r[|r| - 1] != cs[|cs| - 1]
    decreases |cs|
  {
    if |cs| == 0 then link
    else
      var a := RStripSet(link, {cs[0]});
      var r := RStripEach(a, cs[1..]);
      assert forall i :: |r| <= i < |link| ==> link[i] in cs by {
        forall i | |r| <= i < |link|
          ensures link[i] in cs
        {
          if i < |a| {
            assert link[i] == a[i];
            assert a[i] in cs[1..];
          }
        }
      }
      r
  }

  /** `link.rstrip('.').rstrip(',').rstrip(';').rstrip(')').rstrip(']')` */
  function TrimLink(link: string): (r: string)
    ensures |r| <= |link| && r == link[..|r|]
    ensures forall i :: |r| <= i < |link| ==> link[i] in TrailingPunct
    ensures |r| > 0 ==> r[|r| - 1] != ']'
  {
    RStripEach(link, TrailingPunct)
  }

  /**
   * The strips run one character at a time, in that order: a `.` left
   * behind a later `,` survives, which a single combined strip would remove.
   */
  lemma TrimLinkIsSequential()
    ensures TrimLink("/a.,") == "/a."
    ensures RStripSet("/a.,", {'.', ',', ';', ')', ']'}) == "/a"
  {
    var s := "/a.,";
    assert s[..|s| - 1] == "/a.";
    assert RStripSet(s, {'.'}) == s;
    assert TrailingPunct[1..][1..] == [';', ')', ']'];
    RStripEachNoop("/a.", [';', ')', ']']);
    CombinedStrip();
  }

  lemma CombinedStrip()
    ensures RStripSet("/a.,", {'.', ',', ';', ')', ']'}) == "/a"
  {
    var s := "/a.,";
    assert s[..|s| - 1] == "/a.";
    assert s[..|s| - 1][..|s| - 2] == "/a";
  }

  /** Strips of characters the link does not end with change nothing. */
  lemma {:induction false} RStripEachNoop(link: string, cs: seq<char>)
    requires |link| > 0 && link[|link| - 1] !in cs
    ensures RStripEach(link, cs) == link
    decreases |cs|
  {
    if |cs| > 0 {
      assert RStripSet(link, {cs[0]}) == link;
      RStripEachNoop(link, cs[1..]);
    }
  }

  /** `potential_links.add(l)` for every non-redirect `l`, keeping first-insertion order. */
  function AddLinks(acc: seq<string>, links: seq<string>): (r: seq<string>)
    decreases |links|
  {
    if |links| == 0 then acc
    else
      var l := links[0];
      var next := if IsRedirect(l) || l in acc then acc else acc + [l];
      AddLinks(next, links[1..])
  }

  /** What `AddLinks` adds: exactly the non-redirect links, each once. */
  lemma {:induction false} AddLinksExact(acc: seq<string>, links: seq<string>)
    requires NoDup(acc)
    ensures NoDup(AddLinks(acc, links))
    ensures forall l :: l in AddLinks(acc, links) <==> l in acc || (l in links && !IsRedirect(l))
    decreases |links|
  {
    if |links| > 0 {
      var l := links[0];
      var next := if IsRedirect(l) || l in acc then acc else acc + [l];
      assert NoDup(next);
      AddLinksExact(next, links[1..]);
      assert links == [l] + links[1..];
    }
  }

  /** No string is listed twice. */
  predicate NoDup(xs: seq<string>) {
    forall i, j :: 0 <= i < j < |xs| ==> xs[i] != xs[j]
  }

  /** The trimmed form of every URL written in the answer text. */
  function TextLinks(text: string): (r: seq<string>)
    ensures |r| == |FindUrls(text, 0)|
    ensures forall k :: 0 <= k < |r| ==> r[k] == TrimLink(FindUrls(text, 0)[k])
  {
    var found := FindUrls(text, 0);
    seq(|found|, k requires 0 <= k < |found| => TrimLink(found[k]))
  }

  /** `potential_links` of one round: metadata links, then trimmed text links, redirects dropped. */
  function Candidates(meta: seq<string>, text: string): (r: seq<string>)
  {
    AddLinks(AddLinks([], meta), TextLinks(text))
  }

  /** The candidate list holds every non-redirect link of either source, once, and nothing else. */
  lemma CandidatesExact(meta: seq<string>, text: string)
    ensures NoDup(Candidates(meta, text))
    ensures forall l :: l in Candidates(meta, text) ==> !IsRedirect(l)
    ensures forall l :: l in Candidates(meta, text) <==>
              !IsRedirect(l) && (l in meta || l in TextLinks(text))
  {
    AddLinksExact([], meta);
    AddLinksExact(AddLinks([], meta), TextLinks(text));
  }

  // ---------------------------------------------------------------------
  // Validation and the safety net

  /** A job as the merge loop sees it: a JSON object, whatever its fields hold. */
  type Job = map<string, Json.Value>

  /** `job.get('url', '')`, or `None` when it is not a string and `.strip()` raises. */
  function JobUrl(job: Job): Option<string> {
    Json.GetStr(job, "url")
  }

  /** The record the safety net makes for a rescued link. */
  function RescuedJob(url: string): (j: Job)
    ensures JobUrl(j) == Some(url)
  {
    map["title" := Json.Str("Detected by Safety Net"), "company" := Json.Str("Unknown"), "url" := Json.Str(url)]
  }

  /** The lower-cased link mentions an ATS domain or a job-page path. */
  predicate LooksLikeJob(url: string) {
    || (exists k :: 0 <= k < |RescueDomains| && Contains(Lower(url), RescueDomains[k]))
    || (exists k :: 0 <= k < |RescueKeywords| && Contains(Lower(url), RescueKeywords[k]))
  }

  /** `(is_ats or is_job_pattern) and len(url) > 25` */
  predicate Rescuable(url: string) {
    LooksLikeJob(url) && |url| > MinRescuedUrl
  }

  /** The safety-net loop over the candidate links. */
  function SafetyNet(links: seq<string>): (r: seq<Job>)
    ensures |r| <= |links|
    decreases |links|
  {
    if |links| == 0 then []
    else
      var rest := SafetyNet(links[1..]);
      if Rescuable(links[0]) then [RescuedJob(links[0])] + rest else rest
  }

  /** A link is rescued, in its own record, exactly when it passes the safety-net test. */
  lemma {:induction false} SafetyNetExact(links: seq<string>, url: string)
    ensures RescuedJob(url) in SafetyNet(links) <==> url in links && Rescuable(url)
    ensures forall j :: j in SafetyNet(links) ==> JobUrl(j).Some? && j == RescuedJob(JobUrl(j).value)
    decreases |links|
  {
    if |links| > 0 {
      SafetyNetExact(links[1..], url);
      assert links == [links[0]] + links[1..];
      if RescuedJob(url) == RescuedJob(links[0]) {
        assert JobUrl(RescuedJob(url)) == Some(url);
      }
    }
  }

  /**
   * An item of the validator's answer the merge loop can read: a dict whose
   * `url`, if present, is a string. Anything else raises there (`.get` on a
   * non-dict, `.strip()` on a non-string).
   */
  predicate Readable(item: Json.Value) {
    item.Obj? && JobUrl(item.fields).Some?
  }

  /** The items of a validator list as jobs, or `None` when the merge loop would raise on one of them. */
  function ReadableJobs(items: seq<Json.Value>): (r: Option<seq<Job>>)
    ensures r.None? <==> exists k :: 0 <= k < |items| && !Readable(items[k])
    ensures r.Some? ==> |r.value| == |items| && forall k :: 0 <= k < |items| ==> r.value[k] == items[k].fields
    decreases |items|
  {
    if |items| == 0 then Some([])
    else
      match ReadableJobs(items[1..])
      case None =>
        assert exists k :: 1 <= k < |items| && !Readable(items[k]) by {
          var k :| 0 <= k < |items[1..]| && !Readable(items[1..][k]);
          assert items[k + 1] == items[1..][k];
        }
        None
      case Some(rest) =>
        if Readable(items[0]) then
          assert forall k :: 1 <= k < |items| ==> items[k] == items[1..][k - 1];
          Some([items[0].fields] + rest)
        else None
  }

  /**
   * `batch_leads` after the validation `try`: what `json.loads` decoded, or
   * `[]` when the call or the decoding raised (`None`) or when the decoded
   * value has no `len` (`None`, a boolean, a number).
   */
  function Picked(validator: Option<Json.Value>): (v: Json.Value)
    ensures v.Arr? || v.Obj? || v.Str?
    ensures validator.Some? && (validator.value.Arr? || validator.value.Obj? || validator.value.Str?) ==> v == validator.value
  {
    match validator
    case None => Json.Arr([])
    case Some(v) => if v.Arr? || v.Obj? || v.Str? then v else Json.Arr([])
  }

  /**
   * `batch_leads` of a round with candidates, once the safety net and the
   * merge loop have read it, or `None` where they raise: a falsy pick falls
   * back to the safety net, whose `append` works only on a list; a truthy
   * dict or string iterates keys or characters, which have no `.get`; a
   * list must hold readable items only.
   */
  function BatchLeads(links: seq<string>, validator: Option<Json.Value>): (r: Option<seq<Job>>)
    ensures (|| validator.None? || validator.value.Null? || validator.value.Bool? || validator.value.Num?
             || validator.value == Json.Arr([])) ==> r == Some(SafetyNet(links))
    ensures validator.Some? && validator.value.Arr? && |validator.value.items| > 0 ==> r == ReadableJobs(validator.value.items)
    ensures r.None? <==> var v := Picked(validator);
              if !Json.Truthy(v) then !v.Arr? && |SafetyNet(links)| > 0
              else !v.Arr? || exists k :: 0 <= k < |v.items| && !Readable(v.items[k])
  {
    var v := Picked(validator);
    if !Json.Truthy(v) then
      var rescued := SafetyNet(links);
      if v.Arr? || |rescued| == 0 then Some(rescued) else None
    else if v.Arr? then ReadableJobs(v.items)
    else None
  }

  // ---------------------------------------------------------------------
  // Merging

  /** One entry of `found_leads`: the stripped URL key and the job stored under it. */
  datatype Entry = Entry(url: string, job: Job)

  /** `job.get('url', '').strip()`: the key a readable job is merged under. */
  function Key(job: Job): string {
    Strip(JobUrl(job).GetOr(""))
  }

  predicate HasUrl(found: seq<Entry>, url: string) {
    exists i | 0 <= i < |found| :: found[i].url == url
  }

  /**
   * Keys are distinct, at least 15 characters long, and are the key of their
   * job. The merge is stated for any key function and used with `Key`.
   */
  predicate WellFormed(found: seq<Entry>, key: Job -> string) {
    && (forall i, j :: 0 <= i < j < |found| ==> found[i].url != found[j].url)
    && (forall i :: 0 <= i < |found| ==> |found[i].url| >= MinMergedUrl && found[i].url == key(found[i].job))
  }

  /** One step of the merge loop: a short URL is skipped, and an existing key is never overwritten. */
  function MergeOne(found: seq<Entry>, job: Job, key: Job -> string): seq<Entry> {
    var url := key(job);
    if |url| < MinMergedUrl then found
    else if url != "" && !HasUrl(found, url) then found + [Entry(url, job)]
    else found
  }

  /** The merge loop over a round's batch. */
  function Merge(found: seq<Entry>, batch: seq<Job>, key: Job -> string): (r: seq<Entry>)
    decreases |batch|
  {
    if |batch| == 0 then found else Merge(MergeOne(found, batch[0], key), batch[1..], key)
  }

  /** `e` is the entry some job of `batch` would create. */
  ghost predicate FromJob(batch: seq<Job>, e: Entry, key: Job -> string) {
    exists k :: 0 <= k < |batch| && e == Entry(key(batch[k]), batch[k])
  }

  /** One merge step keeps what the table held, adds at most one entry, and keeps it well-formed. */
  lemma MergeOneKeeps(found: seq<Entry>, job: Job, key: Job -> string)
    requires WellFormed(found, key)
    ensures found <= MergeOne(found, job, key)
    ensures |MergeOne(found, job, key)| <= |found| + 1
    ensures WellFormed(MergeOne(found, job, key), key)
  {
    var url := key(job);
    if |url| >= MinMergedUrl && !HasUrl(found, url) {
      var r := found + [Entry(url, job)];
      assert forall i :: 0 <= i < |found| ==> r[i] == found[i];
      assert r[|found|].url == url;
    }
  }

  /** First wins: earlier entries are kept as they are, and well-formedness is preserved. */
  lemma {:induction false} MergeKeeps(found: seq<Entry>, batch: seq<Job>, key: Job -> string)
    requires WellFormed(found, key)
    ensures found <= Merge(found, batch, key)
    ensures WellFormed(Merge(found, batch, key), key)
    ensures |Merge(found, batch, key)| <= |found| + |batch|
    decreases |batch|
  {
    if |batch| > 0 {
      var next := MergeOne(found, batch[0], key);
      MergeOneKeeps(found, batch[0], key);
      MergeKeeps(next, batch[1..], key);
      assert Merge(found, batch, key) == Merge(next, batch[1..], key);
    }
  }

  /** Each entry the merge adds comes from a job of the batch. */
  lemma {:induction false} MergeSound(found: seq<Entry>, batch: seq<Job>, key: Job -> string)
    requires WellFormed(found, key)
    ensures forall i :: |found| <= i < |Merge(found, batch, key)| ==> FromJob(batch, Merge(found, batch, key)[i], key)
    decreases |batch|
  {
    if |batch| > 0 {
      var next := MergeOne(found, batch[0], key);
      MergeOneKeeps(found, batch[0], key);
      MergeSound(next, batch[1..], key);
      MergeKeeps(next, batch[1..], key);
      var r := Merge(next, batch[1..], key);
      forall i | |found| <= i < |r|
        ensures FromJob(batch, r[i], key)
      {
        if i < |next| {
          assert r[i] == next[i];
          assert r[i] == Entry(key(batch[0]), batch[0]);
        } else {
          assert FromJob(batch[1..], r[i], key);
          var k :| 0 <= k < |batch[1..]| && r[i] == Entry(key(batch[1..][k]), batch[1..][k]);
          assert batch[1..][k] == batch[k + 1];
        }
      }
    }
  }

  /** Every job of the batch with a long enough URL has that URL as a key afterwards. */
  lemma {:induction false} MergeComplete(found: seq<Entry>, batch: seq<Job>, key: Job -> string)
    requires WellFormed(found, key)
    ensures forall k :: 0 <= k < |batch| && |key(batch[k])| >= MinMergedUrl ==>
              HasUrl(Merge(found, batch, key), key(batch[k]))
    decreases |batch|
  {
    if |batch| > 0 {
      var next := MergeOne(found, batch[0], key);
      MergeOneKeeps(found, batch[0], key);
      MergeComplete(next, batch[1..], key);
      MergeKeeps(next, batch[1..], key);
      var r := Merge(next, batch[1..], key);
      forall k | 0 <= k < |batch| && |key(batch[k])| >= MinMergedUrl
        ensures HasUrl(r, key(batch[k]))
      {
        if k == 0 {
          var url := key(batch[0]);
          var i: nat;
          if HasUrl(found, url) {
            i :| 0 <= i < |found| && found[i].url == url;
            assert next[i] == found[i];
          } else {
            i := |found|;
            assert next[i].url == url;
          }
          assert r[i] == next[i];
        } else {
          assert batch[1..][k - 1] == batch[k];
        }
      }
    }
  }

  // ---------------------------------------------------------------------
  // Rounds

  /**
   * What one round sees: the grounding-metadata links, the answer text
   * (`None` when the search call raised or its answer has no text, where
   * the call or `re.findall` raises), and the validator's decoded JSON
   * (`None` when the call or the decoding raised, which is caught).
   */
  datatype RoundInput = RoundInput(meta: seq<string>, text: Option<string>, validator: Option<Json.Value>)

  /** The round raises: no answer text, or a pick the safety net or the merge loop cannot handle. */
  predicate RoundRaises(inp: RoundInput) {
    || inp.text.None?
    || (var links := Candidates(inp.meta, inp.text.value);
        |links| > 0 && BatchLeads(links, inp.validator).None?)
  }

  /** One round with an answer text: a round without candidates changes nothing. */
  function Round(found: seq<Entry>, inp: RoundInput): (r: Option<seq<Entry>>)
    requires inp.text.Some?
    ensures r.None? <==> RoundRaises(inp)
  {
    var links := Candidates(inp.meta, inp.text.value);
    if |links| == 0 then Some(found)
    else
      match BatchLeads(links, inp.validator)
      case None => None
      case Some(batch) => Some(Merge(found, batch, Key))
  }

  /** A round that does not raise keeps what the table held and keeps it well-formed. */
  lemma RoundFacts(found: seq<Entry>, inp: RoundInput)
    requires inp.text.Some?
    requires WellFormed(found, Key)
    ensures Round(found, inp).Some? ==> found <= Round(found, inp).value
    ensures Round(found, inp).Some? ==> WellFormed(Round(found, inp).value, Key)
  {
    var links := Candidates(inp.meta, inp.text.value);
    if |links| > 0 && BatchLeads(links, inp.validator).Some? {
      MergeKeeps(found, BatchLeads(links, inp.validator).value, Key);
    }
  }

  /** The table when the loop stopped, how many rounds started, and whether the last one raised. */
  datatype Outcome = Outcome(found: seq<Entry>, rounds: nat, raised: bool)

  /** `while len(found_leads) < target_count and attempts < 6` from round `attempts + 1` on. */
  function Rounds(target: int, attempts: nat, found: seq<Entry>, rounds: nat -> RoundInput): (r: Outcome)
    requires attempts <= MaxRounds
    requires WellFormed(found, Key)
    ensures attempts <= r.rounds <= MaxRounds
    ensures found <= r.found
    ensures WellFormed(r.found, Key)
    // The loop ends only when the target is met, every round is spent, or a round raised.
    ensures !r.raised ==> r.rounds == MaxRounds || |r.found| >= target
    // A raise comes from a round that started short of the target and raised.
    ensures r.raised ==> attempts < r.rounds && RoundRaises(rounds(r.rounds)) && |r.found| < target
    ensures (forall k :: attempts < k <= MaxRounds ==> !RoundRaises(rounds(k))) ==> !r.raised
    // A round starts only while the table is short of the target.
    ensures |found| >= target ==> r == Outcome(found, attempts, false)
    decreases MaxRounds - attempts
  {
    if |found| < target && attempts < MaxRounds then
      var inp := rounds(attempts + 1);
      if RoundRaises(inp) then Outcome(found, attempts + 1, true)
      else
        RoundFacts(found, inp);
        var next := Round(found, inp).value;
        var r := Rounds(target, attempts + 1, next, rounds);
        assert found <= next <= r.found;
        r
    else
      Outcome(found, attempts, false)
  }

  /** `list(found_leads.values())` */
  function Jobs(found: seq<Entry>): (r: seq<Job>)
    ensures |r| == |found|
    ensures forall i :: 0 <= i < |r| ==> r[i] == found[i].job
  {
    seq(|found|, i requires 0 <= i < |found| => found[i].job)
  }

  /** The jobs of a well-formed table have distinct keys of at least 15 characters. */
  lemma JobsKeys(found: seq<Entry>, key: Job -> string)
    requires WellFormed(found, key)
    ensures forall i :: 0 <= i < |found| ==> |key(Jobs(found)[i])| >= MinMergedUrl
    ensures forall i, j :: 0 <= i < j < |found| ==> key(Jobs(found)[i]) != key(Jobs(found)[j])
  {
  }

  /**
   * `gather_leads`: the jobs of the final table, in insertion order, or
   * `None` when it raises. `strategyAnswered` says whether the strategy
   * call, made before the loop whatever the target, returned.
   */
  function GatherLeads(target: int, strategyAnswered: bool, rounds: nat -> RoundInput): (r: Option<seq<Job>>)
    ensures !strategyAnswered ==> r.None?
    ensures strategyAnswered && target <= 0 ==> r == Some([])
    ensures strategyAnswered && (forall k :: 1 <= k <= MaxRounds ==> !RoundRaises(rounds(k))) ==> r.Some?
    ensures r.None? ==> !strategyAnswered || exists k :: 1 <= k <= MaxRounds && RoundRaises(rounds(k))
    // Returned jobs have distinct keys of at least 15 characters.
    ensures r.Some? ==> forall i :: 0 <= i < |r.value| ==> |Key(r.value[i])| >= MinMergedUrl
    ensures r.Some? ==> forall i, j :: 0 <= i < j < |r.value| ==> Key(r.value[i]) != Key(r.value[j])
  {
    if !strategyAnswered then None
    else
      var out := Rounds(target, 0, [], rounds);
      if out.raised then None
      else
        JobsKeys(out.found, Key);
        Some(Jobs(out.found))
  }

  /** A round whose answer carries no usable link is spent without touching the table. */
  lemma EmptyRoundCounts(target: int, attempts: nat, found: seq<Entry>, rounds: nat -> RoundInput)
    requires attempts < MaxRounds
    requires WellFormed(found, Key)
    requires |found| < target
    requires rounds(attempts + 1).text.Some?
    requires |Candidates(rounds(attempts + 1).meta, rounds(attempts + 1).text.value)| == 0
    ensures Rounds(target, attempts, found, rounds) == Rounds(target, attempts + 1, found, rounds)
  {
  }

  /** A round that raises stops the loop there, with the table as it was. */
  lemma RaisingRoundStops(target: int, attempts: nat, found: seq<Entry>, rounds: nat -> RoundInput)
    requires attempts < MaxRounds && RoundRaises(rounds(attempts + 1))
    requires WellFormed(found, Key)
    requires |found| < target
    ensures Rounds(target, attempts, found, rounds) == Outcome(found, attempts + 1, true)
  {
  }

  /** With a positive target the first round always runs, so a first round that raises makes `gather_leads` raise. */
  lemma FirstRaisingRoundRaises(target: int, strategyAnswered: bool, rounds: nat -> RoundInput)
    requires target > 0 && RoundRaises(rounds(1))
    ensures GatherLeads(target, strategyAnswered, rounds).None?
  {
    var out := FirstRoundStops(target, rounds);
    assert GatherLeads(target, strategyAnswered, rounds) == if strategyAnswered && !out.raised then Some(Jobs(out.found)) else None;
  }

  /** The loop's outcome when its first round raises. */
  lemma FirstRoundStops(target: int, rounds: nat -> RoundInput) returns (out: Outcome)
    requires target > 0 && RoundRaises(rounds(1))
    ensures out == Rounds(target, 0, [], rounds) && out.raised
  {
    out := Rounds(target, 0, [], rounds);
    RaisingRoundStops(target, 0, [], rounds);
  }

  /** With a positive target the first round always runs, so a first search without answer text makes `gather_leads` raise. */
  lemma FirstTextlessRoundRaises(target: int, strategyAnswered: bool, rounds: nat -> RoundInput)
    requires target > 0 && rounds(1).text.None?
    ensures GatherLeads(target, strategyAnswered, rounds).None?
  {
    FirstRaisingRoundRaises(target, strategyAnswered, rounds);
  }

  /**
   * A first round with candidates whose validator answers
   * `[{"url": null}]` makes `gather_leads` raise at `.strip()`.
   */
  lemma NullUrlRaises(target: int, strategyAnswered: bool, rounds: nat -> RoundInput)
    requires target > 0 && rounds(1).text.Some?
    requires |Candidates(rounds(1).meta, rounds(1).text.value)| > 0
    requires rounds(1).validator == Some(Json.Arr([Json.Obj(map["url" := Json.Null])]))
    ensures GatherLeads(target, strategyAnswered, rounds).None?
  {
    var item := Json.Obj(map["url" := Json.Null]);
    assert !Readable(item);
    assert ReadableJobs([item]).None?;
    var inp := rounds(1);
    assert BatchLeads(Candidates(inp.meta, inp.text.value), inp.validator).None?;
    FirstRaisingRoundRaises(target, strategyAnswered, rounds);
  }

  /** A validator answering a non-empty dict makes the round raise: its keys are strings, which have no `.get`. */
  lemma DictPickRaises(inp: RoundInput)
    requires inp.text.Some? && |Candidates(inp.meta, inp.text.value)| > 0
    requires inp.validator.Some? && inp.validator.value.Obj? && |inp.validator.value.fields| > 0
    ensures RoundRaises(inp)
  {
  }

  // ---------------------------------------------------------------------
  // Fence stripping

  /** Position `p` of `s` starts a line (the `^` of a MULTILINE pattern). */
  predicate AtLineStart(s: string, p: nat) {
    p == 0 || (p <= |s| && s[p - 1] == '\n')
  }

  /** The first position at or after `p` that is not whitespace (the end of `\s*`). */
  function SkipWs(s: string, p: nat): (q: nat)
    requires p <= |s|
    ensures p <= q <= |s|
    ensures forall i :: p <= i < q ==> IsWs(s[i])
    ensures q < |s| ==> !IsWs(s[q])
    decreases |s| - p
  {
    if p < |s| && IsWs(s[p]) then SkipWs(s, p + 1) else p
  }

  /** `re.sub('^' + fence + r'\s*', '', s[p:], flags=re.MULTILINE)`, with `^` judged on all of `s`. */
  function DropFences(s: string, fence: string, p: nat): (r: string)
    requires |fence| > 0
    requires p <= |s|
    decreases |s| - p
  {
    if p == |s| then ""
    else if AtLineStart(s, p) && SubAt(s, fence, p) then
      DropFences(s, fence, SkipWs(s, p + |fence|))
    else [s[p]] + DropFences(s, fence, p + 1)
  }

  /** `_clean_json_string`: `None` or `""` and an empty cleaned text both become `"[]"`. */
  function CleanJson(text: Option<string>): (r: string)
    ensures text.None? || text == Some("") ==> r == "[]"
    ensures r != ""
  {
    if text.None? || text.value == "" then "[]"
    else
      var a := DropFences(text.value, "```json", 0);
      var b := DropFences(a, "```", 0);
      var c := Strip(b);
      if c == "" then "[]" else c
  }

  /** No line of `s` from `p` on starts with `fence`. */
  predicate NoFenceFrom(s: string, fence: string, p: nat) {
    forall q :: p <= q < |s| && AtLineStart(s, q) ==> !SubAt(s, fence, q)
  }

  /** Without fences the pass copies the text through. */
  lemma {:induction false} DropFencesNone(s: string, fence: string, p: nat)
    requires |fence| > 0 && p <= |s|
    requires NoFenceFrom(s, fence, p)
    ensures DropFences(s, fence, p) == s[p..]
    decreases |s| - p
  {
    if p < |s| {
      DropFencesNone(s, fence, p + 1);
      assert s[p..] == [s[p]] + s[p + 1..];
    }
  }

  /** One character that opens no fence is copied. */
  lemma DropFencesStep(s: string, fence: string, p: nat)
    requires |fence| > 0 && p < |s|
    requires !(AtLineStart(s, p) && SubAt(s, fence, p))
    ensures DropFences(s, fence, p) == [s[p]] + DropFences(s, fence, p + 1)
  {
  }

  /** A stretch followed by more is its first element followed by the rest. */
  lemma ConsSlice<T>(s: seq<T>, p: nat, q: nat, rest: seq<T>)
    requires p < q <= |s|
    ensures s[p..q] + rest == [s[p]] + (s[p + 1..q] + rest)
  {
    assert s[p..q] == [s[p]] + s[p + 1..q];
  }

  /** A fence-free stretch is copied and the pass continues after it. */
  lemma {:induction false} DropFencesCopy(s: string, fence: string, p: nat, q: nat)
    requires |fence| > 0 && p <= q <= |s|
    requires forall i :: p <= i < q && AtLineStart(s, i) ==> !SubAt(s, fence, i)
    ensures DropFences(s, fence, p) == s[p..q] + DropFences(s, fence, q)
    decreases q - p
  {
    if p < q {
      DropFencesStep(s, fence, p);
      DropFencesCopy(s, fence, p + 1, q);
      ConsSlice(s, p, q, DropFences(s, fence, q));
    }
  }

  /** `payload` has no line that opens with a code fence, and no surrounding whitespace. */
  predicate PlainPayload(payload: string) {
    && |payload| > 0
    && !IsWs(payload[0]) && !IsWs(payload[|payload| - 1])
    && NoFenceFrom(payload, "```", 0)
  }

  /** One line start inside the payload opens no fence. */
  lemma NoFenceAt(pre: string, mid: string, post: string, fence: string, i: nat)
    requires |pre| == 0 || pre[|pre| - 1] == '\n'
    requires |fence| >= 3 && fence[..3] == "```"
    requires PlainPayload(mid)
    requires |post| > 0 && post[0] == '\n'
    requires |pre| <= i < |pre| + |mid| && AtLineStart(pre + mid + post, i)
    ensures !SubAt(pre + mid + post, fence, i)
  {
    var s := pre + mid + post;
    var q := i - |pre|;
    assert AtLineStart(mid, q) by {
      if q > 0 {
        assert mid[q - 1] == s[i - 1];
      }
    }
    if i + |fence| <= |s| {
      if q + 3 <= |mid| {
        assert s[i..i + 3] == mid[q..q + 3];
        assert mid[q..q + 3] != "```";
        assert s[i..i + |fence|][..3] == s[i..i + 3];
      } else {
        var k := |mid| - q;
        assert s[i + k] == '\n' && fence[k] == '`';
        assert s[i..i + |fence|][k] != fence[k];
      }
    }
  }

  /**
   * Placed after a line break and before a line break, a plain payload opens
   * no fence at any of its line starts, and its end is not a line start.
   */
  lemma NoFenceInPayload(pre: string, mid: string, post: string, fence: string)
    requires |pre| == 0 || pre[|pre| - 1] == '\n'
    requires |fence| >= 3 && fence[..3] == "```"
    requires PlainPayload(mid)
    requires |post| > 0 && post[0] == '\n'
    ensures forall i :: |pre| <= i < |pre| + |mid| && AtLineStart(pre + mid + post, i) ==>
              !SubAt(pre + mid + post, fence, i)
    ensures !AtLineStart(pre + mid + post, |pre| + |mid|)
  {
    var s := pre + mid + post;
    assert s[|pre| + |mid| - 1] == mid[|mid| - 1];
    forall i | |pre| <= i < |pre| + |mid| && AtLineStart(s, i)
      ensures !SubAt(s, fence, i)
    {
      NoFenceAt(pre, mid, post, fence, i);
    }
  }

  /** The `^```json\s*` pass removes the opening fence and the line break after it. */
  lemma FirstPass(payload: string)
    requires PlainPayload(payload)
    ensures DropFences("```json\n" + payload + "\n```", "```json", 0) == payload + "\n```"
  {
    var fence := "```json";
    var s := "```json\n" + payload + "\n```";
    var n := |payload|;
    assert s[0..7] == fence;
    assert IsWs(s[7]) && s[8] == payload[0];
    assert SkipWs(s, 7) == 8;
    NoFenceInPayload("```json\n", payload, "\n```", fence);
    forall i | 8 <= i < |s| && AtLineStart(s, i)
      ensures !SubAt(s, fence, i)
    {

    }
    DropFencesCopy(s, fence, 8, |s|);
    assert s[8..|s|] == payload + "\n```";
  }

  /** The `^```\s*` pass removes the closing fence, leaving the line break before it. */
  lemma SecondPass(payload: string)
    requires PlainPayload(payload)
    ensures DropFences(payload + "\n```", "```", 0) == payload + "\n"
  {
    var fence := "```";
    var a := payload + "\n```";
    var n := |payload|;
    assert "" + payload + "\n```" == a;
    NoFenceInPayload("", payload, "\n```", fence);
    DropFencesCopy(a, fence, 0, n + 1);
    assert AtLineStart(a, n + 1);
    assert a[n + 1..n + 4] == fence;
    assert SkipWs(a, n + 4) == n + 4;
    assert DropFences(a, fence, n + 1) == "";
    assert a[0..n + 1] == payload + "\n";
  }

  /** Unwrapping a fenced reply gives back the payload exactly. */
  lemma CleanJsonUnwraps(payload: string)
    requires PlainPayload(payload)
    ensures CleanJson(Some("```json\n" + payload + "\n```")) == payload
  {
    FirstPass(payload);
    SecondPass(payload);
    var b := payload + "\n";
    assert b[..|b| - 1] == payload;
    assert RStripSet(b, Whitespace) == payload;
    assert LStripSet(payload, Whitespace) == payload;
  }

  /** A reply that is already plain JSON text passes through unchanged. */
  lemma CleanJsonPlain(payload: string)
    requires PlainPayload(payload)
    ensures CleanJson(Some(payload)) == payload
  {
    forall q | 0 <= q < |payload| && AtLineStart(payload, q)
      ensures !SubAt(payload, "```json", q)
    {
      assert !SubAt(payload, "```", q);
      if q + 7 <= |payload| {
        assert payload[q..q + 7][..3] == payload[q..q + 3] != "```" == "```json"[..3];
      }
    }
    DropFencesNone(payload, "```json", 0);
    DropFencesNone(payload, "```", 0);
    assert payload[0..] == payload;
    StripOfTrimmed(payload);
  }
}

=== FILE: matcher.dfy ===
/**
 * The relevance scorer (`MatcherAgent` in app/agents/matcher.py): each lead
 * is judged independently by an external model, accepted leads are annotated
 * with their score and reason, sorted by score (highest first, stable) and
 * cut to the caller's limit. The judge is an oracle: `judge(i)` is the
 * outcome of the model call for the `i`-th lead.
 *
 * Nothing holds the judge to the `MatchAnalysis` shape: the answer is
 * whatever `json.loads` decodes, and the loop over the analyses indexes it
 * outside any `try`. An answer that is not a dict, or lacks a key the loop
 * reads, makes the whole batch raise; `is_match` is read by truthiness.
 */
module Matcher {
  import opened Wrappers
  import opened Leads
  import opened Json
  import Text
  import Sorting
  import Seqs

  /**
   * What one call of the judge produced: the decoded JSON answer, or an
   * exception (from the call or from `json.loads`) with its message.
   */
  datatype JudgeOutcome = Answer(value: Value) | JudgeRaised(message: string)

  /** The limit `filter_and_score_leads` uses when the caller gives none. */
  const DefaultLimit := 10

  /** How the loop reads one analysis: `analysis['is_match']`, then `['score']` and `['reason']`. */
  datatype Reading = Rejected | Matched(score: Value, reason: Value) | Malformed

  /**
   * Indexing a non-dict raises TypeError and a missing key raises KeyError;
   * `score` and `reason` are read only for a truthy `is_match`.
   */
  function Read(a: Value): (r: Reading)
    ensures r.Malformed? <==> !a.Obj? || "is_match" !in a.fields
                              || (Truthy(a.fields["is_match"]) && ("score" !in a.fields || "reason" !in a.fields))
    ensures r.Rejected? <==> a.Obj? && "is_match" in a.fields && !Truthy(a.fields["is_match"])
    ensures r.Matched? ==> r.score == a.fields["score"] && r.reason == a.fields["reason"]
  {
    match a
    case Obj(f) =>
      if "is_match" !in f then Malformed
      else if !Truthy(f["is_match"]) then Rejected
      else if "score" in f && "reason" in f then Matched(f["score"], f["reason"])
      else Malformed
    case _ => Malformed
  }

  /** `_analyze_lead`: the judge's answer as decoded, or a rejection with score 0 when the call or the decoding raised. */
  function AnalyzeLead(o: JudgeOutcome): (a: Value)
    ensures o.Answer? ==> a == o.value
    ensures o.JudgeRaised? ==> Read(a) == Rejected
    ensures o.JudgeRaised? ==> a.Obj? && "score" in a.fields && "reason" in a.fields && a.fields["score"] == Num(0) && a.fields["reason"] == Str("Error: " + o.message)
  {
    match o
    case Answer(v) => v
    case JudgeRaised(msg) => Obj(map["is_match" := Bool(false), "score" := Num(0), "reason" := Str("Error: " + msg)])
  }

  /** How the loop reads the analysis of the `i`-th lead. */
  function ReadOf(judge: nat -> JudgeOutcome, i: nat): Reading {
    Read(AnalyzeLead(judge(i)))
  }

  /** The lead with the judge's score and reason written into it. */
  function Scored(lead: Lead, m: Reading): Lead
    requires m.Matched?
  {
    lead.(matchScore := Some(m.score), matchReason := Some(m.reason))
  }

  /** The sort key `x.get('match_score', 0)`. */
  function ScoreKey(l: Lead): Value {
    l.matchScore.GetOr(Num(0))
  }

  /** Keys Python compares as numbers: integers and booleans (`True == 1`). */
  predicate Numeric(v: Value) {
    v.Num? || v.Bool?
  }

  function NumValue(v: Value): int
    requires Numeric(v)
  {
    if v.Num? then v.n else if v.b then 1 else 0
  }

  /**
   * The kind of a key. Keys of different kinds, and keys of the third kind
   * (`None`, dicts, lists), never meet in a sort that does not raise; the
   * ranks only make the order total.
   */
  function Kind(v: Value): nat {
    if Numeric(v) then 0 else if v.Str? then 1 else 2
  }

  /** Python's `a <= b` on two comparable keys: numbers by value, strings by code points. */
  predicate KeyLe(a: Value, b: Value) {
    if Kind(a) != Kind(b) then Kind(a) < Kind(b)
    else if Numeric(a) then NumValue(a) <= NumValue(b)
    else if a.Str? then Text.StrLe(a.s, b.s)
    else true
  }

  /** Compares leads by sort key. */
  function ScoreLe(a: Lead, b: Lead): bool {
    KeyLe(ScoreKey(a), ScoreKey(b))
  }

  lemma ScoreLeIsPreorder()
    ensures Sorting.TotalPreorder(ScoreLe)
  {
    forall a: Lead, b: Lead, c: Lead
      ensures Sorting.PreorderAt(ScoreLe, a, b, c)
    {
      var ka, kb, kc := ScoreKey(a), ScoreKey(b), ScoreKey(c);
      if ka.Str? && kb.Str? {
        Text.StrLeTotal(ka.s, kb.s);
        if kc.Str? && KeyLe(ka, kb) && KeyLe(kb, kc) {
          Text.StrLeTrans(ka.s, kb.s, kc.s);
        }
      }
    }
  }

  /**
   * `matches.sort(...)` raises: two or more leads are sorted and their keys
   * are not all numbers nor all strings, so some comparison mixes kinds or
   * involves `None`, a dict or a list.
   */
  predicate SortRaises(matches: seq<Lead>) {
    && |matches| >= 2
    && !(forall i :: 0 <= i < |matches| ==> Numeric(ScoreKey(matches[i])))
    && !(forall i :: 0 <= i < |matches| ==> ScoreKey(matches[i]).Str?)
  }

  /** Some analysis makes the loop raise. */
  predicate AnyMalformed(leads: seq<Lead>, judge: nat -> JudgeOutcome) {
    exists i :: 0 <= i < |leads| && ReadOf(judge, i).Malformed?
  }

  /** `x` is the annotated form of some lead the judge accepted. */
  ghost predicate FromAcceptedLead(leads: seq<Lead>, judge: nat -> JudgeOutcome, x: Lead) {
    exists i :: 0 <= i < |leads| && ReadOf(judge, i).Matched? && x == Scored(leads[i], ReadOf(judge, i))
  }

  /** The loop over `zip(leads, results)`: accepted leads in input order, annotated. */
  function Accepted(leads: seq<Lead>, judge: nat -> JudgeOutcome): (r: seq<Lead>)
    ensures |r| <= |leads|
    decreases |leads|
  {
    if |leads| == 0 then []
    else
      var n := |leads| - 1;
      var m := ReadOf(judge, n);
      var init := Accepted(leads[..n], judge);
      if m.Matched? then init + [Scored(leads[n], m)] else init
  }

  /** Only leads the judge accepted come out, each with its own judge's score and reason. */
  lemma {:induction false} AcceptedSound(leads: seq<Lead>, judge: nat -> JudgeOutcome)
    ensures forall x :: x in Accepted(leads, judge) ==> FromAcceptedLead(leads, judge, x)
    decreases |leads|
  {
    if |leads| > 0 {
      var n := |leads| - 1;
      var init := Accepted(leads[..n], judge);
      AcceptedSound(leads[..n], judge);
      forall x | x in Accepted(leads, judge)
        ensures FromAcceptedLead(leads, judge, x)
      {
        if x in init {
          assert FromAcceptedLead(leads[..n], judge, x);
          var i :| 0 <= i < n && ReadOf(judge, i).Matched? && x == Scored(leads[..n][i], ReadOf(judge, i));
          assert leads[..n][i] == leads[i];
        } else {
          assert x == Scored(leads[n], ReadOf(judge, n));
        }
      }
    }
  }

  /** Every lead the judge accepted comes out, annotated. */
  lemma {:induction false} AcceptedComplete(leads: seq<Lead>, judge: nat -> JudgeOutcome)
    ensures forall i :: 0 <= i < |leads| && ReadOf(judge, i).Matched? ==>
              Scored(leads[i], ReadOf(judge, i)) in Accepted(leads, judge)
    decreases |leads|
  {
    if |leads| > 0 {
      var n := |leads| - 1;
      var init := Accepted(leads[..n], judge);
      AcceptedComplete(leads[..n], judge);
      forall i | 0 <= i < |leads| && ReadOf(judge, i).Matched?
        ensures Scored(leads[i], ReadOf(judge, i)) in Accepted(leads, judge)
      {
        if i < n {
          assert leads[..n][i] == leads[i];
          assert Scored(leads[i], ReadOf(judge, i)) in init;
        }
      }
    }
  }

  /**
   * `filter_and_score_leads`: accepted leads sorted by score, highest first,
   * then `[:limit]`; `None` when the loop or the sort raises.
   */
  function FilterAndScore(leads: seq<Lead>, judge: nat -> JudgeOutcome, limit: int): (r: Option<seq<Lead>>)
    // The batch raises exactly on a malformed analysis or keys the sort cannot compare.
    ensures r.None? <==> AnyMalformed(leads, judge) || SortRaises(Accepted(leads, judge))
    // Only accepted leads appear, carrying exactly their judge's score and reason.
    ensures r.Some? ==> forall x :: x in r.value ==> FromAcceptedLead(leads, judge, x)
    ensures r.Some? ==> multiset(r.value) <= multiset(Accepted(leads, judge))
    // Highest score first.
    ensures r.Some? ==> forall i, j :: 0 <= i < j < |r.value| ==> ScoreLe(r.value[j], r.value[i])
    // Exactly `min(limit, accepted)` leads for a non-negative limit.
    ensures r.Some? && limit >= 0 ==>
              |r.value| == (if limit < |Accepted(leads, judge)| then limit else |Accepted(leads, judge)|)
    // Top-k: no accepted lead that was cut off outranks a returned one.
    ensures r.Some? ==> forall x, y :: x in multiset(Accepted(leads, judge)) - multiset(r.value) && y in r.value ==>
              ScoreLe(x, y)
  {
    var acc := Accepted(leads, judge);
    if AnyMalformed(leads, judge) || SortRaises(acc) then None
    else
      AcceptedSound(leads, judge);
      var r := TopScored(acc, limit);
      assert forall x :: x in r ==> FromAcceptedLead(leads, judge, x) by {
        forall x | x in r
          ensures FromAcceptedLead(leads, judge, x)
        {
          assert x in multiset(acc);
        }
      }
      Some(r)
  }

  /** `sorted(matches, reverse=True)[:limit]` for matches the sort can compare. */
  function TopScored(matches: seq<Lead>, limit: int): (r: seq<Lead>)
    ensures multiset(r) <= multiset(matches)
    ensures forall i, j :: 0 <= i < j < |r| ==> ScoreLe(r[j], r[i])
    ensures limit >= 0 ==> |r| == (if limit < |matches| then limit else |matches|)
    ensures forall x, y :: x in multiset(matches) - multiset(r) && y in r ==> ScoreLe(x, y)
  {
    ScoreLeIsPreorder();
    var sorted := Sorting.SortDesc(matches, ScoreLe);
    var r := Seqs.PyTake(sorted, limit);
    PrefixFacts(sorted, |r|);
    r
  }

  /** A prefix of a non-increasing list dominates what follows it. */
  lemma PrefixFacts(sorted: seq<Lead>, k: nat)
    requires k <= |sorted|
    requires Sorting.SortedDesc(sorted, ScoreLe)
    ensures multiset(sorted[..k]) <= multiset(sorted)
    ensures forall i, j :: 0 <= i < j < k ==> ScoreLe(sorted[..k][j], sorted[..k][i])
    ensures forall x, y :: x in multiset(sorted) - multiset(sorted[..k]) && y in sorted[..k] ==> ScoreLe(x, y)
  {
    assert sorted == sorted[..k] + sorted[k..];
    assert multiset(sorted) == multiset(sorted[..k]) + multiset(sorted[k..]);
    forall x, y | x in multiset(sorted) - multiset(sorted[..k]) && y in sorted[..k]
      ensures ScoreLe(x, y)
    {
      assert x in multiset(sorted[k..]);
      var m :| 0 <= m < |sorted[k..]| && sorted[k..][m] == x;
      var n :| 0 <= n < k && sorted[..k][n] == y;
      assert ScoreLe(sorted[k + m], sorted[n]);
    }
  }

  /** A prefix of a list, restricted to one score, is a prefix of the list restricted to that score. */
  lemma {:induction false} TiedWithPrefix(s: seq<Lead>, k: nat, y: Lead)
    requires k <= |s|
    ensures Sorting.TiedWith(s[..k], y, ScoreLe) <= Sorting.TiedWith(s, y, ScoreLe)
  {
    if k > 0 {
      assert s[..k][0] == s[0];
      assert s[..k][1..] == s[1..][..k - 1];
      TiedWithPrefix(s[1..], k - 1, y);
    }
  }

  /**
   * Stability: among returned leads with the same score, the order is their
   * order in the input, and they are the first leads of that score the judge
   * accepted.
   */
  lemma {:induction false} FilterAndScoreStable(leads: seq<Lead>, judge: nat -> JudgeOutcome, limit: int, y: Lead)
    requires FilterAndScore(leads, judge, limit).Some?
    ensures Sorting.TiedWith(FilterAndScore(leads, judge, limit).value, y, ScoreLe)
         <= Sorting.TiedWith(Accepted(leads, judge), y, ScoreLe)
  {
    ScoreLeIsPreorder();
    var acc := Accepted(leads, judge);
    var sorted := Sorting.SortDesc(acc, ScoreLe);
    var r := Seqs.PyTake(sorted, limit);
    assert FilterAndScore(leads, judge, limit).value == TopScored(acc, limit) == r;
    assert r == sorted[..|r|];
    TiedWithPrefix(sorted, |r|, y);
    Sorting.SortStable(acc, y, ScoreLe);
  }

  /**
   * A judge call that raises inside `_analyze_lead` rejects only its own
   * lead: that lead is never returned, and every other accepted lead is
   * still accepted.
   */
  lemma {:induction false} JudgeErrorDropsOnlyThatLead(leads: seq<Lead>, judge: nat -> JudgeOutcome, limit: int, e: nat)
    requires e < |leads|
    requires judge(e).JudgeRaised?
    ensures ReadOf(judge, e) == Rejected
    ensures FilterAndScore(leads, judge, limit).Some? ==>
              forall x :: x in FilterAndScore(leads, judge, limit).value ==>
                exists i :: 0 <= i < |leads| && i != e && ReadOf(judge, i).Matched? && x == Scored(leads[i], ReadOf(judge, i))
    ensures forall i :: 0 <= i < |leads| && ReadOf(judge, i).Matched? ==>
              Scored(leads[i], ReadOf(judge, i)) in Accepted(leads, judge)
  {
    AcceptedComplete(leads, judge);
    var r := FilterAndScore(leads, judge, limit);
    if r.Some? {
      forall x | x in r.value
        ensures exists i :: 0 <= i < |leads| && i != e && ReadOf(judge, i).Matched? && x == Scored(leads[i], ReadOf(judge, i))
      {
        var i :| 0 <= i < |leads| && ReadOf(judge, i).Matched? && x == Scored(leads[i], ReadOf(judge, i));
        assert i != e;
      }
    }
  }

  /** An answer that parsed but is not a dict with `is_match`, or a match without `score`, makes the whole batch raise. */
  lemma MalformedAnswerFailsBatch(leads: seq<Lead>, judge: nat -> JudgeOutcome, limit: int, e: nat)
    requires e < |leads| && judge(e).Answer?
    requires var v := judge(e).value;
             !v.Obj? || "is_match" !in v.fields || (Truthy(v.fields["is_match"]) && "score" !in v.fields)
    ensures FilterAndScore(leads, judge, limit).None?
  {
    assert ReadOf(judge, e).Malformed?;
  }

  /** `is_match` is tested for truthiness: the string "false" accepts the lead. */
  lemma {:induction false} StringFalseAccepts(leads: seq<Lead>, judge: nat -> JudgeOutcome, e: nat, score: Value, reason: Value)
    requires e < |leads|
    requires judge(e) == Answer(Obj(map["is_match" := Str("false"), "score" := score, "reason" := reason]))
    ensures leads[e].(matchScore := Some(score), matchReason := Some(reason)) in Accepted(leads, judge)
  {
    AcceptedComplete(leads, judge);
    assert ReadOf(judge, e) == Matched(score, reason);
  }

  /** Two accepted leads whose scores are a number and a string make the sort raise. */
  lemma MixedScoresRaise(leads: seq<Lead>, judge: nat -> JudgeOutcome, limit: int, i: nat, j: nat)
    requires i < j < |leads|
    requires ReadOf(judge, i).Matched? && Numeric(ReadOf(judge, i).score)
    requires ReadOf(judge, j).Matched? && ReadOf(judge, j).score.Str?
    ensures FilterAndScore(leads, judge, limit).None?
  {
    AcceptedComplete(leads, judge);
    var acc := Accepted(leads, judge);
    var a := Scored(leads[i], ReadOf(judge, i));
    var b := Scored(leads[j], ReadOf(judge, j));
    assert a in acc && b in acc;
    var p :| 0 <= p < |acc| && acc[p] == a;
    var q :| 0 <= q < |acc| && acc[q] == b;
    assert p != q;
    assert !ScoreKey(acc[p]).Str? && !Numeric(ScoreKey(acc[q]));
  }
}

=== FILE: password.dfy ===
/**
 * `generate_strong_password` (utils/password_generator.py): one character
 * from each class, the rest from the pooled classes, then a shuffle. The
 * random draws are oracles: `pick(k)` is the raw draw behind the `k`-th
 * `random.choice`, and `draw` feeds `random.shuffle`.
 */
module Password {
  import opened Text
  import Shuffle

  const MinLength := 8
  const DefaultLength := 16

  /** `string.ascii_uppercase`, `string.ascii_lowercase`, `string.digits` and the symbol subset. */
  const Uppers: string := seq(26, i requires 0 <= i < 26 => ('A' as int + i) as char)
  const Lowers: string := seq(26, i requires 0 <= i < 26 => ('a' as int + i) as char)
  const Digits: string := seq(10, i requires 0 <= i < 10 => ('0' as int + i) as char)
  const Symbols: string := "!@#$%^&*"

  /** `upper + lower + digits + symbols` */
  const Pool: string := Uppers + Lowers + Digits + Symbols

  predicate IsUpper(c: char) {
    'A' <= c <= 'Z'
  }

  predicate IsLower(c: char) {
    'a' <= c <= 'z'
  }

  predicate IsSymbol(c: char) {
    c == '!' || c == '@' || c == '#' || c == '$' || c == '%' || c == '^' || c == '&' || c == '*'
  }

  /** A character of one of the four classes. */
  predicate Allowed(c: char) {
    IsUpper(c) || IsLower(c) || IsDigit(c) || IsSymbol(c)
  }

  /** At least one character of every class. */
  ghost predicate HasEveryClass(s: string) {
    && (exists i :: 0 <= i < |s| && IsUpper(s[i]))
    && (exists i :: 0 <= i < |s| && IsLower(s[i]))
    && (exists i :: 0 <= i < |s| && IsDigit(s[i]))
    && (exists i :: 0 <= i < |s| && IsSymbol(s[i]))
  }

  /** Every character of the pool belongs to a class. */
  lemma PoolAllowed(k: nat)
    requires k < |Pool|
    ensures Allowed(Pool[k])
  {
    if k < 26 {
      assert Pool[k] == Uppers[k];
    } else if k < 52 {
      assert Pool[k] == Lowers[k - 26];
    } else if k < 62 {
      assert Pool[k] == Digits[k - 52];
    } else {
      assert Pool[k] == Symbols[k - 62];
    }
  }

  /** The mandatory choices land in their classes. */
  lemma ClassChoices(u: nat, l: nat, d: nat, y: nat)
    ensures IsUpper(Uppers[u % 26]) && IsLower(Lowers[l % 26])
    ensures IsDigit(Digits[d % 10]) && IsSymbol(Symbols[y % 8])
  {
    var k := y % 8;
    assert Symbols[k] in {'!', '@', '#', '$', '%', '^', '&', '*'} by {
      assert k == 0 || k == 1 || k == 2 || k == 3 || k == 4 || k == 5 || k == 6 || k == 7;
    }
  }

  /** `random.choice(s)`: the element the reduced draw points at. */
  function Choice(s: string, raw: nat): char
    requires |s| > 0
  {
    s[raw % |s|]
  }

  /** The length actually produced: shorter requests are raised to 8. */
  function EffectiveLength(length: int): (n: nat)
    ensures n >= MinLength
    ensures length >= MinLength ==> n == length
  {
    if length < MinLength then MinLength else length
  }

  /** The characters before shuffling: one per class, then `length - 4` from the pool. */
  function Chosen(length: int, pick: nat -> nat): (r: string)
    ensures |r| == EffectiveLength(length)
    ensures IsUpper(r[0]) && IsLower(r[1]) && IsDigit(r[2]) && IsSymbol(r[3])
    ensures forall i :: 0 <= i < |r| ==> Allowed(r[i])
  {
    var n := EffectiveLength(length);
    var first := [Choice(Uppers, pick(0)), Choice(Lowers, pick(1)), Choice(Digits, pick(2)), Choice(Symbols, pick(3))];
    ClassChoices(pick(0), pick(1), pick(2), pick(3));
    var rest := seq(n - 4, k requires 0 <= k < n - 4 => Choice(Pool, pick(4 + k)));
    forall k | 0 <= k < n - 4
      ensures Allowed(rest[k])
    {
      PoolAllowed(pick(4 + k) % |Pool|);
    }
    first + rest
  }

  /** `generate_strong_password(length)` */
  function Generate(length: int, pick: nat -> nat, draw: nat -> nat): (r: string)
    ensures |r| == EffectiveLength(length)
    ensures multiset(r) == multiset(Chosen(length, pick))
    ensures forall i :: 0 <= i < |r| ==> Allowed(r[i])
    ensures HasEveryClass(r)
  {
    var chosen := Chosen(length, pick);
    var r := Shuffle.Shuffle(chosen, draw);
    forall i | 0 <= i < |r|
      ensures Allowed(r[i])
    {
      assert r[i] in multiset(chosen);
    }
    ClassesSurvive(chosen, r);
    r
  }

  /** A rearrangement of the chosen characters still has one of every class. */
  lemma ClassesSurvive(chosen: string, r: string)
    requires |chosen| >= 4
    requires IsUpper(chosen[0]) && IsLower(chosen[1]) && IsDigit(chosen[2]) && IsSymbol(chosen[3])
    requires multiset(r) == multiset(chosen)
    ensures HasEveryClass(r)
  {
    forall k | 0 <= k < 4
      ensures exists i :: 0 <= i < |r| && r[i] == chosen[k]
    {
      assert chosen[k] in multiset(r);
      assert chosen[k] in r;
    }
  }

  /** Lengths below the minimum all give the 8-character password. */
  lemma ShortLengthsRaised(length: int, pick: nat -> nat, draw: nat -> nat)
    requires length < MinLength
    ensures Generate(length, pick, draw) == Generate(MinLength, pick, draw)
  {
  }

  /** The shuffle only reorders: the same choices give the same characters, whatever the shuffle draws. */
  lemma ShuffleOnlyReorders(length: int, pick: nat -> nat, d1: nat -> nat, d2: nat -> nat)
    ensures multiset(Generate(length, pick, d1)) == multiset(Generate(length, pick, d2))
  {
  }
}

=== FILE: profile_api.dfy ===
/**
 * The profile endpoints (app/api/profile.py): reading the profile without
 * its password hash, the allowed-keys filter of the profile update, and
 * the resume-parse endpoint's path handling and decoding fallback. The
 * database, storage and the resume parser are oracles; an oracle's
 * `Failure` carries the message of the exception it raised.
 */
module ProfileApi {
  import opened Wrappers
  import opened Text
  import opened Json
  import FencedJson

  type Row = map<string, Value>

  const PasswordHash := "password_hash"

  /** The only fields a client may update. */
  const AllowedKeys: set<string> := {"full_name", "primary_resume_name", "profile_data"}

  /** `user.pop('password_hash', None)`: the user without the hash, everything else kept. */
  function WithoutPasswordHash(user: Row): (r: Row)
    ensures PasswordHash !in r
    ensures forall k :: k != PasswordHash ==> (k in r <==> k in user)
    ensures forall k :: k in r ==> r[k] == user[k]
  {
    user - {PasswordHash}
  }

  /** `get_profile`: 404 when the user row is gone or empty (`not user`), else the row without its hash. */
  function GetProfile(user: Option<Row>): (r: Result<Row, HttpError>)
    ensures (user.None? || |user.value| == 0) <==> r == Failure(HttpError(404, "User not found"))
    ensures r.Success? ==> user.Some? && |user.value| > 0 && r.value == WithoutPasswordHash(user.value)
  {
    match user
    case None => Failure(HttpError(404, "User not found"))
    case Some(u) => if |u| == 0 then Failure(HttpError(404, "User not found")) else Success(WithoutPasswordHash(u))
  }

  /** `{k: v for k, v in data.items() if k in allowed_keys}` */
  function CleanData(data: Row): (r: Row)
    ensures forall k :: k in r <==> k in data && k in AllowedKeys
    ensures forall k :: k in r ==> r[k] == data[k]
  {
    map k | k in data && k in AllowedKeys :: data[k]
  }

  /** Filtering twice filters nothing more. */
  lemma CleanDataIdempotent(data: Row)
    ensures CleanData(CleanData(data)) == CleanData(data)
  {
    assert CleanData(CleanData(data)).Keys == CleanData(data).Keys;
  }

  /**
   * What FastAPI answers for an exception the handler does not catch: its
   * default handler replies 500 with the generic detail.
   */
  const UncaughtError := HttpError(500, "Internal Server Error")

  /**
   * `update_profile`: 400 when no allowed field is left, otherwise the
   * database is updated with exactly the allowed fields. `update` is
   * `update_user_profile`: `Failure` when it raises (it logs and re-raises,
   * so the exception leaves the handler), else the first row returned or
   * `None`. A falsy row (none, or an empty one) is a 500 "Failed to update
   * profile".
   */
  function UpdateProfile(data: Row, update: Row -> Result<Option<Row>, string>): (r: Result<Row, HttpError>)
    ensures r == Failure(HttpError(400, "No valid fields to update")) <==> data.Keys * AllowedKeys == {}
    ensures r.Success? ==>
              && update(CleanData(data)).Success?
              && update(CleanData(data)).value.Some?
              && |update(CleanData(data)).value.value| > 0
              && r.value == WithoutPasswordHash(update(CleanData(data)).value.value)
    // With some allowed field, the database's answer decides the reply.
    ensures data.Keys * AllowedKeys != {} ==>
              match update(CleanData(data))
              case Failure(_) => r == Failure(UncaughtError)
              case Success(None) => r == Failure(HttpError(500, "Failed to update profile"))
              case Success(Some(u)) =>
                r == (if |u| == 0 then Failure(HttpError(500, "Failed to update profile")) else Success(WithoutPasswordHash(u)))
  {
    var clean := CleanData(data);
    if |clean| == 0 then
      assert forall k :: k in data.Keys * AllowedKeys ==> k in clean;
      Failure(HttpError(400, "No valid fields to update"))
    else
      assert clean.Keys <= data.Keys * AllowedKeys;
      match update(clean)
      case Failure(_) => Failure(UncaughtError)
      case Success(None) => Failure(HttpError(500, "Failed to update profile"))
      case Success(Some(u)) =>
        if |u| == 0 then Failure(HttpError(500, "Failed to update profile"))
        else Success(WithoutPasswordHash(u))
  }

  /** An update made only of disallowed fields never reaches the database. */
  lemma DisallowedFieldsRejected(data: Row, update: Row -> Result<Option<Row>, string>)
    requires forall k :: k in data ==> k !in AllowedKeys
    ensures UpdateProfile(data, update).Failure?
    ensures UpdateProfile(data, update).error.code == 400
  {
    assert data.Keys * AllowedKeys == {};
  }

  /** A database error is not the handler's "Failed to update profile": it leaves as FastAPI's generic 500. */
  lemma UpdateRaiseIsUncaught(data: Row, update: Row -> Result<Option<Row>, string>)
    requires data.Keys * AllowedKeys != {} && update(CleanData(data)).Failure?
    ensures UpdateProfile(data, update) == Failure(UncaughtError)
    ensures UpdateProfile(data, update) != Failure(HttpError(500, "Failed to update profile"))
  {
  }

  /**
   * The storage path of the resume to parse: a bare file name is taken to
   * live in the user's folder, `"{user_id}/{name}"`; a path is kept.
   */
  function ResumePath(userId: nat, path: string): (r: string)
    ensures '/' in r
    ensures '/' in path ==> r == path
    ensures '/' !in path ==> EndsWith(r, "/" + path) && StartsWith(r, NatToString(userId) + "/")
  {
    if '/' !in path then NatToString(userId) + "/" + path else path
  }

  /** Normalising an already-normalised path changes nothing. */
  lemma ResumePathIdempotent(userId: nat, path: string)
    ensures ResumePath(userId, ResumePath(userId, path)) == ResumePath(userId, path)
  {
  }

  /** `os.path.basename`: everything after the last `/`. */
  function Basename(path: string): (r: string)
    ensures forall i :: 0 <= i < |r| ==> r[i] != '/'
    ensures |r| <= |path| && r == path[|path| - |r|..]
    ensures |r| < |path| ==> path[|path| - |r| - 1] == '/'
    decreases |path|
  {
    if |path| == 0 || path[|path| - 1] == '/' then ""
    else
      var n := |path| - 1;
      var init := Basename(path[..n]);
      assert path[n - |init|..] == path[..n][n - |init|..] + [path[n]];
      init + [path[n]]
  }

  /** A name without `/` is its own base name. */
  lemma {:induction false} BasenameOfName(name: string)
    requires '/' !in name
    ensures Basename(name) == name
    decreases |name|
  {
    if |name| > 0 {
      BasenameOfName(name[..|name| - 1]);
      assert name == name[..|name| - 1] + [name[|name| - 1]];
    }
  }

  /** The base name is what follows the last `/`, whatever comes before it. */
  lemma {:induction false} BasenameAfterSlash(dir: string, name: string)
    requires '/' !in name
    ensures Basename(dir + "/" + name) == name
    decreases |name|
  {
    var s := dir + "/" + name;
    if |name| == 0 {
      assert s[|s| - 1] == '/';
    } else {
      assert s[..|s| - 1] == dir + "/" + name[..|name| - 1];
      BasenameAfterSlash(dir, name[..|name| - 1]);
      assert name == name[..|name| - 1] + [name[|name| - 1]];
    }
  }

  /** `f"/tmp/{user_id}_{safe_name}"` */
  function TmpPath(userId: nat, path: string): string {
    "/tmp/" + NatToString(userId) + "_" + Basename(path)
  }

  /** A bare file name is parsed from `/tmp/{user_id}_{name}`, whatever the user folder. */
  lemma TmpPathOfName(userId: nat, name: string)
    requires '/' !in name
    ensures TmpPath(userId, ResumePath(userId, name)) == "/tmp/" + NatToString(userId) + "_" + name
  {
    BasenameAfterSlash(NatToString(userId), name);
  }

  /** The services `parse_resume` calls; a `Failure` is the message of the exception raised. */
  datatype Services = Services(
    download: string -> Result<(), string>,  // `download_file(resume_path)`
    parse: string -> Result<string, string>,  // `parse_to_json(tmp_path)`
    loads: string -> Option<Value>,           // `json.loads`
    decodeError: string,                      // the message of the fenced body's decode error
    store: Value -> Result<(), string>)       // `update_user_profile(user_id, {"profile_data": ...})`

  /**
   * `parse_resume`: 503 without a parser; otherwise the decoded profile,
   * stored into `profile_data` and returned, or a 500 carrying the message
   * of whatever raised.
   */
  function ParseResume(hasParser: bool, userId: nat, path: string, sv: Services): (r: Result<Value, HttpError>)
    ensures !hasParser ==> r.Failure? && r.error.code == 503
    ensures hasParser && r.Failure? ==> r.error.code == 500
    ensures r.Success? ==>
              && sv.download(ResumePath(userId, path)).Success?
              && sv.parse(TmpPath(userId, ResumePath(userId, path))).Success?
              && Some(r.value) == FencedJson.DecodeProfile(sv.parse(TmpPath(userId, ResumePath(userId, path))).value, sv.loads)
              && sv.store(r.value).Success?
    // Working services give back the decoded profile.
    ensures var tmp := TmpPath(userId, ResumePath(userId, path));
            hasParser && sv.download(ResumePath(userId, path)).Success? && sv.parse(tmp).Success?
            && FencedJson.DecodeProfile(sv.parse(tmp).value, sv.loads).Some?
            && sv.store(FencedJson.DecodeProfile(sv.parse(tmp).value, sv.loads).value).Success?
            ==> r == Success(FencedJson.DecodeProfile(sv.parse(tmp).value, sv.loads).value)
    // The first stage that raises gives its message as a 500.
    ensures hasParser && sv.download(ResumePath(userId, path)).Failure? ==>
              r == Failure(HttpError(500, sv.download(ResumePath(userId, path)).error))
    ensures var tmp := TmpPath(userId, ResumePath(userId, path));
            hasParser && sv.download(ResumePath(userId, path)).Success? && sv.parse(tmp).Failure? ==>
              r == Failure(HttpError(500, sv.parse(tmp).error))
  {
    if !hasParser then Failure(HttpError(503, "Resume Parser service unavailable (Missing API Key)"))
    else
      var p := ResumePath(userId, path);
      match sv.download(p)
      case Failure(e) => Failure(HttpError(500, e))
      case Success(_) =>
        match sv.parse(TmpPath(userId, p))
        case Failure(e) => Failure(HttpError(500, e))
        case Success(text) =>
          match FencedJson.DecodeProfile(text, sv.loads)
          case None => Failure(HttpError(500, sv.decodeError))
          case Some(v) =>
            match sv.store(v)
            case Failure(e) => Failure(HttpError(500, e))
            case Success(_) => Success(v)
  }

  /** With every service working, a reply that is not JSON and has no fenced block is saved as raw text. */
  lemma ParseRawTextSaved(userId: nat, path: string, sv: Services, text: string)
    requires sv.download(ResumePath(userId, path)).Success?
    requires sv.parse(TmpPath(userId, ResumePath(userId, path))) == Success(text)
    requires sv.loads(text).None? && !Contains(text, FencedJson.Open)
    requires forall v :: sv.store(v).Success?
    ensures ParseResume(true, userId, path, sv) == Success(Obj(map["raw_text" := Str(text)]))
  {
    FencedJson.DecodeRawText(text, sv.loads);
  }
}

=== FILE: researcher.dfy ===
/**
 * The browser-driven researcher the pipeline runs (`ResearcherAgent` in
 * app/agents/researcher.py). A model proposes search queries, each query is
 * searched on up to two result pages by a browser agent, the job objects
 * found are tagged with their query, and the leads are deduplicated by a
 * lower-cased `company|title` signature against the agent's `seen_jobs`.
 * Every external effect is an oracle:
 *   - `generated`: the query list the model returned (None if the call or decoding raised);
 *   - `search(i, page)`: what the browser agent's answer for query `i` on
 *     `page` decoded to, one entry per JSON block (None for a block that
 *     did not decode), or `PageRaised` when the agent run raised.
 */
module Researcher {
  import opened Wrappers
  import opened Text
  import opened Json
  import Seqs

  /** Characters the query cleaner deletes: `[()"'\[\]]`. */
  const QueryJunk: set<char> := {'(', ')', '"', '\'', '[', ']'}

  /** The strategy for an empty profile. */
  const DefaultStrategy: seq<string> := ["Software Engineer"]

  /** The strategy when generation raised. */
  const FallbackStrategy: seq<string> := ["Entry Level Job", "Remote Job"]

  // ---------------------------------------------------------------------
  // Strategy

  /** A cleaned query: none of the deleted characters, no surrounding whitespace. */
  predicate CleanQueryForm(c: string) {
    && (forall i :: 0 <= i < |c| ==> c[i] !in QueryJunk)
    && (|c| > 0 ==> !IsWs(c[0]) && !IsWs(c[|c| - 1]))
  }

  /** `re.sub(r'[()\"\'\[\]]', '', q).replace(' OR ', ' ').replace(' AND ', ' ').strip()` */
  function CleanQuery(q: string): (c: string)
    ensures CleanQueryForm(c)
  {
    var a := RemoveChars(q, QueryJunk);
    var b := Replace(a, " OR ", " ");
    ReplaceAvoids(a, " OR ", " ", QueryJunk);
    var d := Replace(b, " AND ", " ");
    ReplaceAvoids(b, " AND ", " ", QueryJunk);
    var c := Strip(d);
    SubChars(d, c);
    c
  }

  /**
   * Each replacement is one left-to-right pass over non-overlapping
   * occurrences, so a doubled operator leaves one behind.
   */
  lemma CleanQuerySinglePass(s: string)
    requires s == "a OR OR b"
    ensures CleanQuery(s) == "a OR b"
  {
    var a := RemoveChars(s, QueryJunk);
    assert a == s by {
      RemoveAbsentChars(s, QueryJunk);
    }
    var b := Replace(a, " OR ", " ");
    assert b == "a OR b" by {
      ReplaceOrOnce(s);
    }
    var d := Replace(b, " AND ", " ");
    assert d == b by {
      ReplaceAndNone(b);
    }
    assert Strip(d) == d by {
      StripOfTrimmed(d);
    }
  }

  lemma ReplaceOrOnce(s: string)
    requires s == "a OR OR b"
    ensures Replace(s, " OR ", " ") == "a OR b"
  {
    var t := s[1..];
    var u := t[4..];
    assert s[..4][0] == 'a';
    assert t == " OR OR b" && t[..4] == " OR ";
    assert u == "OR b" && u[..4][0] == 'O';
    assert Replace(u[1..], " OR ", " ") == u[1..];
    assert Replace(u, " OR ", " ") == [u[0]] + u[1..] == u;
    assert Replace(t, " OR ", " ") == " " + u;
  }

  lemma ReplaceAndNone(u: string)
    requires u == "a OR b"
    ensures Replace(u, " AND ", " ") == u
  {
    assert !Contains(u, " AND ") by {
      forall i | 0 <= i <= |u| - 5
        ensures !SubAt(u, " AND ", i)
      {
        assert u[i + 2] != 'N';
      }
    }
  }

  /** The cleaned form of every generated query, in order. */
  function CleanedQueries(raw: seq<string>): (r: seq<string>)
    ensures |r| == |raw|
    ensures forall i :: 0 <= i < |r| ==> r[i] == CleanQuery(raw[i]) && CleanQueryForm(r[i])
  {
    seq(|raw|, i requires 0 <= i < |raw| => CleanQuery(raw[i]))
  }

  /** `generate_strategy`: `None` for `generated` is a generation or decoding exception. */
  function GenerateStrategy(profileEmpty: bool, generated: Option<seq<string>>): (r: seq<string>)
    ensures profileEmpty ==> r == DefaultStrategy
    ensures !profileEmpty && generated.None? ==> r == FallbackStrategy
    // One cleaned query per generated query, in order; the list may be empty.
    ensures !profileEmpty && generated.Some? ==>
              |r| == |generated.value| && forall i :: 0 <= i < |r| ==> r[i] == CleanQuery(generated.value[i])
  {
    if profileEmpty then DefaultStrategy
    else match generated
      case None => FallbackStrategy
      case Some(raw) => CleanedQueries(raw)
  }

  // ---------------------------------------------------------------------
  // Search pages

  /** A lead: the job object the agent extracted, as a dict. */
  type Lead = map<string, Value>

  /** What the browser agent's answer for one page decoded to. */
  datatype PageResult = PageRaised | PageBlocks(blocks: seq<Option<Value>>)

  /** The dict items of a JSON list; any other value yields none. */
  function DictItems(v: Value): (r: seq<Lead>)
    ensures forall k :: 0 <= k < |r| ==> v.Arr? && Obj(r[k]) in v.items
    ensures v.Arr? ==> forall k :: 0 <= k < |v.items| && v.items[k].Obj? ==> v.items[k].fields in r
  {
    if !v.Arr? then [] else ObjFields(v.items)
  }

  function ObjFields(items: seq<Value>): (r: seq<Lead>)
    ensures forall k :: 0 <= k < |r| ==> Obj(r[k]) in items
    ensures forall k :: 0 <= k < |items| && items[k].Obj? ==> items[k].fields in r
  {
    if |items| == 0 then []
    else
      var rest := ObjFields(items[1..]);
      assert forall k :: 1 <= k < |items| ==> items[k] == items[1..][k - 1];
      if items[0].Obj? then [items[0].fields] + rest else rest
  }

  /**
   * The job dicts one decoded block contributes: the `jobs` list of a dict,
   * or the block itself when it is a list; non-dict entries are dropped.
   */
  function BlockJobs(block: Option<Value>): seq<Lead> {
    match block
    case None => []
    case Some(Obj(f)) => DictItems(Get(f, "jobs", Arr([])))
    case Some(Arr(items)) => DictItems(Arr(items))
    case Some(_) => []
  }

  /** `{**j, 'query_source': query}` */
  function Tag(j: Lead, query: string): (l: Lead)
    ensures "query_source" in l && l["query_source"] == Str(query)
    ensures forall k :: k in j && k != "query_source" ==> k in l && l[k] == j[k]
  {
    j["query_source" := Str(query)]
  }

  /** Every lead tagged with its query. */
  predicate TaggedWith(leads: seq<Lead>, query: string) {
    forall k :: 0 <= k < |leads| ==> "query_source" in leads[k] && leads[k]["query_source"] == Str(query)
  }

  /** `l` carries the `query_source` of one of `queries`. */
  ghost predicate TaggedByOneOf(l: Lead, queries: seq<string>) {
    exists q :: q in queries && "query_source" in l && l["query_source"] == Str(q)
  }

  /** The leads one page yields, in block order. */
  function PageLeads(query: string, page: PageResult): (r: seq<Lead>)
    ensures TaggedWith(r, query)
  {
    match page
    case PageRaised => []
    case PageBlocks(blocks) => BlocksLeads(query, blocks)
  }

  function BlocksLeads(query: string, blocks: seq<Option<Value>>): (r: seq<Lead>)
    ensures TaggedWith(r, query)
  {
    if |blocks| == 0 then []
    else
      var jobs := BlockJobs(blocks[0]);
      seq(|jobs|, k requires 0 <= k < |jobs| => Tag(jobs[k], query)) + BlocksLeads(query, blocks[1..])
  }

  /**
   * `urllib.parse.quote` accepts a string (or bytes, which JSON cannot
   * give); any other value raises `TypeError` in `quote_from_bytes`.
   */
  predicate Quotable(v: Value) {
    v.Str?
  }

  /**
   * `process_query` for the `i`-th query, where `location` is the value
   * `profile.get('location', 'Remote')` returned: nothing when `limit <= 0`,
   * otherwise page 1, and page 2 only while page 1 left it short of
   * `limit`. Quoting the location for page 1 happens before the page's
   * `try`, so a location that is not a string makes the query raise
   * (`None`).
   */
  function ProcessQuery(i: nat, query: string, location: Value, limit: int,
                        search: (nat, nat) -> PageResult): (r: Option<seq<Lead>>)
    ensures r.None? <==> limit > 0 && !Quotable(location)
    ensures limit <= 0 ==> r == Some([])
    ensures r.Some? ==> TaggedWith(r.value, query)
    // At most two pages: page 1's leads first, then page 2's.
    ensures r.Some? && limit > 0 ==> PageLeads(query, search(i, 1)) <= r.value
    ensures r.Some? && limit > 0 && |PageLeads(query, search(i, 1))| >= limit ==>
              r.value == PageLeads(query, search(i, 1))
    ensures r.Some? && limit > 0 && |PageLeads(query, search(i, 1))| < limit ==>
              r.value == PageLeads(query, search(i, 1)) + PageLeads(query, search(i, 2))
  {
    if limit <= 0 then Some([])
    else if !Quotable(location) then None
    else
      var p1 := PageLeads(query, search(i, 1));
      Some(if |p1| >= limit then p1 else p1 + PageLeads(query, search(i, 2)))
  }

  /** Some query's task raises: there is a query, a positive limit and a location `quote` rejects. */
  predicate QueryRaises(queries: seq<string>, location: Value, limit: int) {
    |queries| > 0 && limit > 0 && !Quotable(location)
  }

  /**
   * `asyncio.gather` over the queries: one result list per query, in query
   * order, or `None` when a task raised, which `gather` passes on.
   */
  function QueryResults(queries: seq<string>, location: Value, limit: int,
                        search: (nat, nat) -> PageResult): (r: Option<seq<seq<Lead>>>)
    ensures r.None? <==> exists i :: 0 <= i < |queries| && ProcessQuery(i, queries[i], location, limit, search).None?
    ensures r.None? <==> QueryRaises(queries, location, limit)
    ensures r.Some? ==> |r.value| == |queries|
    ensures r.Some? ==> forall i :: 0 <= i < |r.value| ==>
              Some(r.value[i]) == ProcessQuery(i, queries[i], location, limit, search)
  {
    if exists i :: 0 <= i < |queries| && ProcessQuery(i, queries[i], location, limit, search).None? then None
    else
      assert QueryRaises(queries, location, limit) ==> ProcessQuery(0, queries[0], location, limit, search).None?;
      Some(seq(|queries|, i requires 0 <= i < |queries| => ProcessQuery(i, queries[i], location, limit, search).value))
  }

  /** Every lead the queries found, flattened in query order; none when a query raised. */
  function Found(queries: seq<string>, location: Value, limit: int, search: (nat, nat) -> PageResult): seq<Lead> {
    match QueryResults(queries, location, limit, search)
    case None => []
    case Some(results) => Seqs.Flatten(results)
  }

  // ---------------------------------------------------------------------
  // Deduplication

  /** `f"{company.lower()}|{title.lower()}"`; `None` when either field is not a string, where `.lower()` raises. */
  function Signature(l: Lead): Option<string> {
    match (GetStr(l, "company"), GetStr(l, "title"))
    case (Some(c), Some(t)) => Some(Lower(c) + "|" + Lower(t))
    case _ => None
  }

  /** The outcome of `gather_leads`; `seen` is the agent's `seen_jobs` afterwards. */
  datatype Gathered = Gathered(leads: seq<Lead>, seen: set<string>) | Raised(seen: set<string>)

  /** The flattening loop with its `limit` breaks, over the flattened per-query results. */
  function Dedup(acc: seq<Lead>, seen: set<string>, rest: seq<Lead>, limit: int): Gathered
    decreases |rest|
  {
    if |rest| == 0 then Gathered(acc, seen)
    else match Signature(rest[0])
      case None => Raised(seen)
      case Some(sig) =>
        if sig in seen then Dedup(acc, seen, rest[1..], limit)
        else if |acc| + 1 >= limit then Gathered(acc + [rest[0]], seen + {sig})
        else Dedup(acc + [rest[0]], seen + {sig}, rest[1..], limit)
  }

  /** `l` has a signature and it is in `seen`. */
  ghost predicate SigIn(l: Lead, seen: set<string>) {
    Signature(l).Some? && Signature(l).value in seen
  }

  /** Some lead of `leads` has no signature. */
  ghost predicate SomeUnsigned(leads: seq<Lead>) {
    exists k :: 0 <= k < |leads| && Signature(leads[k]).None?
  }

  /** The leads kept have pairwise distinct signatures, none seen before, all recorded. */
  ghost predicate FreshSigs(seen0: set<string>, leads: seq<Lead>, seen1: set<string>) {
    && seen0 <= seen1
    && (forall k :: 0 <= k < |leads| ==> Signature(leads[k]).Some? && Signature(leads[k]).value !in seen0 && Signature(leads[k]).value in seen1)
    && (forall j, k :: 0 <= j < k < |leads| ==> Signature(leads[j]) != Signature(leads[k]))
  }

  /**
   * The dedup loop keeps leads with fresh signatures, never more than
   * `limit` of them once `limit >= 1`.
   */
  lemma {:induction false} DedupFresh(acc: seq<Lead>, seen: set<string>, rest: seq<Lead>, limit: int, seen0: set<string>)
    requires FreshSigs(seen0, acc, seen)
    requires limit >= 1 ==> |acc| < limit
    ensures var g := Dedup(acc, seen, rest, limit);
            g.Gathered? ==> FreshSigs(seen0, g.leads, g.seen) && (limit >= 1 ==> |g.leads| <= limit)
    decreases |rest|
  {
    if |rest| > 0 && Signature(rest[0]).Some? {
      var sig := Signature(rest[0]).value;
      if sig in seen {
        DedupFresh(acc, seen, rest[1..], limit, seen0);
      } else if |acc| + 1 < limit {
        assert FreshSigs(seen0, acc + [rest[0]], seen + {sig});
        DedupFresh(acc + [rest[0]], seen + {sig}, rest[1..], limit, seen0);
      } else {
        assert FreshSigs(seen0, acc + [rest[0]], seen + {sig});
      }
    }
  }

  /** The dedup loop appends to the leads so far a sub-sequence of its input. */
  lemma {:induction false} DedupOrder(acc: seq<Lead>, seen: set<string>, rest: seq<Lead>, limit: int)
    ensures var g := Dedup(acc, seen, rest, limit);
            g.Gathered? ==> acc <= g.leads && Seqs.SubsequenceOf(g.leads[|acc|..], rest)
    decreases |rest|
  {
    if |rest| > 0 && Signature(rest[0]).Some? {
      var g := Dedup(acc, seen, rest, limit);
      var sig := Signature(rest[0]).value;
      var acc' := acc + [rest[0]];
      if sig in seen {
        DedupOrder(acc, seen, rest[1..], limit);
      } else if |acc| + 1 < limit {
        DedupOrder(acc', seen + {sig}, rest[1..], limit);
        if g.Gathered? {
          assert g.leads[|acc|..][1..] == g.leads[|acc'|..];
        }
      } else {
        assert g.leads[|acc|..] == [rest[0]];
        assert [rest[0]][1..] == [];
      }
    }
  }

  /** The loop raises only on a lead without a signature. */
  lemma {:induction false} DedupRaises(acc: seq<Lead>, seen: set<string>, rest: seq<Lead>, limit: int)
    ensures Dedup(acc, seen, rest, limit).Raised? ==> SomeUnsigned(rest)
    decreases |rest|
  {
    if |rest| > 0 && Signature(rest[0]).Some? {
      var sig := Signature(rest[0]).value;
      var next := if sig in seen then acc else acc + [rest[0]];
      var seen' := if sig in seen then seen else seen + {sig};
      if sig in seen || |acc| + 1 < limit {
        DedupRaises(next, seen', rest[1..], limit);
        if Dedup(acc, seen, rest, limit).Raised? {
          var k :| 0 <= k < |rest[1..]| && Signature(rest[1..][k]).None?;
          assert rest[1..][k] == rest[k + 1];
        }
      }
    }
  }

  /**
   * Unless it stopped at `limit`, the loop saw every lead: none raised, and
   * every signature is in `seen` afterwards.
   */
  lemma {:induction false} DedupComplete(acc: seq<Lead>, seen: set<string>, rest: seq<Lead>, limit: int)
    requires limit >= 1 ==> |acc| < limit
    ensures var g := Dedup(acc, seen, rest, limit);
            && seen <= g.seen
            && (g.Gathered? && |g.leads| < limit ==>
                  forall k :: 0 <= k < |rest| ==> SigIn(rest[k], g.seen))
    decreases |rest|
  {
    if |rest| > 0 {
      match Signature(rest[0])
      case None =>
      case Some(sig) =>
        if sig in seen {
          DedupComplete(acc, seen, rest[1..], limit);
        } else if |acc| + 1 < limit {
          DedupComplete(acc + [rest[0]], seen + {sig}, rest[1..], limit);
        } else {
          DedupLength(acc, seen, rest[1..], limit);
        }
      var g := Dedup(acc, seen, rest, limit);
      if g.Gathered? && |g.leads| < limit {
        forall k | 0 <= k < |rest|
          ensures SigIn(rest[k], g.seen)
        {
          if k > 0 {
            assert rest[k] == rest[1..][k - 1];
          }
        }
      }
    }
  }

  /** The loop only appends. */
  lemma {:induction false} DedupLength(acc: seq<Lead>, seen: set<string>, rest: seq<Lead>, limit: int)
    ensures Dedup(acc, seen, rest, limit).Gathered? ==> |acc| <= |Dedup(acc, seen, rest, limit).leads|
    decreases |rest|
  {
    if |rest| > 0 {
      match Signature(rest[0])
      case None =>
      case Some(sig) =>
        if sig in seen {
          DedupLength(acc, seen, rest[1..], limit);
        } else if |acc| + 1 < limit {
          DedupLength(acc + [rest[0]], seen + {sig}, rest[1..], limit);
        }
    }
  }

  // ---------------------------------------------------------------------
  // gather_leads

  /** The profile `gather_leads` is given, as the JSON dict it was decoded from. */
  type Profile = map<string, Value>

  /** `profile.get('location', 'Remote')` */
  function Location(profile: Profile): (v: Value)
    ensures |profile| == 0 ==> v == Str("Remote")
  {
    Get(profile, "location", Str("Remote"))
  }

  /**
   * `gather_leads` as written: `math.ceil(limit / len(queries))` is
   * evaluated before any search and raises `ZeroDivisionError` when the
   * strategy is empty.
   */
  function GatherLeadsAsWritten(profile: Profile, generated: Option<seq<string>>, limit: int,
                                search: (nat, nat) -> PageResult, seen: set<string>): Gathered
  {
    var queries := GenerateStrategy(|profile| == 0, generated);
    if |queries| == 0 then Raised(seen)
    else match QueryResults(queries, Location(profile), limit, search)
      case None => Raised(seen)
      case Some(results) => Dedup([], seen, Seqs.Flatten(results), limit)
  }

  /** A model that answers with an empty list makes the as-written gather raise before searching. */
  lemma EmptyStrategyRaises(profile: Profile, limit: int, search: (nat, nat) -> PageResult, seen: set<string>)
    requires |profile| > 0
    ensures GenerateStrategy(false, Some([])) == []
    ensures GatherLeadsAsWritten(profile, Some([]), limit, search, seen) == Raised(seen)
  {
  }

  /**
   * `gather_leads` with no search when there is no query: the queries'
   * leads, deduplicated, or a raise passed on from a query's task.
   */
  function GatherLeads(profile: Profile, generated: Option<seq<string>>, limit: int,
                       search: (nat, nat) -> PageResult, seen: set<string>): Gathered
  {
    var queries := GenerateStrategy(|profile| == 0, generated);
    match QueryResults(queries, Location(profile), limit, search)
    case None => Raised(seen)
    case Some(results) => Dedup([], seen, Seqs.Flatten(results), limit)
  }

  /** The corrected gather agrees with the source whenever the source does not divide by zero. */
  lemma GatherLeadsAgrees(profile: Profile, generated: Option<seq<string>>, limit: int,
                          search: (nat, nat) -> PageResult, seen: set<string>)
    ensures |GenerateStrategy(|profile| == 0, generated)| > 0 ==>
              GatherLeads(profile, generated, limit, search, seen)
              == GatherLeadsAsWritten(profile, generated, limit, search, seen)
    ensures |GenerateStrategy(|profile| == 0, generated)| == 0 ==>
              GatherLeads(profile, generated, limit, search, seen) == Gathered([], seen)
  {
  }

  /**
   * The gathered leads: found by the queries' searches in query order, each
   * tagged with a query of the strategy, with signatures distinct and
   * new to the agent, at most `limit` of them once `limit >= 1`; and when
   * fewer than `limit` come back, every lead found had its signature
   * recorded. A raise comes from a location `quote` rejects, before any
   * lead is found and with `seen_jobs` untouched, or from a lead without a
   * signature.
   */
  lemma GatherLeadsFacts(profile: Profile, generated: Option<seq<string>>, limit: int,
                         search: (nat, nat) -> PageResult, seen: set<string>)
    ensures var queries := GenerateStrategy(|profile| == 0, generated);
            var found := Found(queries, Location(profile), limit, search);
            var g := GatherLeads(profile, generated, limit, search, seen);
            && seen <= g.seen
            && (QueryRaises(queries, Location(profile), limit) ==> g == Raised(seen))
            && (g.Gathered? ==>
                  && Seqs.SubsequenceOf(g.leads, found)
                  && (forall k :: 0 <= k < |g.leads| ==> TaggedByOneOf(g.leads[k], queries))
                  && FreshSigs(seen, g.leads, g.seen)
                  && (limit >= 1 ==> |g.leads| <= limit)
                  && (|g.leads| < limit ==> forall k :: 0 <= k < |found| ==> SigIn(found[k], g.seen)))
            && (g.Raised? ==> QueryRaises(queries, Location(profile), limit) || SomeUnsigned(found))
  {
    var queries := GenerateStrategy(|profile| == 0, generated);
    var g := GatherLeads(profile, generated, limit, search, seen);
    match QueryResults(queries, Location(profile), limit, search)
    case None =>
    case Some(results) =>
      var found := Seqs.Flatten(results);
      assert g == Dedup([], seen, found, limit);
      DedupFresh([], seen, found, limit, seen);
      DedupOrder([], seen, found, limit);
      DedupRaises([], seen, found, limit);
      DedupComplete([], seen, found, limit);
      if g.Gathered? {
        assert g.leads[0..] == g.leads;
        FoundTagged(queries, results, g.leads);
      }
  }

  /**
   * A `location` in the profile that is not a string (null, a number, a
   * boolean, a list or a dict) makes the first page of every query raise,
   * so with a positive limit and some query `gather_leads` raises with
   * nothing found and `seen_jobs` untouched.
   */
  lemma UnquotableLocationRaises(profile: Profile, generated: Option<seq<string>>, limit: int,
                                 search: (nat, nat) -> PageResult, seen: set<string>)
    requires limit >= 1 && "location" in profile && !profile["location"].Str?
    requires generated.None? || |generated.value| > 0
    ensures GatherLeads(profile, generated, limit, search, seen) == Raised(seen)
  {
    assert |GenerateStrategy(|profile| == 0, generated)| > 0;
  }

  /** A sub-sequence of the per-query results carries only those queries' tags. */
  lemma FoundTagged(queries: seq<string>, results: seq<seq<Lead>>, leads: seq<Lead>)
    requires |results| == |queries|
    requires forall i :: 0 <= i < |results| ==> TaggedWith(results[i], queries[i])
    requires Seqs.SubsequenceOf(leads, Seqs.Flatten(results))
    ensures forall k :: 0 <= k < |leads| ==> TaggedByOneOf(leads[k], queries)
  {
    Seqs.SubsequenceMembers(leads, Seqs.Flatten(results));
    forall k | 0 <= k < |leads|
      ensures TaggedByOneOf(leads[k], queries)
    {
      Seqs.FlattenMember(results, leads[k]);
      var i :| 0 <= i < |results| && leads[k] in results[i];
      var j :| 0 <= j < |results[i]| && results[i][j] == leads[k];
      assert leads[k]["query_source"] == Str(queries[i]);
    }
  }

  /**
   * With no search results at all, nothing is gathered and `seen` is
   * unchanged, unless quoting the location raised first.
   */
  lemma NothingFoundGathersNothing(profile: Profile, generated: Option<seq<string>>, limit: int,
                                   seen: set<string>)
    ensures GatherLeads(profile, generated, limit, (i: nat, p: nat) => PageRaised, seen)
            == if QueryRaises(GenerateStrategy(|profile| == 0, generated), Location(profile), limit) then Raised(seen)
               else Gathered([], seen)
  {
    var queries := GenerateStrategy(|profile| == 0, generated);
    match QueryResults(queries, Location(profile), limit, (i: nat, p: nat) => PageRaised)
    case None =>
    case Some(results) =>
      FlattenEmpty(results);
  }

  lemma {:induction false} FlattenEmpty(xss: seq<seq<Lead>>)
    requires forall i :: 0 <= i < |xss| ==> xss[i] == []
    ensures Seqs.Flatten(xss) == []
  {
    if |xss| > 0 {
      FlattenEmpty(xss[1..]);
    }
  }
}

=== FILE: resume_parser.dfy ===
/**
 * Resume date normalisation and schema mapping (`ResumeParser.map_to_schema`
 * and its nested `parse_date_string` in app/utils/resume_parser.py). The flat
 * record the model extracts from a PDF is renamed into the nested profile
 * the frontend edits, and every free-text date becomes a month name, a year
 * and an "is current" flag.
 *
 * The model's response schema declares every field a string, so fields are
 * strings here and an absent field is the empty string it defaults to.
 */
module ResumeParser {
  import opened Wrappers
  import opened Text

  // ---------------------------------------------------------------------
  // Dates

  /** `strftime("%B")`: the full month names, January first. */
  const MonthNames: seq<string> := ["January", "February", "March", "April", "May", "June",
    "July", "August", "September", "October", "November", "December"]

  /** The names `strptime("%B")` accepts, case-insensitively. */
  const MonthKeys: seq<string> := ["january", "february", "march", "april", "may", "june",
    "july", "august", "september", "october", "november", "december"]

  /** The names `strptime("%b")` accepts, case-insensitively. */
  const MonthAbbrevs: seq<string> := ["jan", "feb", "mar", "apr", "may", "jun",
    "jul", "aug", "sep", "oct", "nov", "dec"]

  /** Lower-cased words that mark a current position. */
  const CurrentWords: seq<string> := ["present", "current", "now"]

  /** `x in ['present', 'current', 'now']` */
  predicate IsCurrentWord(x: string) {
    exists i :: 0 <= i < |CurrentWords| && CurrentWords[i] == x
  }

  /** The dict `parse_date_string` returns; `isCurrent` is `is_current`, false when absent. */
  datatype ParsedDate = ParsedDate(month: string, year: string, isCurrent: bool)

  const NoDate := ParsedDate("", "", false)

  /** The position of the first whitespace character, or `|s|`. */
  function FirstWs(s: string): (k: nat)
    ensures k <= |s|
    ensures forall i :: 0 <= i < k ==> !IsWs(s[i])
    ensures k < |s| ==> IsWs(s[k])
  {
    if |s| == 0 || IsWs(s[0]) then 0 else 1 + FirstWs(s[1..])
  }

  /** The index of `x` in `xs`, if it occurs. */
  function IndexOf(xs: seq<string>, x: string): (r: Option<nat>)
    ensures r.Some? ==> r.value < |xs| && xs[r.value] == x
    ensures r.None? ==> x !in xs
  {
    if |xs| == 0 then None
    else if xs[0] == x then Some(0)
    else match IndexOf(xs[1..], x)
      case None => None
      case Some(i) => Some(i + 1)
  }

  /** A non-empty run of whitespace followed by exactly four ASCII digits. */
  predicate YearTail(t: string) {
    && |t| >= 5
    && (forall i :: 0 <= i < |t| - 4 ==> IsWs(t[i]))
    && IsDigits(t[|t| - 4..])
  }

  /**
   * `datetime.strptime(s, "<month> %Y")` with the month names `names`: the
   * month index and the year. The month name runs up to the first
   * whitespace; year 0 is out of `datetime`'s range and fails like a
   * mismatch.
   */
  function MonthYear(s: string, names: seq<string>): (r: Option<(nat, nat)>)
    ensures r.Some? ==> r.value.0 < |names| && 1 <= r.value.1 <= 9999
  {
    var k := FirstWs(s);
    var t := s[k..];
    match IndexOf(names, Lower(s[..k]))
    case None => None
    case Some(m) =>
      if YearTail(t) && DigitsValue(t[|t| - 4..]) >= 1 then
        DigitsBound(t[|t| - 4..]);
        Some((m, DigitsValue(t[|t| - 4..])))
      else None
  }

  /** Four digits denote at most 9999. */
  lemma DigitsBound(d: string)
    requires |d| == 4 && IsDigits(d)
    ensures DigitsValue(d) <= 9999
  {
    DigitsValueBound(d);
    assert Pow10(4) == 10000;
  }

  /** `x` is one of the full month names. */
  ghost predicate IsMonthName(x: string) {
    exists m :: 0 <= m < |MonthNames| && MonthNames[m] == x
  }

  /** What `parse_date_string` produces: a current marker, or an optional month with its year. */
  ghost predicate WellFormedDate(r: ParsedDate) {
    && (r.isCurrent ==> r.month == "" && r.year == "")
    && (r.month != "" ==> IsMonthName(r.month) && IsDigits(r.year) && r.year == NatToString(DigitsValue(r.year)))
    && (r.year != "" ==> IsDigits(r.year) && |r.year| <= 4)
  }

  /** `parse_date_string`. */
  function ParseDate(d: string): (r: ParsedDate)
    ensures d == "" ==> r == NoDate
    ensures WellFormedDate(r)
  {
    if d == "" then NoDate else ParseTrimmed(Strip(d))
  }

  /** `parse_date_string` after the emptiness check and `strip()`. */
  function ParseTrimmed(s: string): (r: ParsedDate)
    ensures WellFormedDate(r)
  {
    if IsCurrentWord(Lower(s)) then ParsedDate("", "", true)
    else match MonthYear(s, MonthAbbrevs)
      case Some((m, y)) => FromMonthYear(m, y)
      case None =>
        match MonthYear(s, MonthKeys)
        case Some((m, y)) => FromMonthYear(m, y)
        case None => if IsDigits(s) && |s| == 4 then ParsedDate("", s, false) else NoDate
  }

  /** The result of a successful `strptime`: `%B` of the month, `str` of the year. */
  function FromMonthYear(m: nat, y: nat): (r: ParsedDate)
    requires m < 12 && 1 <= y <= 9999
    ensures r.month == MonthNames[m] && !r.isCurrent
    ensures r.year == NatToString(y) && |r.year| <= 4
    ensures WellFormedDate(r)
  {
    var ys := NatToString(y);
    NatToStringShort(y);
    ParsedDate(MonthNames[m], ys, false)
  }

  /** Years below 10000 print in at most four digits. */
  lemma {:induction false} NatToStringShort(n: nat)
    ensures n <= 9999 ==> |NatToString(n)| <= 4
    ensures n <= 999 ==> |NatToString(n)| <= 3
    ensures n <= 99 ==> |NatToString(n)| <= 2
    ensures n <= 9 ==> |NatToString(n)| == 1
    decreases n
  {
    if n >= 10 {
      NatToStringShort(n / 10);
    }
  }

  // ---------------------------------------------------------------------
  // Facts about dates

  /** Surrounding whitespace never changes the parse. */
  lemma ParseDateIgnoresSurroundingWs(d: string)
    ensures ParseDate(Strip(d)) == ParseDate(d)
  {
    var s := Strip(d);
    if d != "" {
      if s == "" {
        ParseTrimmedEmpty();
      } else {
        StripOfTrimmed(s);
      }
    }
  }

  /** Only whitespace parses to no date. */
  lemma ParseTrimmedEmpty()
    ensures ParseTrimmed("") == NoDate
  {
    assert !IsCurrentWord(Lower(""));
    NoMonthYear("", MonthAbbrevs);
    NoMonthYear("", MonthKeys);
  }

  /** A date is current exactly when, trimmed and lower-cased, it is a current word. */
  lemma ParseDateCurrent(d: string)
    ensures ParseDate(d).isCurrent <==> d != "" && IsCurrentWord(Lower(Strip(d)))
  {
  }

  lemma {:induction false} FirstWsAt(s: string, k: nat)
    requires k <= |s|
    requires forall i :: 0 <= i < k ==> !IsWs(s[i])
    requires k < |s| ==> IsWs(s[k])
    ensures FirstWs(s) == k
    decreases k
  {
    if k > 0 {
      FirstWsAt(s[1..], k - 1);
    }
  }

  lemma {:induction false} IndexOfDistinct(xs: seq<string>, i: nat)
    requires i < |xs|
    requires forall j :: 0 <= j < i ==> xs[j] != xs[i]
    ensures IndexOf(xs, xs[i]) == Some(i)
    decreases i
  {
    if i > 0 {
      IndexOfDistinct(xs[1..], i - 1);
    }
  }

  /** Only "may" is both a month abbreviation and a full month name. */
  lemma AbbrevsAndKeys(j: nat, m: nat)
    requires j < 12 && m < 12
    requires MonthAbbrevs[j] == MonthKeys[m]
    ensures j == m
  {
    assert |MonthAbbrevs[j]| == 3;
  }

  lemma MonthListsDistinct(m: nat)
    requires m < 12
    ensures forall j :: 0 <= j < m ==> MonthAbbrevs[j] != MonthAbbrevs[m]
    ensures forall j :: 0 <= j < m ==> MonthKeys[j] != MonthKeys[m]
  {
  }

  /** `n` is a month name as `strptime` accepts it: letters, naming month `m` in short or full form. */
  predicate NamesMonth(n: string, m: nat) {
    && m < 12
    && |n| >= 3
    && (forall i :: 0 <= i < |n| ==> 'A' <= n[i] <= 'Z' || 'a' <= n[i] <= 'z')
    && (Lower(n) == MonthAbbrevs[m] || Lower(n) == MonthKeys[m])
  }

  /** No current word ends in a digit. */
  lemma NotCurrentWord(x: string)
    requires |x| > 0 && IsDigit(x[|x| - 1])
    ensures !IsCurrentWord(x)
  {
    forall i | 0 <= i < |CurrentWords|
      ensures CurrentWords[i] != x
    {
      var c := CurrentWords[i];
      assert !IsDigit(c[|c| - 1]);
    }
  }

  /** A name, whitespace and four digits split at the first whitespace. */
  lemma {:induction false} MonthYearOf(n: string, w: string, yd: string, names: seq<string>)
    requires |n| > 0 && forall i :: 0 <= i < |n| ==> !IsWs(n[i])
    requires |w| > 0 && forall i :: 0 <= i < |w| ==> IsWs(w[i])
    requires |yd| == 4 && IsDigits(yd) && DigitsValue(yd) >= 1
    ensures MonthYear(n + w + yd, names) ==
              match IndexOf(names, Lower(n))
              case None => None
              case Some(m) => Some((m, DigitsValue(yd)))
  {
    var s := n + w + yd;
    var k := |n|;
    FirstWsAt(s, k);
    assert s[..k] == n;
    var t := s[k..];
    assert t == w + yd;
    assert t[|t| - 4..] == yd;
    assert YearTail(t);
  }

  /** Letters are not whitespace. */
  lemma LettersNoWs(n: string)
    requires forall i :: 0 <= i < |n| ==> 'A' <= n[i] <= 'Z' || 'a' <= n[i] <= 'z'
    ensures forall i :: 0 <= i < |n| ==> !IsWs(n[i])
  {
  }

  /** The month index `strptime` finds for a name of month `m`, with `%b` tried first. */
  lemma MonthIndex(n: string, m: nat)
    requires NamesMonth(n, m)
    ensures IndexOf(MonthAbbrevs, Lower(n)).Some? ==> IndexOf(MonthAbbrevs, Lower(n)) == Some(m)
    ensures IndexOf(MonthAbbrevs, Lower(n)).None? ==> IndexOf(MonthKeys, Lower(n)) == Some(m)
  {
    MonthListsDistinct(m);
    if Lower(n) == MonthAbbrevs[m] {
      IndexOfDistinct(MonthAbbrevs, m);
    } else if Lower(n) in MonthAbbrevs {
      var j :| 0 <= j < 12 && MonthAbbrevs[j] == Lower(n);
      AbbrevsAndKeys(j, m);
    } else {
      IndexOfDistinct(MonthKeys, m);
    }
  }

  /** A string with no surrounding whitespace is parsed as it stands. */
  lemma TrimmedParse(s: string)
    requires |s| > 0 && !IsWs(s[0]) && !IsWs(s[|s| - 1])
    ensures ParseDate(s) == ParseTrimmed(s)
  {
    StripOfTrimmed(s);
  }

  /** Without whitespace there is no month and year. */
  lemma NoMonthYear(s: string, names: seq<string>)
    requires FirstWs(s) == |s|
    ensures MonthYear(s, names) == None
  {
    assert s[|s|..] == [];
  }

  /** After the current words and both `strptime` formats fail, four digits are the year. */
  lemma YearOnlyTrimmed(d: string)
    requires |d| == 4 && IsDigits(d)
    requires MonthYear(d, MonthAbbrevs) == None && MonthYear(d, MonthKeys) == None
    requires !IsCurrentWord(Lower(d))
    ensures ParseTrimmed(d) == ParsedDate("", d, false)
  {
  }

  /** After the current words, the first `strptime` format that matches decides. */
  lemma MonthYearTrimmed(s: string, m: nat, y: nat)
    requires m < 12 && 1 <= y <= 9999
    requires !IsCurrentWord(Lower(s))
    requires MonthYear(s, MonthAbbrevs) == Some((m, y))
             || (MonthYear(s, MonthAbbrevs) == None && MonthYear(s, MonthKeys) == Some((m, y)))
    ensures ParseTrimmed(s) == ParsedDate(MonthNames[m], NatToString(y), false)
  {
  }

  /**
   * `strptime` round trip: a month name in either form and any case,
   * whitespace, and four digits parse to that month's full name and the
   * year printed without leading zeros.
   */
  lemma MonthYearParses(n: string, w: string, yd: string, m: nat)
    requires NamesMonth(n, m)
    requires |w| > 0 && forall i :: 0 <= i < |w| ==> IsWs(w[i])
    requires |yd| == 4 && IsDigits(yd) && DigitsValue(yd) >= 1
    ensures ParseDate(n + w + yd) == ParsedDate(MonthNames[m], NatToString(DigitsValue(yd)), false)
  {
    DigitsBound(yd);
    MonthDateTrimmed(n, w, yd, m);
    MonthDateFormats(n, w, yd, m);
    MonthYearTrimmed(n + w + yd, m, DigitsValue(yd));
  }

  /** A month date is parsed as it stands and is no current word. */
  lemma MonthDateTrimmed(n: string, w: string, yd: string, m: nat)
    requires NamesMonth(n, m)
    requires |yd| == 4 && IsDigits(yd)
    ensures ParseDate(n + w + yd) == ParseTrimmed(n + w + yd)
    ensures !IsCurrentWord(Lower(n + w + yd))
  {
    MonthDateEnds(n, w, yd, m);
    TrimmedParse(n + w + yd);
    NotCurrentWord(Lower(n + w + yd));
  }

  /** `%b` matches a short name; a full name other than "May" falls through to `%B`. */
  lemma MonthDateFormats(n: string, w: string, yd: string, m: nat)
    requires NamesMonth(n, m)
    requires |w| > 0 && forall i :: 0 <= i < |w| ==> IsWs(w[i])
    requires |yd| == 4 && IsDigits(yd) && DigitsValue(yd) >= 1
    ensures var s, y := n + w + yd, DigitsValue(yd);
            MonthYear(s, MonthAbbrevs) == Some((m, y))
            || (MonthYear(s, MonthAbbrevs) == None && MonthYear(s, MonthKeys) == Some((m, y)))
  {
    LettersNoWs(n);
    MonthIndex(n, m);
    TwoFormats(n, w, yd, MonthAbbrevs, MonthKeys, m);
  }

  /** The two `strptime` attempts, for any lists of names. */
  lemma TwoFormats(n: string, w: string, yd: string, short: seq<string>, full: seq<string>, m: nat)
    requires |n| > 0 && forall i :: 0 <= i < |n| ==> !IsWs(n[i])
    requires |w| > 0 && forall i :: 0 <= i < |w| ==> IsWs(w[i])
    requires |yd| == 4 && IsDigits(yd) && DigitsValue(yd) >= 1
    requires IndexOf(short, Lower(n)).Some? ==> IndexOf(short, Lower(n)) == Some(m)
    requires IndexOf(short, Lower(n)).None? ==> IndexOf(full, Lower(n)) == Some(m)
    ensures var s, y := n + w + yd, DigitsValue(yd);
            MonthYear(s, short) == Some((m, y))
            || (MonthYear(s, short) == None && MonthYear(s, full) == Some((m, y)))
  {
    MonthYearOf(n, w, yd, short);
    MonthYearOf(n, w, yd, full);
  }

  /** A month date starts with a letter and ends with a digit. */
  lemma MonthDateEnds(n: string, w: string, yd: string, m: nat)
    requires NamesMonth(n, m)
    requires |yd| == 4 && IsDigits(yd)
    ensures var s := n + w + yd; |s| > 0 && !IsWs(s[0]) && !IsWs(s[|s| - 1])
    ensures var s := n + w + yd; IsDigit(Lower(s)[|s| - 1])
  {
    var s := n + w + yd;
    assert |n| >= 3 && s[0] == n[0] && s[|s| - 1] == yd[3];
    assert Lower(s)[|s| - 1] == LowerChar(yd[3]);
  }

  /** Exactly four digits, and no month, give that year verbatim, leading zeros kept. */
  lemma YearOnlyParses(d: string)
    requires |d| == 4 && IsDigits(d)
    ensures ParseDate(d) == ParsedDate("", d, false)
  {
    TrimmedParse(d);
    DigitsNotCurrent(d);
    DigitsNoMonthYear(d, MonthAbbrevs);
    DigitsNoMonthYear(d, MonthKeys);
    YearOnlyTrimmed(d);
  }

  lemma DigitsNotCurrent(d: string)
    requires |d| > 0 && IsDigits(d)
    ensures !IsCurrentWord(Lower(d))
  {
    assert Lower(d)[|d| - 1] == d[|d| - 1];
    NotCurrentWord(Lower(d));
  }

  lemma DigitsNoMonthYear(d: string, names: seq<string>)
    requires IsDigits(d)
    ensures MonthYear(d, names) == None
  {
    FirstWsAt(d, |d|);
    NoMonthYear(d, names);
  }

  /** `parse_date_string("Jan 2023") == {"month": "January", "year": "2023"}` */
  lemma ShortMonthExample(d: string)
    requires d == "Jan 2023"
    ensures ParseDate(d) == ParsedDate("January", "2023", false)
  {
    var yd := "2023";
    assert d == "Jan" + " " + yd;
    assert Lower("Jan") == MonthAbbrevs[0];
    MonthYearParses("Jan", " ", yd, 0);
    NatToStringOfDigits(yd);
  }

  /** `parse_date_string("January 2024") == {"month": "January", "year": "2024"}` */
  lemma FullMonthExample(d: string)
    requires d == "January 2024"
    ensures ParseDate(d) == ParsedDate("January", "2024", false)
  {
    var yd := "2024";
    assert d == "January" + " " + yd;
    assert Lower("January") == MonthKeys[0];
    MonthYearParses("January", " ", yd, 0);
    NatToStringOfDigits(yd);
  }

  /** A trimmed current word, in any case, marks a current position. */
  lemma CurrentParses(d: string)
    requires |d| > 0 && !IsWs(d[0]) && !IsWs(d[|d| - 1])
    requires IsCurrentWord(Lower(d))
    ensures ParseDate(d) == ParsedDate("", "", true)
  {
    TrimmedParse(d);
  }

  /** `parse_date_string("Present")` is current. */
  lemma PresentExample(d: string)
    requires d == "Present"
    ensures ParseDate(d) == ParsedDate("", "", true)
  {
    assert Lower(d) == CurrentWords[0];
    CurrentParses(d);
  }

  /** A four-digit year with a leading zero parses through `strptime` and loses the zero. */
  lemma LeadingZeroYear(d: string)
    requires d == "May 0999"
    ensures ParseDate(d) == ParsedDate("May", "999", false)
  {
    var yd := "0999";
    assert d == "May" + " " + yd;
    assert Lower("May") == MonthAbbrevs[4];
    assert DigitsValue(yd) == DigitsValue("999") by {
      DigitsLeadingZero(yd);
      assert yd[1..] == "999";
    }
    MonthYearParses("May", " ", yd, 4);
    NatToStringOfDigits("999");
  }

  // ---------------------------------------------------------------------
  // Schema mapping

  /** Characters `.strip(" - ")` removes. */
  const DurationTrim: set<char> := {' ', '-'}

  /** `f"{start} - {end}".strip(" - ")` */
  function Duration(start: string, end: string): (r: string)
    ensures |r| > 0 ==> r[0] !in DurationTrim && r[|r| - 1] !in DurationTrim
    ensures Contains(start + " - " + end, r)
  {
    StripSet(start + " - " + end, DurationTrim)
  }

  /** With both ends clean, the duration is the plain `start - end`. */
  lemma DurationJoins(start: string, end: string)
    requires |start| > 0 && start[0] !in DurationTrim && start[|start| - 1] !in DurationTrim
    requires |end| > 0 && end[0] !in DurationTrim && end[|end| - 1] !in DurationTrim
    ensures Duration(start, end) == start + " - " + end
  {
    var s := start + " - " + end;
    assert s[0] == start[0] && s[|s| - 1] == end[|end| - 1];
  }

  /** No dates at all give an empty duration. */
  lemma DurationEmpty()
    ensures Duration("", "") == ""
  {
    var s := "" + " - " + "";
    assert s == " - ";
    assert RStripSet(s, DurationTrim) == RStripSet(s[..2], DurationTrim);
    assert RStripSet(s[..2], DurationTrim) == RStripSet(s[..1], DurationTrim);
    assert RStripSet(s[..1], DurationTrim) == RStripSet(s[..0], DurationTrim);
  }

  /** One `work_experience` item of the model's record; absent fields are "". */
  datatype WorkItem = WorkItem(company: string, title: string, startDate: string, endDate: string, description: string)

  /** One `education` item of the model's record. */
  datatype EduItem = EduItem(school: string, degree: string, graduationYear: string)

  /** The record the model extracts from a resume. */
  datatype Parsed = Parsed(phone: string, linkedin: string, website: string, location: string, summary: string,
                           skills: seq<string>, work: seq<WorkItem>, education: seq<EduItem>)

  /** One entry of the profile's `experience` list. */
  datatype Experience = Experience(company: string, title: string, duration: string, responsibilities: string,
                                   startMonth: string, startYear: string, endMonth: string, endYear: string,
                                   isCurrent: bool)

  /** One entry of the profile's `education` list. */
  datatype Education = Education(school: string, degree: string, date: string, endYear: string, endMonth: string)

  /** The nested profile `map_to_schema` returns. */
  datatype Profile = Profile(phone: string, linkedin: string, portfolio: string, address: string, summary: string,
                             skills: seq<string>, experience: seq<Experience>, education: seq<Education>)

  /** One experience entry: the fields copied, both dates parsed, the raw dates joined. */
  function ToExperience(item: WorkItem): (e: Experience)
    ensures e.company == item.company && e.title == item.title && e.responsibilities == item.description
    ensures e.duration == Duration(item.startDate, item.endDate)
    ensures e.startMonth == ParseDate(item.startDate).month && e.startYear == ParseDate(item.startDate).year
    ensures e.endMonth == ParseDate(item.endDate).month && e.endYear == ParseDate(item.endDate).year
    // Current exactly when the end date says so.
    ensures e.isCurrent <==> item.endDate != "" && IsCurrentWord(Lower(Strip(item.endDate)))
    // A current position has no end month or year.
    ensures e.isCurrent ==> e.endMonth == "" && e.endYear == ""
  {
    var start := ParseDate(item.startDate);
    var end := ParseDate(item.endDate);
    ParseDateCurrent(item.endDate);
    Experience(item.company, item.title, Duration(item.startDate, item.endDate), item.description,
               start.month, start.year, end.month, end.year, end.isCurrent)
  }

  /**
   * One education entry: the raw graduation year is kept as `date`, and
   * `end_year` is always the parsed year, since the parsed dict always has
   * a `year` key and the `grad_year` default of `.get` never applies.
   */
  function ToEducation(item: EduItem): (e: Education)
    ensures e.school == item.school && e.degree == item.degree && e.date == item.graduationYear
    ensures e.endYear == ParseDate(item.graduationYear).year && e.endMonth == ParseDate(item.graduationYear).month
    ensures e.endYear != "" ==> IsDigits(e.endYear) && |e.endYear| <= 4
  {
    var end := ParseDate(item.graduationYear);
    Education(item.school, item.degree, item.graduationYear, end.year, end.month)
  }

  /** `map_to_schema` */
  function MapToSchema(p: Parsed): (r: Profile)
    // Renamed scalars: website becomes portfolio, location becomes address.
    ensures r.phone == p.phone && r.linkedin == p.linkedin && r.portfolio == p.website
    ensures r.address == p.location && r.summary == p.summary && r.skills == p.skills
    // One entry per item, in order.
    ensures |r.experience| == |p.work| && |r.education| == |p.education|
    ensures forall i :: 0 <= i < |p.work| ==> r.experience[i] == ToExperience(p.work[i])
    ensures forall i :: 0 <= i < |p.education| ==> r.education[i] == ToEducation(p.education[i])
  {
    Profile(p.phone, p.linkedin, p.website, p.location, p.summary, p.skills,
            seq(|p.work|, i requires 0 <= i < |p.work| => ToExperience(p.work[i])),
            seq(|p.education|, i requires 0 <= i < |p.education| => ToEducation(p.education[i])))
  }

  /** A single word that is neither a current word nor four digits parses to no date. */
  lemma WordParsesToNothing(s: string)
    requires |s| > 0 && FirstWs(s) == |s| && !IsWs(s[|s| - 1])
    requires !IsCurrentWord(Lower(s))
    requires !(IsDigits(s) && |s| == 4)
    ensures ParseDate(s) == NoDate
  {
    assert !IsWs(s[0]);
    TrimmedParse(s);
    NoMonthYear(s, MonthAbbrevs);
    NoMonthYear(s, MonthKeys);
  }

  /**
   * A graduation date that does not parse keeps its text in `date` but
   * gets an empty `end_year`: the raw text is never used as the fallback.
   */
  lemma EducationYearNeverFallsBack(item: EduItem)
    requires item.graduationYear == "Spring"
    ensures ToEducation(item).date == "Spring" && ToEducation(item).endYear == ""
  {
    var g := item.graduationYear;
    LettersNoWs(g);
    FirstWsAt(g, |g|);
    assert !IsCurrentWord(Lower(g)) by {
      assert |Lower(g)| == 6;
    }
    assert !IsDigit(g[0]);
    WordParsesToNothing(g);
  }
}

=== FILE: seqs.dfy ===
/** Python list idioms used throughout the source. */
module Seqs {

  /** `xs[:k]`, including Python's meaning of a negative `k` (drop `-k` from the end). */
  function PyTake<T>(xs: seq<T>, k: int): (r: seq<T>)
    ensures k >= 0 ==> |r| == (if k < |xs| then k else |xs|)
    ensures k < 0 ==> |r| == (if |xs| + k > 0 then |xs| + k else 0)
    ensures r == xs[..|r|]
  {
    if k >= 0 then (if k < |xs| then xs[..k] else xs)
    else if |xs| + k > 0 then xs[..|xs| + k]
    else []
  }

  /** No value occurs twice. */
  predicate Distinct<T(==)>(xs: seq<T>) {
    forall i, j :: 0 <= i < j < |xs| ==> xs[i] != xs[j]
  }

  /** `xs` with every element kept in order and none added: a sub-sequence of `ys`. */
  ghost predicate SubsequenceOf<T>(xs: seq<T>, ys: seq<T>)
    decreases |ys|
  {
    if |xs| == 0 then true
    else if |ys| == 0 then false
    else (xs[0] == ys[0] && SubsequenceOf(xs[1..], ys[1..])) || SubsequenceOf(xs, ys[1..])
  }

  lemma {:induction false} SubsequenceAppend<T>(xs: seq<T>, ys: seq<T>, x: T)
    requires SubsequenceOf(xs, ys)
    ensures SubsequenceOf(xs + [x], ys + [x])
    ensures SubsequenceOf(xs, ys + [x])
    decreases |ys|
  {
    if |xs| == 0 {
      if |ys| == 0 {
        assert ([x] + [])[1..] == [];
      } else {
        assert (ys + [x])[1..] == ys[1..] + [x];
        SubsequenceAppend(xs, ys[1..], x);
      }
    } else {
      assert (xs + [x])[1..] == xs[1..] + [x];
      assert (ys + [x])[1..] == ys[1..] + [x];
      if xs[0] == ys[0] && SubsequenceOf(xs[1..], ys[1..]) {
        SubsequenceAppend(xs[1..], ys[1..], x);
      } else {
        SubsequenceAppend(xs, ys[1..], x);
      }
    }
  }

  lemma {:induction false} SubsequenceOfPrefix<T>(xs: seq<T>, ys: seq<T>, k: nat)
    requires SubsequenceOf(xs, ys)
    requires k <= |xs|
    ensures SubsequenceOf(xs[..k], ys)
    decreases |ys|
  {
    if k > 0 {
      assert xs[..k][0] == xs[0];
      assert xs[..k][1..] == xs[1..][..k - 1];
      if xs[0] == ys[0] && SubsequenceOf(xs[1..], ys[1..]) {
        SubsequenceOfPrefix(xs[1..], ys[1..], k - 1);
      } else {
        SubsequenceOfPrefix(xs, ys[1..], k);
      }
    }
  }

  /** `[x for x in xs if p(x)]` */
  function Filter<T>(xs: seq<T>, p: T -> bool): (r: seq<T>)
    ensures forall k :: 0 <= k < |r| ==> p(r[k]) && r[k] in xs
    ensures forall x :: x in xs && p(x) ==> x in r
    decreases |xs|
  {
    if |xs| == 0 then []
    else
      var n := |xs| - 1;
      var init := Filter(xs[..n], p);
      assert xs == xs[..n] + [xs[n]];
      if p(xs[n]) then init + [xs[n]] else init
  }

  /** Filtering keeps the order: the result is a sub-sequence. */
  lemma {:induction false} FilterSubsequence<T>(xs: seq<T>, p: T -> bool)
    ensures SubsequenceOf(Filter(xs, p), xs)
    decreases |xs|
  {
    if |xs| > 0 {
      var n := |xs| - 1;
      FilterSubsequence(xs[..n], p);
      SubsequenceAppend(Filter(xs[..n], p), xs[..n], xs[n]);
      assert xs == xs[..n] + [xs[n]];
    }
  }

  /** An element that passes is appended to what its predecessors left. */
  lemma FilterStep<T>(xs: seq<T>, p: T -> bool, i: nat)
    requires i < |xs| && p(xs[i])
    ensures Filter(xs[..i + 1], p) == Filter(xs[..i], p) + [xs[i]]
  {
    assert xs[..i + 1][..i] == xs[..i];
    assert xs[..i + 1][i] == xs[i];
  }

  /** Filtering a prefix gives a prefix of the filtered whole. */
  lemma {:induction false} FilterPrefix<T>(xs: seq<T>, p: T -> bool, m: nat)
    requires m <= |xs|
    ensures Filter(xs[..m], p) <= Filter(xs, p)
    decreases |xs| - m
  {
    if m < |xs| {
      var n := |xs| - 1;
      FilterPrefix(xs[..n], p, m);
      assert xs[..n][..m] == xs[..m];
      var a, b, c := Filter(xs[..m], p), Filter(xs[..n], p), Filter(xs, p);
      assert b <= c;
      assert b[..|a|] == c[..|a|];
    } else {
      assert xs[..m] == xs;
    }
  }

  /** A sub-sequence holds only elements of the sequence. */
  lemma {:induction false} SubsequenceMembers<T>(xs: seq<T>, ys: seq<T>)
    requires SubsequenceOf(xs, ys)
    ensures forall k :: 0 <= k < |xs| ==> xs[k] in ys
    decreases |ys|
  {
    if |xs| > 0 {
      if xs[0] == ys[0] && SubsequenceOf(xs[1..], ys[1..]) {
        SubsequenceMembers(xs[1..], ys[1..]);
        assert forall k :: 1 <= k < |xs| ==> xs[k] == xs[1..][k - 1];
      } else {
        SubsequenceMembers(xs, ys[1..]);
      }
    }
  }

  /** `[xs[i:i + n] for i in range(0, len(xs), n)]` */
  function Chunks<T>(xs: seq<T>, n: nat): (r: seq<seq<T>>)
    requires n > 0
    ensures Flatten(r) == xs
    ensures forall c :: c in r ==> 0 < |c| <= n
    decreases |xs|
  {
    if |xs| == 0 then []
    else if |xs| <= n then
      assert Flatten([xs]) == xs + Flatten([]);
      [xs]
    else
      var rest := Chunks(xs[n..], n);
      assert xs == xs[..n] + xs[n..];
      assert ([xs[..n]] + rest)[1..] == rest;
      assert Flatten([xs[..n]] + rest) == xs[..n] + Flatten(rest);
      [xs[..n]] + rest
  }

  /** The concatenation of a list of lists. */
  function Flatten<T>(xss: seq<seq<T>>): seq<T> {
    if |xss| == 0 then [] else xss[0] + Flatten(xss[1..])
  }

  /** Every element of a concatenation comes from one of the lists. */
  lemma {:induction false} FlattenMember<T>(xss: seq<seq<T>>, x: T)
    requires x in Flatten(xss)
    ensures exists i :: 0 <= i < |xss| && x in xss[i]
  {
    if x !in xss[0] {
      FlattenMember(xss[1..], x);
      var i :| 0 <= i < |xss[1..]| && x in xss[1..][i];
      assert x in xss[i + 1];
    }
  }

  /** `z` is `f(x, y)` for some `x` of `xs` and `y` of `ys`. */
  ghost predicate InGrid<A, B, C>(z: C, xs: seq<A>, ys: seq<B>, f: (A, B) -> C) {
    exists i, j :: 0 <= i < |xs| && 0 <= j < |ys| && z == f(xs[i], ys[j])
  }

  /** `[f(x, y) for y in ys]` */
  function Row<A, B, C>(x: A, ys: seq<B>, f: (A, B) -> C): (r: seq<C>)
    ensures |r| == |ys|
    ensures forall j :: 0 <= j < |ys| ==> r[j] == f(x, ys[j])
  {
    seq(|ys|, j requires 0 <= j < |ys| => f(x, ys[j]))
  }

  /** `[f(x, y) for x in xs for y in ys]`: every pair, `xs` outermost. */
  function Grid<A, B, C>(xs: seq<A>, ys: seq<B>, f: (A, B) -> C): seq<C>
    decreases |xs|
  {
    if |xs| == 0 then [] else Row(xs[0], ys, f) + Grid(xs[1..], ys, f)
  }

  /** Every element of the grid is `f` of some pair. */
  lemma {:induction false} GridSound<A, B, C>(xs: seq<A>, ys: seq<B>, f: (A, B) -> C)
    ensures forall k :: 0 <= k < |Grid(xs, ys, f)| ==> InGrid(Grid(xs, ys, f)[k], xs, ys, f)
    decreases |xs|
  {
    if |xs| > 0 {
      var row := Row(xs[0], ys, f);
      var rest := Grid(xs[1..], ys, f);
      GridSound(xs[1..], ys, f);
      forall k | 0 <= k < |row + rest|
        ensures InGrid((row + rest)[k], xs, ys, f)
      {
        if k < |row| {
          assert (row + rest)[k] == f(xs[0], ys[k]);
        } else {
          assert (row + rest)[k] == rest[k - |row|];
          assert InGrid(rest[k - |row|], xs[1..], ys, f);
          var i, j :| 0 <= i < |xs[1..]| && 0 <= j < |ys| && rest[k - |row|] == f(xs[1..][i], ys[j]);
          assert (row + rest)[k] == f(xs[i + 1], ys[j]);
        }
      }
    }
  }

  /** Every pair's image is in the grid. */
  lemma {:induction false} GridComplete<A, B, C>(xs: seq<A>, ys: seq<B>, f: (A, B) -> C)
    ensures forall i, j :: 0 <= i < |xs| && 0 <= j < |ys| ==> f(xs[i], ys[j]) in Grid(xs, ys, f)
    decreases |xs|
  {
    if |xs| > 0 {
      var row := Row(xs[0], ys, f);
      var rest := Grid(xs[1..], ys, f);
      GridComplete(xs[1..], ys, f);
      forall i, j | 0 <= i < |xs| && 0 <= j < |ys|
        ensures f(xs[i], ys[j]) in row + rest
      {
        if i == 0 {
          assert row[j] == f(xs[i], ys[j]);
        } else {
          assert xs[1..][i - 1] == xs[i];
          assert f(xs[i], ys[j]) in rest;
        }
      }
    }
  }

  lemma {:induction false} GridLength<A, B, C>(xs: seq<A>, ys: seq<B>, f: (A, B) -> C)
    ensures |Grid(xs, ys, f)| == |xs| * |ys|
    decreases |xs|
  {
    if |xs| > 0 {
      GridLength(xs[1..], ys, f);
      calc {
        |Grid(xs, ys, f)|;
        |ys| + |Grid(xs[1..], ys, f)|;
        |ys| + (|xs| - 1) * |ys|;
        { assert (|xs| - 1) * |ys| == |xs| * |ys| - |ys|; }
        |xs| * |ys|;
      }
    }
  }
}

=== FILE: shuffle.dfy ===
/**
 * `random.shuffle(x)`: the Fisher-Yates walk CPython performs, from the last
 * position down to position 1, swapping position `i` with a random position
 * `j` in `[0, i]`. The random numbers are an oracle: `draw(i)` is the raw
 * value drawn at position `i`, reduced into range.
 */
module Shuffle {

  function Swap<T>(a: seq<T>, i: nat, j: nat): (r: seq<T>)
    requires i < |a| && j < |a|
    ensures |r| == |a|
    ensures multiset(r) == multiset(a)
    ensures r[i] == a[j] && r[j] == a[i]
    ensures forall k :: 0 <= k < |a| && k != i && k != j ==> r[k] == a[k]
  {
    a[i := a[j]][j := a[i]]
  }

  /** The swaps for positions `i, i - 1, ..., 1`. */
  function ShuffleDown<T>(a: seq<T>, i: nat, draw: nat -> nat): (r: seq<T>)
    requires i < |a|
    ensures |r| == |a|
    ensures multiset(r) == multiset(a)
    decreases i
  {
    if i == 0 then a
    else ShuffleDown(Swap(a, i, draw(i) % (i + 1)), i - 1, draw)
  }

  /** `random.shuffle(a)` with the random draws supplied by `draw`: a permutation of `a`. */
  function Shuffle<T>(a: seq<T>, draw: nat -> nat): (r: seq<T>)
    ensures |r| == |a|
    ensures multiset(r) == multiset(a)
  {
    if |a| <= 1 then a else ShuffleDown(a, |a| - 1, draw)
  }
}

=== FILE: sorting.dfy ===
/**
 * Python's `list.sort(key=..., reverse=True)`: a stable sort into
 * non-increasing order. Python keeps elements with equal keys in their
 * original relative order even when `reverse=True`, so the model is an
 * insertion sort that places each new element after every element it does
 * not outrank.
 */
module Sorting {

  /** Totality and transitivity of `le` at one triple of elements. */
  ghost predicate PreorderAt<T>(le: (T, T) -> bool, a: T, b: T, c: T) {
    && (le(a, b) || le(b, a))
    && (le(a, b) && le(b, c) ==> le(a, c))
  }

  /**
   * `le(a, b)`: the key of `a` is at most the key of `b`. The facts are
   * drawn out one triple at a time through `Total` and `Trans`.
   */
  ghost predicate TotalPreorder<T(!new)>(le: (T, T) -> bool) {
    forall a, b, c :: PreorderAt(le, a, b, c)
  }

  lemma Total<T(!new)>(a: T, b: T, le: (T, T) -> bool)
    requires TotalPreorder(le)
    ensures le(a, b) || le(b, a)
  {
    assert PreorderAt(le, a, b, a);
  }

  lemma Trans<T(!new)>(a: T, b: T, c: T, le: (T, T) -> bool)
    requires TotalPreorder(le)
    requires le(a, b) && le(b, c)
    ensures le(a, c)
  {
    assert PreorderAt(le, a, b, c);
  }

  /** Non-increasing order: no element outranks an earlier one. */
  predicate SortedDesc<T>(s: seq<T>, le: (T, T) -> bool) {
    forall i, j :: 0 <= i < j < |s| ==> le(s[j], s[i])
  }

  /** `a` and `b` have equal keys. */
  predicate Tied<T>(le: (T, T) -> bool, a: T, b: T) {
    le(a, b) && le(b, a)
  }

  /** The elements of `s` whose key equals the key of `y`, in their order in `s`. */
  function TiedWith<T>(s: seq<T>, y: T, le: (T, T) -> bool): seq<T> {
    if |s| == 0 then []
    else (if Tied(le, s[0], y) then [s[0]] else []) + TiedWith(s[1..], y, le)
  }

  /** Insert `x` into a non-increasing list after every element that is not below it. */
  function InsertDesc<T(!new)>(x: T, s: seq<T>, le: (T, T) -> bool): (r: seq<T>)
    requires TotalPreorder(le)
    requires SortedDesc(s, le)
    ensures SortedDesc(r, le)
    ensures |r| == |s| + 1
    ensures r[0] == x || (|s| > 0 && r[0] == s[0])
  {
    if |s| == 0 then [x]
    else if le(x, s[0]) then
      var rest := InsertDesc(x, s[1..], le);
      assert s == [s[0]] + s[1..];
      assert le(rest[0], s[0]);
      forall i, j | 0 <= i < j < |rest| + 1
        ensures le(([s[0]] + rest)[j], ([s[0]] + rest)[i])
      {
        if i == 0 && j > 1 {
          Trans(rest[j - 1], rest[0], s[0], le);
        }
      }
      [s[0]] + rest
    else
      assert s == [s[0]] + s[1..];
      Total(x, s[0], le);
      forall i, j | 0 <= i < j < |s| + 1
        ensures le(([x] + s)[j], ([x] + s)[i])
      {
        if i == 0 && j > 1 {
          Trans(s[j - 1], s[0], x, le);
        }
      }
      [x] + s
  }

  /** Insertion adds exactly `x`. */
  lemma {:induction false} InsertDescPerm<T(!new)>(x: T, s: seq<T>, le: (T, T) -> bool)
    requires TotalPreorder(le)
    requires SortedDesc(s, le)
    ensures multiset(InsertDesc(x, s, le)) == multiset(s) + multiset{x}
  {
    if |s| > 0 {
      assert s == [s[0]] + s[1..];
      if le(x, s[0]) {
        InsertDescPerm(x, s[1..], le);
      }
    }
  }

  /** `xs.sort(key=k, reverse=True)` where `le` compares keys. */
  function SortDesc<T(!new)>(xs: seq<T>, le: (T, T) -> bool): (r: seq<T>)
    requires TotalPreorder(le)
    ensures SortedDesc(r, le)
    ensures multiset(r) == multiset(xs)
    ensures |r| == |xs|
  {
    if |xs| == 0 then []
    else
      assert xs == xs[..|xs| - 1] + [xs[|xs| - 1]];
      InsertDescPerm(xs[|xs| - 1], SortDesc(xs[..|xs| - 1], le), le);
      InsertDesc(xs[|xs| - 1], SortDesc(xs[..|xs| - 1], le), le)
  }

  lemma TiedWithAppend<T>(a: seq<T>, b: seq<T>, y: T, le: (T, T) -> bool)
    ensures TiedWith(a + b, y, le) == TiedWith(a, y, le) + TiedWith(b, y, le)
  {
    if |a| > 0 {
      var h := if Tied(le, a[0], y) then [a[0]] else [];
      assert (a + b)[0] == a[0];
      assert (a + b)[1..] == a[1..] + b;
      TiedWithAppend(a[1..], b, y, le);
      calc {
        TiedWith(a + b, y, le);
        h + TiedWith(a[1..] + b, y, le);
        h + (TiedWith(a[1..], y, le) + TiedWith(b, y, le));
        (h + TiedWith(a[1..], y, le)) + TiedWith(b, y, le);
        TiedWith(a, y, le) + TiedWith(b, y, le);
      }
    } else {
      assert a + b == b;
    }
  }

  /** If every element of `s` is strictly below `y`, none is tied with it. */
  lemma TiedWithNone<T>(s: seq<T>, y: T, le: (T, T) -> bool)
    requires forall k :: 0 <= k < |s| ==> !le(y, s[k])
    ensures TiedWith(s, y, le) == []
  {
    if |s| > 0 {
      TiedWithNone(s[1..], y, le);
    }
  }

  lemma TiedWithCons<T>(a: T, s: seq<T>, y: T, le: (T, T) -> bool)
    ensures TiedWith([a] + s, y, le) == (if Tied(le, a, y) then [a] else []) + TiedWith(s, y, le)
  {
    assert ([a] + s)[0] == a;
    assert ([a] + s)[1..] == s;
  }

  /** Inserting `x` puts it after every element already tied with it. */
  lemma {:induction false} InsertStable<T(!new)>(x: T, s: seq<T>, y: T, le: (T, T) -> bool)
    requires TotalPreorder(le)
    requires SortedDesc(s, le)
    ensures TiedWith(InsertDesc(x, s, le), y, le)
         == TiedWith(s, y, le) + (if Tied(le, x, y) then [x] else [])
  {
    var tail: seq<T> := if Tied(le, x, y) then [x] else [];
    if |s| == 0 {
      TiedWithCons(x, [], y, le);
    } else if le(x, s[0]) {
      var h: seq<T> := if Tied(le, s[0], y) then [s[0]] else [];
      var rest := InsertDesc(x, s[1..], le);
      assert InsertDesc(x, s, le) == [s[0]] + rest;
      calc {
        TiedWith(InsertDesc(x, s, le), y, le);
        { TiedWithCons(s[0], rest, y, le); }
        h + TiedWith(rest, y, le);
        { InsertStable(x, s[1..], y, le); }
        h + (TiedWith(s[1..], y, le) + tail);
        { TiedWithCons(s[0], s[1..], y, le); assert [s[0]] + s[1..] == s; }
        TiedWith(s, y, le) + tail;
      }
    } else {
      assert InsertDesc(x, s, le) == [x] + s;
      OutranksAll(x, s, y, le);
    }
  }

  /** When `x` outranks the head of a non-increasing list, nothing in the list is tied with `x`. */
  lemma OutranksAll<T(!new)>(x: T, s: seq<T>, y: T, le: (T, T) -> bool)
    requires TotalPreorder(le)
    requires SortedDesc(s, le)
    requires |s| > 0 && !le(x, s[0])
    ensures TiedWith([x] + s, y, le) == TiedWith(s, y, le) + (if Tied(le, x, y) then [x] else [])
  {
    TiedWithCons(x, s, y, le);
    if Tied(le, x, y) {
      forall k | 0 <= k < |s|
        ensures !le(y, s[k])
      {
        if le(y, s[k]) {
          Trans(x, y, s[k], le);
          if k > 0 {
            Trans(x, s[k], s[0], le);
          }
        }
      }
      TiedWithNone(s, y, le);
    }
  }

  /** Stability: for every key, the elements with that key keep their input order. */
  lemma {:induction false} SortStable<T(!new)>(xs: seq<T>, y: T, le: (T, T) -> bool)
    requires TotalPreorder(le)
    ensures TiedWith(SortDesc(xs, le), y, le) == TiedWith(xs, y, le)
  {
    if |xs| > 0 {
      var init := xs[..|xs| - 1];
      var x := xs[|xs| - 1];
      var sorted := SortDesc(init, le);
      var tail: seq<T> := if Tied(le, x, y) then [x] else [];
      calc {
        TiedWith(SortDesc(xs, le), y, le);
        TiedWith(InsertDesc(x, sorted, le), y, le);
        { InsertStable(x, sorted, y, le); }
        TiedWith(sorted, y, le) + tail;
        { SortStable(init, y, le); }
        TiedWith(init, y, le) + tail;
        { assert [x][1..] == []; }
        TiedWith(init, y, le) + TiedWith([x], y, le);
        { TiedWithAppend(init, [x], y, le); assert xs == init + [x]; }
        TiedWith(xs, y, le);
      }
    }
  }
}

=== FILE: text.dfy ===
/**
 * Python `str` operations the source relies on, over `seq<char>`.
 * Whitespace is Python's full whitespace set; case mapping is ASCII case
 * mapping, as the source only ever lower-cases file names and URLs.
 */
module Text {

  /**
   * The characters `str.isspace()` accepts, which are the ones `str.strip()`,
   * `str.split()` and the regular expression class `\s` treat as whitespace.
   */
  const Whitespace: set<char> := {
    '\t', '\n', '\U{000B}', '\U{000C}', '\r', '\U{001C}', '\U{001D}', '\U{001E}', '\U{001F}', ' ',
    '\U{0085}', '\U{00A0}', '\U{1680}', '\U{2000}', '\U{2001}', '\U{2002}', '\U{2003}', '\U{2004}',
    '\U{2005}', '\U{2006}', '\U{2007}', '\U{2008}', '\U{2009}', '\U{200A}', '\U{2028}', '\U{2029}',
    '\U{202F}', '\U{205F}', '\U{3000}'
  }

  predicate IsWs(c: char) {
    c in Whitespace
  }

  predicate NoWs(s: string) {
    forall i :: 0 <= i < |s| ==> !IsWs(s[i])
  }

  /** `s.rstrip(chars)`: drop the longest suffix made only of `cs`. */
  function RStripSet(s: string, cs: set<char>): (r: string)
    ensures |r| <= |s| && r == s[..|r|]
    ensures forall i :: |r| <= i < |s| ==> s[i] in cs
    ensures |r| > 0 ==> r[|r| - 1] !in cs
    decreases |s|
  {
    if |s| > 0 && s[|s| - 1] in cs then RStripSet(s[..|s| - 1], cs) else s
  }

  /** `s.lstrip(chars)`: drop the longest prefix made only of `cs`. */
  function LStripSet(s: string, cs: set<char>): (r: string)
    ensures |r| <= |s| && r == s[|s| - |r|..]
    ensures forall i :: 0 <= i < |s| - |r| ==> s[i] in cs
    ensures |r| > 0 ==> r[0] !in cs
    decreases |s|
  {
    if |s| > 0 && s[0] in cs then LStripSet(s[1..], cs) else s
  }

  /** `s.strip(chars)` */
  function StripSet(s: string, cs: set<char>): (r: string)
    ensures |r| <= |s|
    ensures |r| > 0 ==> r[0] !in cs && r[|r| - 1] !in cs
    ensures Contains(s, r)
  {
    var t := RStripSet(s, cs);
    var r := LStripSet(t, cs);
    assert s[|t| - |r|..|t|] == t[|t| - |r|..];
    assert SubAt(s, r, |t| - |r|);
    r
  }

  /** `s.strip()` */
  function Strip(s: string): (r: string)
    ensures |r| <= |s|
    ensures |r| > 0 ==> !IsWs(r[0]) && !IsWs(r[|r| - 1])
    ensures Contains(s, r)
  {
    StripSet(s, Whitespace)
  }

  /** Stripping a string that has no surrounding whitespace changes nothing. */
  lemma StripOfTrimmed(s: string)
    requires |s| > 0 ==> !IsWs(s[0]) && !IsWs(s[|s| - 1])
    ensures Strip(s) == s
  {
  }

  function LowerChar(c: char): char {
    if 'A' <= c <= 'Z' then (c as int - 'A' as int + 'a' as int) as char else c
  }

  /** `s.lower()` */
  function Lower(s: string): (r: string)
    ensures |r| == |s|
    ensures forall i :: 0 <= i < |s| ==> r[i] == LowerChar(s[i])
  {
    seq(|s|, i requires 0 <= i < |s| => LowerChar(s[i]))
  }

  predicate StartsWith(s: string, prefix: string) {
    |prefix| <= |s| && s[..|prefix|] == prefix
  }

  predicate EndsWith(s: string, suffix: string) {
    |suffix| <= |s| && s[|s| - |suffix|..] == suffix
  }

  /** `sub` occurs in `s` starting at index `i`. */
  predicate SubAt(s: string, sub: string, i: int) {
    0 <= i && i + |sub| <= |s| && s[i..i + |sub|] == sub
  }

  /** `sub in s` */
  predicate Contains(s: string, sub: string) {
    exists i | 0 <= i <= |s| - |sub| :: SubAt(s, sub, i)
  }

  lemma ContainsSelf(s: string)
    ensures Contains(s, s)
  {
    assert SubAt(s, s, 0);
  }

  /** Every character of a substring is a character of the string. */
  lemma SubChars(s: string, sub: string)
    requires Contains(s, sub)
    ensures forall i :: 0 <= i < |sub| ==> sub[i] in s
  {
    var k :| 0 <= k <= |s| - |sub| && SubAt(s, sub, k);
    forall i | 0 <= i < |sub|
      ensures sub[i] in s
    {
      assert sub[i] == s[k + i];
    }
  }

  /** A substring of a part is a substring of any string the part sits in. */
  lemma ContainsInContext(pre: string, mid: string, post: string, sub: string)
    requires Contains(mid, sub)
    ensures Contains(pre + mid + post, sub)
  {
    var i :| 0 <= i <= |mid| - |sub| && SubAt(mid, sub, i);
    var s := pre + mid + post;
    assert s[|pre| + i..|pre| + i + |sub|] == mid[i..i + |sub|];
    assert SubAt(s, sub, |pre| + i);
  }

  /** `s.replace(pat, rep)`: non-overlapping occurrences, scanned left to right. */
  function Replace(s: string, pat: string, rep: string): (r: string)
    requires |pat| > 0
    ensures !Contains(s, pat) ==> r == s
    decreases |s|
  {
    if |s| < |pat| then s
    else if s[..|pat|] == pat then
      assert SubAt(s, pat, 0);
      rep + Replace(s[|pat|..], pat, rep)
    else
      ReplaceSkip(s, pat);
      [s[0]] + Replace(s[1..], pat, rep)
  }

  lemma ReplaceSkip(s: string, pat: string)
    requires |s| > 0
    ensures !Contains(s, pat) ==> !Contains(s[1..], pat)
  {
    if Contains(s[1..], pat) {
      var i :| 0 <= i <= |s[1..]| - |pat| && SubAt(s[1..], pat, i);
      assert s[i + 1..i + 1 + |pat|] == s[1..][i..i + |pat|];
      assert SubAt(s, pat, i + 1);
    }
  }

  /** Replacing adds only characters of the replacement. */
  lemma {:induction false} ReplaceAvoids(s: string, pat: string, rep: string, cs: set<char>)
    requires |pat| > 0
    requires forall i :: 0 <= i < |s| ==> s[i] !in cs
    requires forall i :: 0 <= i < |rep| ==> rep[i] !in cs
    ensures forall i :: 0 <= i < |Replace(s, pat, rep)| ==> Replace(s, pat, rep)[i] !in cs
    decreases |s|
  {
    if |s| >= |pat| {
      if s[..|pat|] == pat {
        ReplaceAvoids(s[|pat|..], pat, rep, cs);
      } else {
        ReplaceAvoids(s[1..], pat, rep, cs);
      }
    }
  }

  /** `re.sub('[...]', '', s)`: delete every character of the class `cs`. */
  function RemoveChars(s: string, cs: set<char>): (r: string)
    ensures |r| <= |s|
    ensures forall i :: 0 <= i < |r| ==> r[i] !in cs
  {
    if |s| == 0 then []
    else
      var rest := RemoveChars(s[1..], cs);
      if s[0] in cs then rest else [s[0]] + rest
  }

  /** Every character outside the class survives, as often as it occurs. */
  lemma {:induction false} RemoveCharsKeeps(s: string, cs: set<char>)
    ensures forall c :: c !in cs ==> multiset(RemoveChars(s, cs))[c] == multiset(s)[c]
  {
    if |s| > 0 {
      RemoveCharsKeeps(s[1..], cs);
      assert s == [s[0]] + s[1..];
    }
  }

  /** Deleting characters that do not occur changes nothing. */
  lemma {:induction false} RemoveAbsentChars(s: string, cs: set<char>)
    requires forall i :: 0 <= i < |s| ==> s[i] !in cs
    ensures RemoveChars(s, cs) == s
  {
    if |s| > 0 {
      RemoveAbsentChars(s[1..], cs);
      assert s == [s[0]] + s[1..];
    }
  }

  /** Deleting a class distributes over concatenation. */
  lemma {:induction false} RemoveCharsConcat(a: string, b: string, cs: set<char>)
    ensures RemoveChars(a + b, cs) == RemoveChars(a, cs) + RemoveChars(b, cs)
    decreases |a|
  {
    if |a| > 0 {
      assert (a + b)[1..] == a[1..] + b;
      RemoveCharsConcat(a[1..], b, cs);
    } else {
      assert a + b == b;
    }
  }

  /** `sep.join(parts)` */
  function Join(sep: string, parts: seq<string>): string {
    if |parts| == 0 then ""
    else if |parts| == 1 then parts[0]
    else parts[0] + sep + Join(sep, parts[1..])
  }

  predicate IsDigit(c: char) {
    '0' <= c <= '9'
  }

  /** `s.isdigit()` over ASCII digits: non-empty and digits only. */
  predicate IsDigits(s: string) {
    |s| > 0 && forall i :: 0 <= i < |s| ==> IsDigit(s[i])
  }

  /** `int(s)` for a string of decimal digits. */
  function DigitsValue(s: string): nat
    requires forall i :: 0 <= i < |s| ==> IsDigit(s[i])
    decreases |s|
  {
    if |s| == 0 then 0
    else
      assert IsDigit(s[|s| - 1]);
      DigitsValue(s[..|s| - 1]) * 10 + (s[|s| - 1] as int - '0' as int)
  }

  function Pow10(n: nat): (r: nat)
    ensures r >= 1
  {
    if n == 0 then 1 else 10 * Pow10(n - 1)
  }

  /** `n` digits denote a number below `10^n`. */
  lemma {:induction false} DigitsValueBound(s: string)
    requires forall i :: 0 <= i < |s| ==> IsDigit(s[i])
    ensures DigitsValue(s) < Pow10(|s|)
    decreases |s|
  {
    if |s| > 0 {
      DigitsValueBound(s[..|s| - 1]);
    }
  }

  /** A digit string with a non-zero lead denotes at least `10^(n-1)`. */
  lemma {:induction false} DigitsValueLead(s: string)
    requires IsDigits(s) && s[0] != '0'
    ensures DigitsValue(s) >= Pow10(|s| - 1)
    decreases |s|
  {
    if |s| > 1 {
      DigitsValueLead(s[..|s| - 1]);
    }
  }

  /** `str(n)` for a natural number: decimal, no leading zeros. */
  function NatToString(n: nat): (r: string)
    ensures IsDigits(r)
    ensures |r| > 1 ==> r[0] != '0'
    ensures DigitsValue(r) == n
    decreases n
  {
    var d := [('0' as int + n % 10) as char];
    if n < 10 then d
    else
      var hi := NatToString(n / 10);
      assert (hi + d)[..|hi + d| - 1] == hi;
      hi + d
  }

  /** Canonical digit strings print back unchanged: `str(int(s)) == s`. */
  lemma {:induction false} NatToStringOfDigits(s: string)
    requires IsDigits(s) && (|s| > 1 ==> s[0] != '0')
    ensures NatToString(DigitsValue(s)) == s
    decreases |s|
  {
    var n := DigitsValue(s);
    var c := s[|s| - 1];
    if |s| == 1 {
      assert s[..0] == [] && DigitsValue(s[..0]) == 0;
      assert n == DigitsValue(s[..0]) * 10 + (c as int - '0' as int);
      assert [('0' as int + n % 10) as char] == [c];
    } else {
      var init := s[..|s| - 1];
      DigitsValueLead(init);
      NatToStringOfDigits(init);
      assert n / 10 == DigitsValue(init) && n % 10 == c as int - '0' as int;
      assert s == init + [c];
    }
  }

  /** A leading zero adds nothing to the value. */
  lemma {:induction false} DigitsLeadingZero(s: string)
    requires IsDigits(s) && |s| > 1 && s[0] == '0'
    ensures DigitsValue(s) == DigitsValue(s[1..])
    decreases |s|
  {
    var init := s[..|s| - 1];
    assert s[1..][..|s| - 2] == init[1..];
    if |init| > 1 {
      DigitsLeadingZero(init);
    } else {
      assert init[..0] == [] && s[1..][..0] == [];
    }
  }

  /** Python's `a <= b` on strings: code point by code point, a prefix first. */
  predicate StrLe(a: string, b: string)
    decreases |a|
  {
    if |a| == 0 then true
    else if |b| == 0 then false
    else if a[0] != b[0] then a[0] < b[0]
    else StrLe(a[1..], b[1..])
  }

  lemma {:induction false} StrLeTotal(a: string, b: string)
    ensures StrLe(a, b) || StrLe(b, a)
    decreases |a|
  {
    if |a| > 0 && |b| > 0 && a[0] == b[0] {
      StrLeTotal(a[1..], b[1..]);
    }
  }

  lemma {:induction false} StrLeTrans(a: string, b: string, c: string)
    requires StrLe(a, b) && StrLe(b, c)
    ensures StrLe(a, c)
    decreases |a|
  {
    if |a| > 0 && |b| > 0 && |c| > 0 && a[0] == b[0] && b[0] == c[0] {
      StrLeTrans(a[1..], b[1..], c[1..]);
    }
  }
}

=== FILE: uploads.dfy ===
/**
 * The resume-file endpoints (app/api/uploads.py): extension validation,
 * the resume listing, and the profile edits made when a resume is
 * uploaded or deleted. Storage and the database are oracles.
 */
module Uploads {
  import opened Wrappers
  import opened Text
  import opened Json
  import Sorting

  type Row = map<string, Value>

  const AllowedExtensions: set<string> := {".pdf", ".docx", ".doc"}
  const StatusKey := "research_status"

  /** The index of the last `c` in `s`, or -1. */
  function RFind(s: string, c: char): (r: int)
    ensures -1 <= r < |s|
    ensures r >= 0 ==> s[r] == c
    ensures forall k :: r < k < |s| ==> s[k] != c
  {
    if |s| == 0 then -1
    else if s[|s| - 1] == c then |s| - 1
    else RFind(s[..|s| - 1], c)
  }

  /** The last `c` is at `i` when `s[i]` is `c` and nothing after it is. */
  lemma {:induction false} RFindAt(s: string, c: char, i: int)
    requires -1 <= i < |s|
    requires i >= 0 ==> s[i] == c
    requires forall k :: i < k < |s| ==> s[k] != c
    ensures RFind(s, c) == i
    decreases |s|
  {
    if |s| > 0 && |s| - 1 != i {
      RFindAt(s[..|s| - 1], c, i);
    }
  }

  /** Only dots between positions `lo` and `hi`. */
  predicate DotsBetween(s: string, lo: int, hi: int)
    requires 0 <= lo && hi <= |s|
  {
    forall k :: lo <= k < hi ==> s[k] == '.'
  }

  /**
   * `os.path.splitext(p)[1]`: from the last dot of the base name, unless
   * that dot only follows leading dots (`.bashrc` has no extension).
   */
  function Ext(p: string): (r: string)
    ensures r == "" || (|r| <= |p| && r == p[|p| - |r|..] && r[0] == '.')
    ensures forall k :: |p| - |r| < k < |p| ==> p[k] != '.' && p[k] != '/'
  {
    var slash := RFind(p, '/');
    var dot := RFind(p, '.');
    if dot > slash && !DotsBetween(p, slash + 1, dot) then
      p[dot..]
    else ""
  }

  /** A name ending in `.e` after a base name that does not start with a dot has extension `.e`. */
  lemma ExtOfName(stem: string, e: string)
    requires |stem| > 0 && stem[0] != '.'
    requires forall k :: 0 <= k < |stem| ==> stem[k] != '/'
    requires forall k :: 0 <= k < |e| ==> e[k] != '.' && e[k] != '/'
    ensures Ext(stem + "." + e) == "." + e
  {
    var p := stem + "." + e;
    assert forall k :: |stem| < k < |p| ==> p[k] == e[k - |stem| - 1];
    RFindAt(p, '.', |stem|);
    RFindAt(p, '/', -1);
    assert p[0] == stem[0];
    assert p[|stem|..] == "." + e;
  }

  /** A hidden file named only `.e` has no extension. */
  lemma HiddenFileHasNoExt(e: string)
    requires forall k :: 0 <= k < |e| ==> e[k] != '.' && e[k] != '/'
    ensures Ext("." + e) == ""
  {
    var p := "." + e;
    assert forall k :: 0 < k < |p| ==> p[k] == e[k - 1];
    RFindAt(p, '.', 0);
    RFindAt(p, '/', -1);
  }

  /** `validate_extension` accepts exactly these names. */
  predicate Acceptable(filename: string) {
    Lower(Ext(filename)) in AllowedExtensions
  }

  /**
   * `validate_extension`: nothing, or a 400. `listing` is the rendering of
   * the allowed set in its iteration order.
   */
  function ValidateExtension(filename: string, listing: string): (r: Result<(), HttpError>)
    ensures r.Success? <==> Acceptable(filename)
    ensures r.Failure? ==> r.error == HttpError(400, "Invalid file type. Allowed: " + listing)
  {
    if Acceptable(filename) then Success(()) else Failure(HttpError(400, "Invalid file type. Allowed: " + listing))
  }

  /** The extension check ignores case. */
  lemma ValidateIgnoresCase(stem: string, e: string, listing: string)
    requires |stem| > 0 && stem[0] != '.'
    requires forall k :: 0 <= k < |stem| ==> stem[k] != '/'
    requires forall k :: 0 <= k < |e| ==> e[k] != '.' && e[k] != '/'
    requires Lower("." + e) in AllowedExtensions
    ensures ValidateExtension(stem + "." + e, listing).Success?
  {
    ExtOfName(stem, e);
  }

  /**
   * A stored file as the storage listing reports it, with the lead count
   * added. The listing always writes the `created_at` key, so a file storage
   * gave no timestamp carries `None` (`createdAt.None?`) into the sort.
   */
  datatype StoredFile = StoredFile(name: string, createdAt: Option<string>, jobCount: int)

  /** `any(name.lower().endswith(ext) for ext in ALLOWED_EXTENSIONS)` */
  predicate Listable(name: string) {
    EndsWith(Lower(name), ".pdf") || EndsWith(Lower(name), ".docx") || EndsWith(Lower(name), ".doc")
  }

  /** The resumes kept by the listing, each with `job_count = counts.get(name, 0)`, in storage order. */
  function Annotated(files: seq<StoredFile>, counts: map<string, int>): (r: seq<StoredFile>)
    ensures |r| <= |files|
    decreases |files|
  {
    if |files| == 0 then []
    else
      var f := files[0];
      var rest := Annotated(files[1..], counts);
      if Listable(f.name) then [f.(jobCount := if f.name in counts then counts[f.name] else 0)] + rest else rest
  }

  /** Exactly the listable files come out, with their lead counts and nothing else changed. */
  lemma {:induction false} AnnotatedExact(files: seq<StoredFile>, counts: map<string, int>, g: StoredFile)
    ensures g in Annotated(files, counts) <==>
              exists f :: f in files && Listable(f.name)
                && g == f.(jobCount := if f.name in counts then counts[f.name] else 0)
    decreases |files|
  {
    if |files| > 0 {
      AnnotatedExact(files[1..], counts, g);
      assert forall f :: f in files <==> f == files[0] || f in files[1..];
    }
  }

  /** The sort key `x.get('created_at', '')` of a file with a timestamp. */
  function CreatedKey(f: StoredFile): string {
    f.createdAt.GetOr("")
  }

  function CreatedLe(a: StoredFile, b: StoredFile): bool {
    StrLe(CreatedKey(a), CreatedKey(b))
  }

  lemma CreatedLeIsPreorder()
    ensures Sorting.TotalPreorder(CreatedLe)
  {
    forall a, b, c
      ensures Sorting.PreorderAt(CreatedLe, a, b, c)
    {
      StrLeTotal(CreatedKey(a), CreatedKey(b));
      if CreatedLe(a, b) && CreatedLe(b, c) {
        StrLeTrans(CreatedKey(a), CreatedKey(b), CreatedKey(c));
      }
    }
  }

  /**
   * Sorting compares every key once there are two or more, and `None`
   * compares with neither a string nor `None`: the sort raises exactly
   * when two or more files are listed and one of them has no timestamp.
   */
  predicate SortRaises(listed: seq<StoredFile>) {
    |listed| >= 2 && exists g :: g in listed && g.createdAt.None?
  }

  /**
   * `list_resumes`: the listable files, annotated, newest `created_at` first
   * (stable); a raise inside is a 500 carrying its message `why`.
   */
  function ListResumes(files: seq<StoredFile>, counts: map<string, int>, why: string): (r: Result<seq<StoredFile>, HttpError>)
    ensures r.Failure? <==> SortRaises(Annotated(files, counts))
    ensures r.Failure? ==> r.error == HttpError(500, why)
    ensures r.Success? ==> multiset(r.value) == multiset(Annotated(files, counts))
    ensures r.Success? ==> forall i, j :: 0 <= i < j < |r.value| ==> StrLe(CreatedKey(r.value[j]), CreatedKey(r.value[i]))
    ensures r.Success? ==> forall g :: g in r.value ==> Listable(g.name)
  {
    var listed := Annotated(files, counts);
    if SortRaises(listed) then Failure(HttpError(500, why))
    else
      CreatedLeIsPreorder();
      var r := Sorting.SortDesc(listed, CreatedLe);
      forall g | g in r
        ensures Listable(g.name)
      {
        assert g in multiset(listed);
        AnnotatedExact(files, counts, g);
      }
      Success(r)
  }

  /** A single listed resume comes back even without a timestamp: nothing is compared. */
  lemma SingleResumeListed(files: seq<StoredFile>, counts: map<string, int>, why: string)
    requires |Annotated(files, counts)| == 1
    ensures ListResumes(files, counts, why) == Success(Annotated(files, counts))
  {
    var listed := Annotated(files, counts);
    var r := ListResumes(files, counts, why).value;
    assert multiset(r) == multiset(listed);
    assert |r| == 1 by { assert |multiset(r)| == |multiset(listed)|; }
    assert r[0] in multiset(listed);
    assert r[0] == listed[0];
    assert r == listed;
  }

  /** Files with the same `created_at` keep their storage order. */
  lemma ListResumesStable(files: seq<StoredFile>, counts: map<string, int>, why: string, y: StoredFile)
    requires ListResumes(files, counts, why).Success?
    ensures Sorting.TiedWith(ListResumes(files, counts, why).value, y, CreatedLe)
         == Sorting.TiedWith(Annotated(files, counts), y, CreatedLe)
  {
    CreatedLeIsPreorder();
    Sorting.SortStable(Annotated(files, counts), y, CreatedLe);
  }

  /** The status record written for a freshly uploaded resume. */
  const IdleEntry: Value := Obj(map["status" := Str("IDLE"), "updated_at" := Str("now")])

  /** What a `research_status` edit does: nothing, a new profile data dict, or raise. */
  datatype Edit = NoEdit | Edited(pd: map<string, Value>) | Raises

  /** `user.get('profile_data') or {}` */
  function ProfileDataOr(user: Row): Value {
    var v := Get(user, "profile_data", Null);
    if Truthy(v) then v else Obj(map[])
  }

  /**
   * The status-map edit of upload (`reset`: the entry becomes IDLE) and of
   * delete (the entry is removed); only an existing entry is touched.
   */
  function EditStatus(pd: Value, filename: string, reset: bool): (r: Edit)
    ensures r.Edited? <==>
              pd.Obj? && StatusKey in pd.fields && pd.fields[StatusKey].Obj? && filename in pd.fields[StatusKey].fields
    // A missing status map or a missing entry is left alone, never created.
    ensures (pd.Obj? && (StatusKey !in pd.fields || (pd.fields[StatusKey].Obj? && filename !in pd.fields[StatusKey].fields)))
              ==> r == NoEdit
    ensures r.Edited? ==>
              && StatusKey in r.pd && r.pd[StatusKey].Obj?
              && (forall k :: k != StatusKey ==> (k in r.pd <==> k in pd.fields))
              && (forall k :: k != StatusKey && k in r.pd ==> r.pd[k] == pd.fields[k])
              && (forall x :: x != filename ==>
                    (x in r.pd[StatusKey].fields <==> x in pd.fields[StatusKey].fields)
                    && (x in r.pd[StatusKey].fields ==> r.pd[StatusKey].fields[x] == pd.fields[StatusKey].fields[x]))
              && (reset ==> filename in r.pd[StatusKey].fields && r.pd[StatusKey].fields[filename] == IdleEntry)
              && (!reset ==> filename !in r.pd[StatusKey].fields)
  {
    match PyIn(StatusKey, pd)
    case None => Raises
    case Some(has) =>
      if !has then NoEdit
      else if !pd.Obj? then Raises
      else
        var statuses := pd.fields[StatusKey];
        match PyIn(filename, statuses)
        case None => Raises
        case Some(present) =>
          if !present then NoEdit
          else if !statuses.Obj? then Raises
          else
            var m := statuses.fields;
            Edited(pd.fields[StatusKey := Obj(if reset then m[filename := IdleEntry] else m - {filename})])
  }

  /** `file.content_type or "application/pdf"` */
  function ContentType(given: Option<string>): (r: string)
    ensures given.Some? && |given.value| > 0 ==> r == given.value
    ensures (given.None? || given.value == "") ==> r == "application/pdf"
  {
    if given.Some? && |given.value| > 0 then given.value else "application/pdf"
  }

  /**
   * The updates `upload_resume` sends for the user's row, or `None` when
   * building them raises: the resume's status entry reset when it exists,
   * and the resume made primary when there is no primary yet.
   */
  function UploadUpdates(user: Row, filename: string): (r: Option<Row>)
    ensures r.Some? ==> ("primary_resume_name" in r.value <==> !Truthy(Get(user, "primary_resume_name", Null)))
    ensures r.Some? && "primary_resume_name" in r.value ==> r.value["primary_resume_name"] == Str(filename)
    ensures r.Some? ==> ("profile_data" in r.value <==> EditStatus(ProfileDataOr(user), filename, true).Edited?)
    ensures r.Some? ==> r.value.Keys <= {"primary_resume_name", "profile_data"}
    ensures r.None? <==> EditStatus(ProfileDataOr(user), filename, true).Raises?
  {
    var e := EditStatus(ProfileDataOr(user), filename, true);
    if e.Raises? then None
    else
      var u: Row := if e.Edited? then map["profile_data" := Obj(e.pd)] else map[];
      Some(if !Truthy(Get(user, "primary_resume_name", Null)) then u["primary_resume_name" := Str(filename)] else u)
  }

  /** An upload never changes an existing primary resume, and never creates a status entry. */
  lemma UploadKeepsPrimaryAndCreatesNoStatus(user: Row, filename: string)
    requires Truthy(Get(user, "primary_resume_name", Null))
    requires ProfileDataOr(user).Obj?
    requires StatusKey in ProfileDataOr(user).fields ==> ProfileDataOr(user).fields[StatusKey].Obj?
    requires StatusKey in ProfileDataOr(user).fields ==> filename !in ProfileDataOr(user).fields[StatusKey].fields
    ensures UploadUpdates(user, filename) == Some(map[])
  {
  }

  /** The reply of an upload and the profile update it issued, if any. */
  datatype Outcome<R> = Outcome(reply: Result<R, HttpError>, issued: Option<Row>)

  /**
   * `upload_resume`: validation first (nothing stored on a 400), then the
   * upload, then the profile edits. `upload` is the storage call, giving
   * the public URL or the exception's message; `why` is the message of a
   * type error raised while building the edits; a failed profile update is
   * logged and swallowed. A missing or empty user row (`not user_data`)
   * means no edits.
   */
  function UploadResume(filename: string, listing: string, contentType: Option<string>,
                        upload: (string, string) -> Result<string, string>, user: Option<Row>, why: string)
    : (r: Outcome<string>)
    ensures !Acceptable(filename) ==> r == Outcome(Failure(HttpError(400, "Invalid file type. Allowed: " + listing)), None)
    ensures r.reply.Success? ==> upload(filename, ContentType(contentType)) == Success(r.reply.value)
    ensures r.issued.Some? ==> user.Some? && |user.value| > 0 && Some(r.issued.value) == UploadUpdates(user.value, filename) && |r.issued.value| > 0
    ensures (r.reply.Success? && user.Some? && |user.value| > 0 && UploadUpdates(user.value, filename).Some?
             && |UploadUpdates(user.value, filename).value| > 0) ==> r.issued.Some?
    // A valid type, a stored file and edits that can be built reply with the file's URL.
    ensures var stored := upload(filename, ContentType(contentType));
            Acceptable(filename) && stored.Success?
            && (user.None? || |user.value| == 0 || UploadUpdates(user.value, filename).Some?)
            ==> r.reply == Success(stored.value)
    // Otherwise a valid type gets a 500: the storage error, or the error raised building the edits.
    ensures Acceptable(filename) && upload(filename, ContentType(contentType)).Failure? ==>
              r == Outcome(Failure(HttpError(500, upload(filename, ContentType(contentType)).error)), None)
    ensures Acceptable(filename) && upload(filename, ContentType(contentType)).Success?
            && user.Some? && |user.value| > 0 && UploadUpdates(user.value, filename).None? ==>
              r == Outcome(Failure(HttpError(500, why)), None)
  {
    match ValidateExtension(filename, listing)
    case Failure(e) => Outcome(Failure(e), None)
    case Success(_) =>
      match upload(filename, ContentType(contentType))
      case Failure(msg) => Outcome(Failure(HttpError(500, msg)), None)
      case Success(url) =>
        if user.None? || |user.value| == 0 then Outcome(Success(url), None)
        else
          match UploadUpdates(user.value, filename)
          case None => Outcome(Failure(HttpError(500, why)), None)
          case Some(updates) =>
            Outcome(Success(url), if |updates| > 0 then Some(updates) else None)
  }

  /**
   * The updates `delete_resume` sends, or `None` when building them raises:
   * the primary resume cleared when it is the deleted one, and its status
   * entry removed when it exists.
   */
  function DeleteUpdates(user: Row, filename: string): (r: Option<Row>)
    ensures r.Some? ==> ("primary_resume_name" in r.value <==> Get(user, "primary_resume_name", Null) == Str(filename))
    ensures r.Some? && "primary_resume_name" in r.value ==> r.value["primary_resume_name"] == Null
    ensures r.Some? ==> ("profile_data" in r.value <==> EditStatus(ProfileDataOr(user), filename, false).Edited?)
    ensures r.Some? ==> r.value.Keys <= {"primary_resume_name", "profile_data"}
    ensures r.None? <==> EditStatus(ProfileDataOr(user), filename, false).Raises?
  {
    var p: Row := if Get(user, "primary_resume_name", Null) == Str(filename) then map["primary_resume_name" := Null] else map[];
    match EditStatus(ProfileDataOr(user), filename, false)
    case Raises => None
    case NoEdit => Some(p)
    case Edited(pd) => Some(p["profile_data" := Obj(pd)])
  }

  /** Deleting a resume that is not primary and has no status entry changes nothing in the profile. */
  lemma DeleteOtherResumeNoUpdate(user: Row, filename: string)
    requires Get(user, "primary_resume_name", Null) != Str(filename)
    requires ProfileDataOr(user).Obj?
    requires StatusKey in ProfileDataOr(user).fields ==> ProfileDataOr(user).fields[StatusKey].Obj?
    requires StatusKey in ProfileDataOr(user).fields ==> filename !in ProfileDataOr(user).fields[StatusKey].fields
    ensures DeleteUpdates(user, filename) == Some(map[])
  {
  }

  /** Upload then delete of the same resume leaves no status entry for it. */
  lemma DeleteRemovesUploadedStatus(pd: Value, filename: string)
    requires EditStatus(pd, filename, true).Edited?
    ensures var after := Obj(EditStatus(pd, filename, true).pd);
            && EditStatus(after, filename, false).Edited?
            && filename !in EditStatus(after, filename, false).pd[StatusKey].fields
  {
  }

  /**
   * `delete_resume`: the profile update (when there is one), then the file
   * removal at `"{user_id}/{filename}"`; an exception anywhere is a 500 with
   * its message, and a failed profile update means the file is not removed.
   */
  function DeleteResume(userId: nat, filename: string, user: Option<Row>, why: string,
                        store: Row -> Result<(), string>, remove: string -> Result<(), string>)
    : (r: Outcome<string>)
    ensures r.reply.Success? ==> r.reply.value == "Deleted successfully" && remove(NatToString(userId) + "/" + filename).Success?
    ensures r.reply.Success? && r.issued.Some? ==> store(r.issued.value).Success?
    ensures r.issued.Some? ==> user.Some? && Some(r.issued.value) == DeleteUpdates(user.value, filename) && |r.issued.value| > 0
    // The file is deleted exactly when the edits can be built, a non-empty update is stored, and the removal works.
    ensures var updates := if user.Some? && |user.value| > 0 then DeleteUpdates(user.value, filename) else Some(map[]);
            r.reply == Success("Deleted successfully") <==>
              && updates.Some?
              && (|updates.value| > 0 ==> store(updates.value).Success?)
              && remove(NatToString(userId) + "/" + filename).Success?
    ensures r.reply.Failure? ==> r.reply.error.code == 500
  {
    var path := NatToString(userId) + "/" + filename;
    var updates := if user.Some? && |user.value| > 0 then DeleteUpdates(user.value, filename) else Some(map[]);
    match updates
    case None => Outcome(Failure(HttpError(500, why)), None)
    case Some(u) =>
      var issued := if |u| > 0 then Some(u) else None;
      if issued.Some? && store(u).Failure? then Outcome(Failure(HttpError(500, store(u).error)), issued)
      else match remove(path)
        case Failure(msg) => Outcome(Failure(HttpError(500, msg)), issued)
        case Success(_) => Outcome(Success("Deleted successfully"), issued)
  }
}

=== FILE: url.dfy ===
/**
 * The part of Python's `urllib.parse.urlparse` the source uses: the
 * network location of a URL, after the clean-up `urlsplit` does first,
 * and the `ValueError` it raises for a half-bracketed location.
 */
module Url {
  import opened Wrappers
  import opened Text

  /** Characters allowed in a URL scheme after its first letter. */
  predicate SchemeChar(c: char) {
    'a' <= c <= 'z' || 'A' <= c <= 'Z' || IsDigit(c) || c == '+' || c == '-' || c == '.'
  }

  predicate IsLetter(c: char) {
    'a' <= c <= 'z' || 'A' <= c <= 'Z'
  }

  /** The index of the first occurrence of `c` in `s`. */
  function FindChar(s: string, c: char): (r: int)
    ensures -1 <= r < |s|
    ensures r >= 0 ==> s[r] == c && forall i :: 0 <= i < r ==> s[i] != c
    ensures r == -1 ==> forall i :: 0 <= i < |s| ==> s[i] != c
  {
    if |s| == 0 then -1
    else if s[0] == c then 0
    else
      var k := FindChar(s[1..], c);
      if k == -1 then -1 else k + 1
  }

  /** The URL after its `scheme:` prefix, when it has a valid one. */
  function AfterScheme(url: string): (r: string)
    ensures |r| <= |url| && r == url[|url| - |r|..]
  {
    var i := FindChar(url, ':');
    if i > 0 && IsLetter(url[0]) && forall k :: 0 <= k < i ==> SchemeChar(url[k]) then url[i + 1..]
    else url
  }

  /** The characters that end a network location. */
  predicate Delim(c: char) {
    c == '/' || c == '?' || c == '#'
  }

  /** The longest prefix of `s` free of delimiters. */
  function UntilDelim(s: string): (r: string)
    ensures |r| <= |s| && r == s[..|r|]
    ensures forall i :: 0 <= i < |r| ==> !Delim(r[i])
    ensures |r| < |s| ==> Delim(s[|r|])
  {
    if |s| == 0 || Delim(s[0]) then ""
    else [s[0]] + UntilDelim(s[1..])
  }

  /** Characters up to U+0020: the C0 controls and space, which `urlsplit` strips from the front. */
  predicate C0OrSpace(c: char) {
    c <= ' '
  }

  /** `url.lstrip(...)` of the C0 controls and space. */
  function LStripC0(url: string): (r: string)
    ensures |r| <= |url| && r == url[|url| - |r|..]
    ensures forall i :: 0 <= i < |url| - |r| ==> C0OrSpace(url[i])
    ensures |r| > 0 ==> !C0OrSpace(r[0])
    decreases |url|
  {
    if |url| > 0 && C0OrSpace(url[0]) then LStripC0(url[1..]) else url
  }

  /** Tab, carriage return and line feed, which `urlsplit` deletes wherever they occur. */
  const Unsafe: set<char> := {'\t', '\r', '\n'}

  /** The text `urlsplit` actually splits. */
  function Sanitized(url: string): (r: string)
    ensures forall i :: 0 <= i < |r| ==> r[i] !in Unsafe
  {
    RemoveChars(LStripC0(url), Unsafe)
  }

  /** What follows `//` up to the next `/`, `?` or `#`; empty without `//`. */
  function RawNetloc(url: string): (r: string)
    ensures forall i :: 0 <= i < |r| ==> !Delim(r[i]) && r[i] !in Unsafe
  {
    var rest := AfterScheme(Sanitized(url));
    assert forall i :: 0 <= i < |rest| ==> rest[i] !in Unsafe by {
      var t := Sanitized(url);
      forall i | 0 <= i < |rest| ensures rest[i] !in Unsafe {
        assert rest[i] == t[|t| - |rest| + i];
      }
    }
    if StartsWith(rest, "//") then UntilDelim(rest[2..]) else ""
  }

  /** A location with an opening bracket but no closing one, or the reverse. */
  predicate Unbalanced(netloc: string) {
    ('[' in netloc) != (']' in netloc)
  }

  /**
   * `urlparse(url).netloc`, or `None` where `urlsplit` raises
   * `ValueError("Invalid IPv6 URL")` because the brackets do not pair up.
   */
  function Netloc(url: string): (r: Option<string>)
    ensures r.None? <==> Unbalanced(RawNetloc(url))
    ensures r.Some? ==> r.value == RawNetloc(url)
    ensures r.Some? ==> forall i :: 0 <= i < |r.value| ==> !Delim(r.value[i]) && r.value[i] !in Unsafe
    ensures r.Some? ==> ('[' in r.value <==> ']' in r.value)
  {
    var n := RawNetloc(url);
    if Unbalanced(n) then None else Some(n)
  }

  /**
   * A URL built as `scheme://host/path` has `host` as its network location,
   * unless `host` holds only one kind of bracket, where parsing raises.
   */
  lemma NetlocOfUrl(scheme: string, host: string, path: string)
    requires |scheme| > 0 && IsLetter(scheme[0])
    requires forall k :: 0 <= k < |scheme| ==> SchemeChar(scheme[k])
    requires forall k :: 0 <= k < |host| ==> !Delim(host[k]) && host[k] !in Unsafe
    requires |path| == 0 || Delim(path[0])
    ensures Netloc(scheme + "://" + host + path) == if Unbalanced(host) then None else Some(host)
  {
    var front := scheme + "://" + host;
    var url := front + path;
    assert url[0] == scheme[0];
    KeepsUnblankFront(url);
    assert forall k :: 0 <= k < |front| ==> front[k] !in Unsafe by {
      assert forall k :: 0 <= k < |scheme| ==> front[k] == scheme[k];
      assert forall k :: 0 <= k < |host| ==> front[|scheme| + 3 + k] == host[k];
    }
    RemoveCharsConcat(front, path, Unsafe);
    RemoveAbsentChars(front, Unsafe);
    var tail := RemoveChars(path, Unsafe);
    assert |tail| == 0 || Delim(tail[0]) by {
      if |path| > 0 {
        assert path[0] !in Unsafe;
      }
    }
    assert Sanitized(url) == front + tail;
    HostOfSplit(scheme, host, tail);
  }

  /** The splitting step of `NetlocOfUrl`, on the sanitized text. */
  lemma HostOfSplit(scheme: string, host: string, tail: string)
    requires |scheme| > 0 && IsLetter(scheme[0])
    requires forall k :: 0 <= k < |scheme| ==> SchemeChar(scheme[k])
    requires forall k :: 0 <= k < |host| ==> !Delim(host[k])
    requires |tail| == 0 || Delim(tail[0])
    ensures var url := scheme + "://" + host + tail;
            StartsWith(AfterScheme(url), "//") && UntilDelim(AfterScheme(url)[2..]) == host
  {
    var url := scheme + "://" + host + tail;
    assert url[|scheme|] == ':';
    assert forall k :: 0 <= k < |scheme| ==> url[k] == scheme[k];
    var i := FindChar(url, ':');
    assert i == |scheme|;
    assert AfterScheme(url) == "//" + host + tail by {
      assert url[|scheme| + 1..] == "//" + host + tail;
    }
    assert ("//" + host + tail)[2..] == host + tail;
    UntilDelimOf(host, tail);
  }

  /** Leading control characters and spaces do not change the network location. */
  lemma NetlocIgnoresLeadingBlanks(pad: string, url: string)
    requires forall k :: 0 <= k < |pad| ==> C0OrSpace(pad[k])
    ensures Netloc(pad + url) == Netloc(url)
  {
    LStripC0Pad(pad, url);
  }

  lemma {:induction false} LStripC0Pad(pad: string, url: string)
    requires forall k :: 0 <= k < |pad| ==> C0OrSpace(pad[k])
    ensures LStripC0(pad + url) == LStripC0(url)
    decreases |pad|
  {
    if |pad| > 0 {
      assert (pad + url)[1..] == pad[1..] + url;
      LStripC0Pad(pad[1..], url);
    } else {
      assert pad + url == url;
    }
  }

  /** A tab or line break inside a URL is deleted before splitting, wherever it sits. */
  lemma NetlocIgnoresLineBreak(a: string, c: char, b: string)
    requires |a| > 0 && !C0OrSpace(a[0])
    requires c in Unsafe
    ensures Netloc(a + [c] + b) == Netloc(a + b)
  {
    var x, y := a + [c] + b, a + b;
    assert x[0] == a[0] && y[0] == a[0];
    KeepsUnblankFront(x);
    KeepsUnblankFront(y);
    RemoveCharsConcat(a + [c], b, Unsafe);
    RemoveCharsConcat(a, [c], Unsafe);
    RemoveCharsConcat(a, b, Unsafe);
    assert RemoveChars([c], Unsafe) == [];
    assert RemoveChars(a + [c], Unsafe) == RemoveChars(a, Unsafe);
    assert Sanitized(x) == Sanitized(y);
  }

  /** Nothing is stripped from a URL that starts with a visible character. */
  lemma KeepsUnblankFront(url: string)
    requires |url| > 0 && !C0OrSpace(url[0])
    ensures LStripC0(url) == url
  {
  }

  lemma {:induction false} UntilDelimOf(host: string, path: string)
    requires forall k :: 0 <= k < |host| ==> !Delim(host[k])
    requires |path| == 0 || Delim(path[0])
    ensures UntilDelim(host + path) == host
    decreases |host|
  {
    if |host| == 0 {
      assert host + path == path;
    } else {
      assert (host + path)[1..] == host[1..] + path;
      UntilDelimOf(host[1..], path);
    }
  }
}

=== FILE: wrappers.dfy ===
/** Failure-compatible wrappers shared by every module of the model. */
module Wrappers {

  /** A value that may be absent: a missing dictionary key, a `None`, or an oracle call that raised. */
  datatype Option<+T> = None | Some(value: T) {

    predicate IsFailure() {
      None?
    }

    function PropagateFailure<U>(): Option<U>
      requires None?
    {
      None
    }

    function Extract(): T
      requires Some?
    {
      value
    }

    /** `dict.get(key, default)` */
    function GetOr(default: T): T {
      match this
      case Some(v) => v
      case None => default
    }
  }

  /** The HTTP-style errors the request handlers raise. */
  datatype HttpError = HttpError(code: int, detail: string)

  /** Either a value or the error the source raises instead of returning. */
  datatype Result<+R, +E> = Success(value: R) | Failure(error: E) {

    predicate IsFailure() {
      Failure?
    }

    function PropagateFailure<U>(): Result<U, E>
      requires Failure?
    {
      Failure(error)
    }

    function Extract(): R
      requires Success?
    {
      value
    }
  }
}
